=== FILE: README.md ===
# labtex: units, measurements and measurement lists in Dafny

This project models the arithmetic core of `labtex`, a small Python library
for laboratory write-ups. The model proves properties about that core. It
covers three parts:

- **Units** (`labtex/unit.py`):
  - A unit is a record of 14 slots: the derived symbols J, V, N, W, T, Pa,
    Hz, C, eV and the base symbols m, g, s, A, K.
  - Each slot holds a metric prefix (p, n, u, µ, m, c, none, k, M, G, T) and
    an integer power.
  - The model covers the string parser with its error cases, `repr`, and the
    unit products and quotients with their prefix rules.
  - It also covers `factorandbasedims`, which resolves a unit to a constant
    factor and a vector of base-unit powers. Unit equality and
    "unitlessness" are defined through that function.
- **Measurements** (`labtex/measurement.py`):
  - A measurement is a value, an absolute uncertainty and a unit.
  - Uncertainty propagation is modelled for `+ - * / **`, for their
    reflected forms, for the `math` wrappers and for `to`. Sums combine
    absolute uncertainties in quadrature. Products and quotients combine
    relative ones.
  - Prefix reconciliation is included: it rewrites a right operand's
    clashing prefixes to the left operand's before a product or quotient.
  - An operand that is the same object as the left operand (`x + x`) is
    fully correlated. The model marks this case with `Itself`.
- **Measurement lists** (`labtex/measurementlist.py`):
  - Construction checks that all units are equal.
  - Also modelled: indexing with negative indices, `values` /
    `uncertainties`, `append`, element-by-element operators (pairwise or
    broadcast) and the static math maps.

Python floats are exact `real`s here. The functions of Python's `math`
module and float `**` are fields of a `MathLib` record passed as a
parameter. The model fails only where Python raises on an exact value, for
example a zero divisor or the logarithm of a non-positive number. Python
exceptions are `Err` values of `Errors.Error`.

Where the library's description and its code differ, the model follows the
code:

- A list built from numbers without an uncertainty does not get the
  population standard deviation of the values. The code's default is
  `math.nan` (`labtex/measurementlist.py:26`), so that default is left out.
- `x - x` is not the correlated case. The code computes it as `x + (-x)`,
  and the negation is a new object, so the two uncertainties add in
  quadrature (`MeasurementLaws.SubSelf`). Only `x + x`, `x * x` and `x / x`
  see the same object on both sides.

Modules, in dependency order:

- `Wrappers`, `Errors`, `Symbols` (the tables), `Powers` (integer powers of reals).
- `Units` (the record and the unit operators), `Numerals`.
- `UnitParse`, `ParseSteps`, `ExpansionParse` (the parser and its step lemmas).
- `UnitAlgebra`, `UnitLaws` (`factorandbasedims` and its algebra).
- `UnitPrint` (`repr`, equality with a string).
- `UnitExamples` (the derived-unit table resolved, and the library's own parsing examples).
- `Reconcile` (prefix reconciliation).
- `Measurements`, `MeasurementLaws`, `MeasurementLists`, `MeasurementListLaws`.
- `Findings` (the discrepancies listed below).

## Model

| member | source | states |
|---|---|---|
| UnitParse.PrefixAt | labtex/unit.py:85-86 | a prefix is taken exactly when a prefix character is followed by a word character, and it is that character |
| UnitParse.SymbolAt | labtex/unit.py:87-89 | a recognised symbol is a prefix of the remaining text |
| UnitParse.PowerAt | labtex/unit.py:92 | a power match starts with `^` and consumes at least two characters |
| UnitParse.StepBody | labtex/unit.py:101-124 | every non-failing pass of the scanning loop consumes at least one character, so the loop ends |
| UnitParse.BracesRewrite | labtex/unit.py:52 | before scanning, each `{` becomes `(` and each `}` becomes `)`, no brace is left, and every other character stays in place |
| ParseSteps.TokenAtText | labtex/unit.py:101-124 | a printed token (prefix, symbol, power) is read back as exactly that token, and the slot assigned carries the power negated after a `/` |
| ParseSteps.TokenStep | labtex/unit.py:120-124 | reading a token assigns its slot (a repeated symbol keeps the last occurrence) and continues after it |
| ParseSteps.SecondSlashStep | labtex/unit.py:96-98 | a second `/` is the error TwoSlashes |
| ParseSteps.TrailingSlashStep | labtex/unit.py:96-106 | a `/` at the end of the text fails, as the index past the end does |
| ParseSteps.StrayStep | labtex/unit.py:106-111 | a parenthesis is the Parentheses error; any other character that is not a space or `1` is UnknownCharacter of it |
| ParseSteps.CaretStep | labtex/unit.py:106-111 | a `^` that follows no symbol is UnknownCharacter('^') |
| ParseSteps.PrefixWithoutSymbolStep | labtex/unit.py:104-113 | a prefix character followed by a word character that starts no symbol is UnknownCharacter of the prefix character |
| ParseSteps.LonePrefixStep | labtex/unit.py:104-113 | a prefix character that is no symbol and is not followed by a word character is UnknownCharacter of it |
| ParseSteps.EndStep | labtex/unit.py:95 | the loop ends with the slots assigned so far |
| ParseSteps.ParseJoin | labtex/unit.py:95-124 | a space-separated sequence of printed tokens parses to the unit with each token's slot assigned in order |
| ExpansionParse.ExpansionParses | labtex/unit.py:11-21 | each derived symbol's base-unit expansion text parses to that expansion (kg with a kilo prefix, powers as in the table) |
| UnitExamples.SingleResolves | labtex/unit.py:218-236 | a unit with one used slot resolves to that slot's exponents and base dimensions, as if it stood alone |
| UnitExamples.ExpansionResolves | labtex/unit.py:11-21 | each derived symbol's expansion is made of base units only, and resolves to the expansion's kilo exponent and its base dimensions |
| UnitExamples.DerivedScaled | labtex/unit.py:218-231 | a derived symbol has the base dimensions of its expansion, and its factor is the expansion's times the table's constant (the electronvolt constant for eV, 1 otherwise) |
| UnitExamples.DerivedIsExpansion | labtex/unit.py:140-143 | a derived symbol without a constant equals its expansion |
| UnitExamples.ParseSymbol | labtex/unit.py:96-126 | the text of a symbol parses to that symbol alone, without prefix and to the power 1 |
| UnitExamples.DerivedEqualsExpansionText | labtex/unit.py:140-143 | comparing a derived symbol with its expansion text succeeds, and answers true exactly when the table gives no constant |
| UnitExamples.JouleEqualsBaseUnits | labtex/unit.py:12 | `Unit("J") == "kg m^2 s^-2"` is true |
| UnitExamples.KilometreIsNotMetre | labtex/unit.py:140-143 | `Unit("km") == "m"` is false, because the factor of km is 1000 times that of m |
| UnitExamples.PrefixedBase | labtex/unit.py:232-235 | a base symbol with a prefix has the prefix's power of ten as its factor |
| UnitExamples.MilliTwoFails | labtex/unit.py:104-113 | `Unit("m2")` raises UnknownCharacter('m'): the prefix is taken and no symbol follows |
| UnitExamples.LoneMicroFails | labtex/unit.py:104-113 | `Unit("u")` raises UnknownCharacter('u') |
| Numerals.DigitsRoundTrip | labtex/unit.py:92 | reading the decimal digits of a natural number gives the number back |
| Units.Mul | labtex/unit.py:146-164 | the corrected product (see Findings): it fails with PrefixConflict exactly when some symbol is present on both sides with different prefixes; otherwise every power is the sum of the two powers, a slot whose power cancels has no prefix, and every other slot keeps the prefix of the left side when the left side uses the symbol and the right side's prefix otherwise |
| Units.Div | labtex/unit.py:174-189 | the corrected quotient (see Findings): it fails with PrefixConflict exactly when some symbol is present on both sides with different prefixes; otherwise every power is the difference, a slot whose power cancels has no prefix, and every other slot keeps the prefix of the side that uses the symbol, the left side first |
| Units.MulNumber | labtex/unit.py:165-171 | multiplying a unit by a plain number, on either side, returns that unit unchanged |
| Units.DivNumber | labtex/unit.py:190-192 | dividing a unit by a number is the product with `1 / c`, so it gives the unit itself, and ZeroDivision for zero |
| Units.Inv | labtex/unit.py:195-201 | the reciprocal unit built by `__rtruediv__` negates every power and keeps every prefix |
| Units.NumberOver | labtex/unit.py:194-203 | `c / u` for a number `c` is the reciprocal unit, because the final multiplication by `c` returns it unchanged |
| Units.Pow | labtex/unit.py:205-212 | an integer power scales every power and keeps every prefix |
| Units.PowReal | labtex/unit.py:205-212 | a real power succeeds exactly when every scaled power is a whole number, and then scales every power |
| Units.Factor | labtex/unit.py:218-236 | the constant factor of `factorandbasedims`; it carries no contract of its own: UnitAlgebra.FactorPositive and UnitAlgebra.FactorIsValue state what it is, and the UnitLaws rows how products, quotients and powers change it |
| Units.BaseDims | labtex/unit.py:218-236 | the base-dimension vector of `factorandbasedims`; it carries no contract of its own: UnitExamples.SingleResolves, UnitExamples.ExpansionResolves and the UnitLaws rows state what it is |
| Units.Equal | labtex/unit.py:140-143 | unit equality: the same factor and the same base dimensions; its laws are UnitLaws.MulRespectsEqual, UnitPrint.NormalEqual and UnitExamples.DerivedIsExpansion |
| Units.SameDims | labtex/measurement.py:313-315 | the same base dimensions, the test of `to` and of a sum; used by Measurements.To and Measurements.Add |
| Units.Unitless | labtex/unit.py:128-133 | all base dimensions cancel; UnitLaws.DimensionlessResolves shows the empty unit is unitless |
| UnitAlgebra.FactorPositive | labtex/unit.py:218-236 | the constant factor of every unit is positive |
| UnitAlgebra.FactorIsValue | labtex/unit.py:218-236 | the slot-by-slot factor equals an independent closed form computed from the unit's exponents: ten to one integer times the electronvolt constant to another |
| UnitLaws.MulResolves | labtex/unit.py:146-169 | when a product succeeds, its factor is the product of the factors and its base dimensions are the sum |
| UnitLaws.DivResolves | labtex/unit.py:174-189 | when a quotient succeeds, its factor times the divisor's factor is the dividend's, and likewise for the dimensions |
| UnitLaws.PowResolves | labtex/unit.py:205-212 | the factor of `u ** n` is the factor to the n-th power, and the dimensions are scaled by n |
| UnitLaws.InvResolves | labtex/unit.py:194-202 | the reciprocal unit's factor is the reciprocal factor, and its dimensions cancel the original's |
| UnitLaws.NumberOverResolves | labtex/unit.py:194-203 | whatever the number, `c / u` has the reciprocal factor of `u` and the negated dimensions |
| UnitLaws.MulNumberIsMulDimensionless | labtex/unit.py:146-167 | multiplying by a number gives a unit equal to the product with the empty unit |
| UnitLaws.InvInvolution | labtex/unit.py:194-202 | taking the reciprocal unit twice gives the unit back |
| UnitLaws.DivIsMulInv | labtex/unit.py:174-189 | `a / b` is `a` times the reciprocal of `b`, error cases included |
| UnitLaws.MulCommutes | labtex/unit.py:146-169 | the unit product is commutative, error cases included |
| UnitLaws.MulSelf | labtex/measurement.py:101-106 | `u * u` succeeds and equals `u ** 2`, the unit the correlated product uses |
| UnitLaws.MulRespectsEqual | labtex/unit.py:140-143 | products of equal units are equal |
| UnitLaws.MulDimensionless | labtex/unit.py:146-169 | multiplying by the empty unit succeeds and gives an equal unit |
| UnitLaws.PowRealIntegral | labtex/unit.py:205-212 | a real power with a whole-number value agrees with the integer power |
| UnitLaws.DimensionlessResolves | labtex/unit.py:128-133 | the empty unit has factor 1 and no base dimensions |
| UnitPrint.Repr | labtex/unit.py:58-67 | the printed form is empty exactly when no slot is used; what it reads back as is stated by UnitPrint.ReprRoundTrip |
| UnitPrint.Normal | labtex/unit.py:58-67 | the printed form forgets the prefix of every slot whose power is zero and nothing else |
| UnitPrint.ReprRoundTrip | labtex/unit.py:58-67 | parsing `repr(u)` gives `u` back with unused prefixes cleared when no power is negative; with a negative power, it fails on the `^` of the `^(-n)` that the brace rewrite produces |
| UnitPrint.NormalEqual | labtex/unit.py:140-143 | clearing unused prefixes keeps a unit equal to itself |
| UnitPrint.EqualsText | labtex/unit.py:140-143 | comparing a unit with a string fails exactly when the string does not parse, with the parser's error; otherwise the answer is whether the unit and the parsed unit have the same factor and the same base dimensions |
| UnitPrint.EqualsOwnRepr | labtex/unit.py:140-143 | a unit equals its own printed form when no power is negative; otherwise the comparison raises |
| Reconcile.AlignEntry | labtex/measurement.py:111-117 | a reconciled slot keeps its power, takes the left prefix when the two clash and is unchanged otherwise, and never clashes afterwards |
| Reconcile.Rescale | labtex/measurement.py:111-117 | the value rescaling of reconciliation is positive |
| Reconcile.AlignCompatible | labtex/measurement.py:111-117 | after reconciliation, the product and quotient of the two units both succeed |
| Reconcile.AlignUnchanged | labtex/measurement.py:111-117 | units without clashing prefixes are left unchanged and their value is not rescaled |
| Reconcile.AlignResolves | labtex/measurement.py:111-117 | reconciliation keeps the dimensions, and the rescaling compensates exactly for the change of factor |
| Measurements.Relative | labtex/measurement.py:19 | the relative uncertainty times the value is the uncertainty; it is zero for a zero value |
| Measurements.Make | labtex/measurement.py:15-21 | construction succeeds exactly when the unit text parses, keeping value and uncertainty, and otherwise reports the parse error |
| Measurements.Convert | labtex/measurement.py:313-319 | the arithmetic of `to`: the result carries the target unit; MeasurementLaws.ConvertKeeps states that it keeps the physical amount and the relative uncertainty |
| Measurements.To | labtex/measurement.py:310-324 | conversion succeeds exactly when the base dimensions agree (DimensionMismatch otherwise) and yields the target unit |
| Measurements.ToText | labtex/measurement.py:310-312 | conversion to a unit text fails with the parse error or converts to the parsed unit |
| Measurements.Add | labtex/measurement.py:42-77 | adding a measurement succeeds exactly when the dimensions agree; a number shifts the value only; a plain list is refused; the result keeps the left unit |
| Measurements.Neg | labtex/measurement.py:82-88 | negation flips the value and keeps uncertainty and unit |
| Measurements.Sub | labtex/measurement.py:90-91 | subtraction succeeds exactly when the dimensions agree; a number shifts the value; a plain list cannot be negated |
| Measurements.RSub | labtex/measurement.py:93-94 | `c - m` has value `c - m.value` and keeps the uncertainty |
| Measurements.Reconciled | labtex/measurement.py:108-117 | the reconciled copy has the aligned unit, which no longer clashes with the left unit, and is zero exactly when the original is |
| Measurements.Mul | labtex/measurement.py:96-134 | the corrected product (see Findings): it fails only on a plain list, never on a zero value after reconciliation; by a number it keeps the unit; the correlated `x * x` has unit `u ** 2`; otherwise relative uncertainties combine in quadrature |
| Measurements.Div | labtex/measurement.py:140-175 | the corrected quotient (see Findings): it fails exactly on a zero divisor or a plain list, never on unused slots with different prefixes; `x / x` is exactly 1 without unit |
| Measurements.RDiv | labtex/measurement.py:177-186 | `c / m` fails exactly on a zero value; its value times `m`'s is `c`; its unit is `c / m.unit`, the reciprocal; its relative uncertainty is `m`'s |
| Measurements.PowMeasurement | labtex/measurement.py:188-201 | a power with a dimensioned exponent is refused; a successful one has a unitless exponent and a positive base; its unit is the base unit to that power; its uncertainty is the result's size times the quadrature sum of the exponent times the base's relative uncertainty and the logarithm of the base times the exponent's uncertainty |
| Measurements.Pow | labtex/measurement.py:188-208 | the power by a number raises the value and the unit, and scales the relative uncertainty by the exponent |
| Measurements.RPow | labtex/measurement.py:210-222 | `c ** m` is refused for a dimensioned `m` and succeeds for a unitless `m` exactly when `c > 0`, with the logarithmic uncertainty and no unit |
| Measurements.Apply | labtex/measurement.py:226-308 | every math function refuses a dimensioned argument, and a result has no unit; log needs a positive value; asin and acos need a value in [-1, 1]; each result is the function of the value, with uncertainty `|cos v| u` for sin, `|sin v| u` for cos, `u / cos² v` for tan, `|u / v|` for log, `u / sqrt(1 - v²)` for asin and acos, and `u / (1 + v²)` for atan; tan fails with ZeroDivision exactly where `cos² v` is zero, and asin and acos exactly where `sqrt(1 - v²)` is |
| MeasurementLaws.ConvertKeeps | labtex/measurement.py:310-320 | conversion keeps the physical amount and the relative uncertainty |
| MeasurementLaws.ToRoundTrip | labtex/measurement.py:310-324 | converting to a unit of the same dimensions and back gives the measurement back |
| MeasurementLaws.ToItself | labtex/measurement.py:310-324 | converting to the measurement's own unit changes nothing |
| MeasurementLaws.AddQuantity | labtex/measurement.py:53-66 | a sum of same-dimension measurements is the sum of their amounts, expressed in the left unit, with quadrature uncertainty |
| MeasurementLaws.AddSelfIsDouble | labtex/measurement.py:45-51 | `x + x` is `2 * x` |
| MeasurementLaws.NegInvolution | labtex/measurement.py:82-88 | negating twice gives the measurement back, and negation negates the amount |
| MeasurementLaws.SubQuantity | labtex/measurement.py:90-91 | a difference of same-dimension measurements is the difference of their amounts |
| MeasurementLaws.SubSelf | labtex/measurement.py:90-91 | `x - x` is zero with uncertainty `hypot(u, u)`, because the negation is a new object |
| MeasurementLaws.RSubIsNegatedSub | labtex/measurement.py:93-94 | `c - m` is the negation of `m - c` |
| MeasurementLaws.ReconciledRelative | labtex/measurement.py:108-117 | prefix reconciliation keeps the relative uncertainty and the physical amount |
| MeasurementLaws.MulQuantity | labtex/measurement.py:108-123 | a product of measurements is the product of their amounts, its dimensions are the sum, and its relative uncertainties combine in quadrature |
| MeasurementLaws.MulNumber | labtex/measurement.py:125-130 | scaling by a number scales the amount and, for a nonzero number, keeps the size of the relative uncertainty |
| MeasurementLaws.MulSelf | labtex/measurement.py:99-106 | `x * x` has the value and unit of the independent product, with uncertainty `2 v u` |
| MeasurementLaws.DivQuantity | labtex/measurement.py:150-164 | a quotient's amount times the divisor's amount is the dividend's amount, with dimensions to match |
| MeasurementLaws.DivSelf | labtex/measurement.py:143-149 | `x / x` is exactly 1 without unit, and an equal but distinct measurement also gives value 1 with a unit equal to no unit |
| MeasurementLaws.DivNumberIsMulInverse | labtex/measurement.py:166-171 | dividing by a nonzero number is multiplying by its reciprocal |
| MeasurementLaws.RDivQuantity | labtex/measurement.py:177-186 | the amount of `c / m` times the amount of `m` is `c` |
| MeasurementLaws.PowInteger | labtex/measurement.py:202-207 | an integer power raises the amount to that power and the unit to the integer power |
| MeasurementLaws.RPowIsExactBasePower | labtex/measurement.py:210-222 | `c ** m` is the power of the exact number `c ± 0` by the measurement `m`, error cases included |
| MeasurementLaws.ApplyGate | labtex/measurement.py:226-308 | a math function fails with DimensionMismatch exactly when its argument has dimensions |
| MeasurementLaws.ApplyCompose | labtex/measurement.py:226-308 | the result of a math function can be fed into another one without a dimension error |
| MeasurementLaws.MakeFromRepr | labtex/measurement.py:15-21 | building a measurement from a unit's printed form gives an equal unit when no power is negative, and a parse error otherwise |
| MeasurementLaws.MakeOf | labtex/measurement.py:15-21 | construction from a text is the parse result with value and uncertainty attached |
| MeasurementLists.FromMeasurements | labtex/measurementlist.py:26-33 | a list from measurements is built exactly when all units equal the first; an empty sequence fails on the first lookup; unequal units give MixedUnits |
| MeasurementLists.FromNumbers | labtex/measurementlist.py:35-38 | a list from numbers needs values, a unit text that parses and enough uncertainties, and takes the parsed unit |
| MeasurementLists.Get | labtex/measurementlist.py:70-71 | indexing succeeds exactly for indices from `-len` to `len - 1`, and fails with IndexOutOfRange otherwise |
| MeasurementLists.Values | labtex/measurementlist.py:76-77 | `values()` lists every element's value, in list order |
| MeasurementLists.Uncertainties | labtex/measurementlist.py:79-80 | `uncertainties()` lists every element's uncertainty, in list order |
| MeasurementLists.Append | labtex/measurementlist.py:82-88 | anything but a list or a measurement is NotAppendable; any other failure is MixedUnits; a result keeps the list's unit and holds the old elements followed by the new ones |
| MeasurementLists.Collect | labtex/measurementlist.py:91-104 | a comprehension succeeds exactly when every element does, and otherwise raises the first element's error |
| MeasurementLists.Binary | labtex/measurementlist.py:91-102 | lists of different lengths are refused with LengthMismatch |
| MeasurementLists.Add | labtex/measurementlist.py:91-103 | lists of different lengths give LengthMismatch and a plain list ListOperand; a result has the list's length and holds at every index the measurement sum of that element and its operand |
| MeasurementLists.Mul | labtex/measurementlist.py:119-131 | as for the sum: LengthMismatch, ListOperand for a plain list, and at every index the measurement product |
| MeasurementLists.Div | labtex/measurementlist.py:136-148 | as for the sum: LengthMismatch, ListOperand for a plain list, and at every index the measurement quotient |
| MeasurementLists.Sub | labtex/measurementlist.py:113-114 | a plain list cannot be negated (UnsupportedOperand), lists of different lengths give LengthMismatch, and a result has the list's length; MeasurementListLaws.SubPairwise states its elements |
| MeasurementLists.RSub | labtex/measurementlist.py:116-117 | a plain list gives ListOperand and a result has the list's length; MeasurementListLaws.RSubNumber states its elements |
| MeasurementLists.RDivList | labtex/measurementlist.py:150-154 | a plain list is UnsupportedOperand; a result holds at every index the scalar divided by that element |
| MeasurementLists.PowList | labtex/measurementlist.py:156-159 | a plain-list exponent is UnsupportedOperand and a result has the list's length; MeasurementListLaws.PowListAt states its elements |
| MeasurementLists.RPowList | labtex/measurementlist.py:161-164 | a plain list is UnsupportedOperand; a result holds at every index the scalar raised to that element |
| MeasurementLists.MapFunction | labtex/measurementlist.py:166-206 | an empty input fails on the first lookup (IndexOutOfRange); a result holds at every index the math function of that element |
| MeasurementLists.ItselfOnlyOnSame | labtex/measurementlist.py:91-103 | under aliasing a list expression can produce, an element meets itself (the `self == obj` case of the measurement operators) only where its operand is that very element |
| MeasurementLists.Neg | labtex/measurementlist.py:108-111 | negating a list negates every element and keeps length and unit |
| MeasurementListLaws.FromNumbersRoundTrip | labtex/measurementlist.py:35-38 | `values()` and `uncertainties()` of a list built from numbers give back the numbers and uncertainties given, and every unit is the parsed unit |
| MeasurementListLaws.GetNegative | labtex/measurementlist.py:70-71 | index `i - len` reaches the same element as `i` |
| MeasurementListLaws.AppendMeasurement | labtex/measurementlist.py:82-88 | appending a measurement succeeds exactly when its unit equals the list's, and then the old list followed by the measurement is what results |
| MeasurementListLaws.AppendList | labtex/measurementlist.py:82-88 | appending a list succeeds exactly when the units are equal, and the values concatenate |
| MeasurementListLaws.BinaryAt | labtex/measurementlist.py:91-102 | a successful element-by-element operation holds, at every index, the measurement operator's result |
| MeasurementListLaws.BinaryFirstError | labtex/measurementlist.py:91-104 | an element-by-element operation fails with the first failing element's error |
| MeasurementListLaws.AddOkIff | labtex/measurementlist.py:91-104 | list addition succeeds exactly when the lengths agree and every element sum succeeds |
| MeasurementListLaws.AddPairwiseQuantity | labtex/measurementlist.py:91-99 | adding lists of the same dimensions adds the amounts index by index |
| MeasurementListLaws.SubPairwise | labtex/measurementlist.py:113-114 | list subtraction is element-by-element measurement subtraction |
| MeasurementListLaws.SubSelf | labtex/measurementlist.py:113-114 | `l - l` is zero at every index with quadrature uncertainty |
| MeasurementListLaws.NegInvolution | labtex/measurementlist.py:108-111 | negating a list twice gives it back; the values are negated |
| MeasurementListLaws.RSubNumber | labtex/measurementlist.py:116-117 | `c - l` holds `c - v` at every index |
| MeasurementListLaws.ScaleByNumber | labtex/measurementlist.py:119-131 | multiplying a list by a number scales every value by it and every uncertainty by its absolute value, and keeps the unit |
| MeasurementListLaws.RDivNumber | labtex/measurementlist.py:150-154 | `c / l` succeeds exactly when no value is zero, and each result times its element is `c` |
| MeasurementListLaws.RPowNumber | labtex/measurementlist.py:161-164 | `c ** l` succeeds exactly when the list is unitless and `c > 0`, giving `c ** v` at every index without unit |
| MeasurementListLaws.PowListAt | labtex/measurementlist.py:156-159 | a list power is the element powers when it succeeds, and fails when any element power fails |
| MeasurementListLaws.MapFunctionOkIff | labtex/measurementlist.py:166-206 | a mapped math function succeeds exactly on a nonempty list whose every element it accepts, and the result has no unit |
| MeasurementListLaws.MapFunctionGate | labtex/measurementlist.py:166-206 | a mapped math function refuses a list with dimensions |
| Findings.CombineAsWritten | labtex/unit.py:150-163 | the slot rule of the product as written: it refuses a slot exactly when both powers are zero or both are nonzero and the prefixes differ |
| Findings.CombineAgrees | labtex/unit.py:150-163 | on slots whose unused prefixes are cleared, the rule as written agrees with the corrected slot rule |
| Findings.CombineGluesPrefix | labtex/unit.py:150-154 | a kilo prefix on an unused slot is glued onto the other side's symbol |
| Findings.QuotientRefusesUnused | labtex/unit.py:178-189 | `(1 ± 0) km^0 / (1 ± 0) s` is refused by the quotient slot rule as written, while the corrected unit quotient and measurement quotient succeed |
| Findings.CombineRefusesUnused | labtex/unit.py:155-163 | two unused slots with different prefixes are refused although neither appears |
| Findings.PowAsWritten | labtex/measurement.py:190-198 | the power by a measurement as written succeeds only for a positive exponent |
| Findings.PowAgreesOnEqualValues | labtex/measurement.py:190-198 | the power as written agrees with the corrected one whenever base and exponent values coincide |
| Findings.PowDomain | labtex/measurement.py:190-198 | the corrected power by a measurement succeeds exactly for a unitless exponent, a positive base and whole unit powers |
| Findings.PowRejectsNegativeExponent | labtex/measurement.py:190-198 | `(2 ± 0.1) ** (-1 ± 0)` fails as written and succeeds corrected |
| Findings.CopyRelativeAsWritten | labtex/measurement.py:111-118 | the relative uncertainty the reconciled copy carries as written equals the original's when no slot clashes, and the recomputation raises ZeroDivision exactly when some slot clashes and the value is zero |
| Findings.CopyRelativeShrinks | labtex/measurement.py:111-118 | as written, the copy's relative uncertainty is the true one divided by the rescaling; the corrected copy keeps the true one |
| Findings.MulAsWritten | labtex/measurement.py:108-123 | the product as written has the same value as the corrected one |
| Findings.MulAgrees | labtex/measurement.py:108-123 | without clashing prefixes, the product as written is the corrected product |
| Findings.MetresRescale | labtex/measurement.py:111-117 | reconciling kilometres to metres rescales by 1000 |
| Findings.MulUnderstates | labtex/measurement.py:108-123 | for `m * (1 ± 0.1) km` the copy carries relative uncertainty 0.0001 as written, against 0.1 corrected |
| Findings.MulCrashesOnZero | labtex/measurement.py:111-118 | `(1 ± 0) m * (0 ± 0.1) km` raises ZeroDivision as written, while the corrected product succeeds |

## Left out

- Display: `Measurement.__repr__`, `Unit.latex`, `MeasurementList.__repr__` and `tableprint` format text for reports. They are not modelled.
- `Unit.addUnit` is not modelled. It mutates the class-level tables at run time, and the model fixes the tables as constants.
- Floating point is not modelled. Values are exact reals, so rounding, infinities and NaN are absent.
- `math` functions and float `**` are not modelled. They are parameters, so their numerical properties are not modelled.
- Float `**` can return complex numbers for a negative base and a fractional exponent. The model treats `pow` as an opaque real function.
- The default list uncertainty `math.nan` is not modelled. A list built from numbers always gets an explicit uncertainty, one per value or one for all.
- `MeasurementList ** MeasurementList` is not modelled. The source gives no pairwise meaning to it, so the model leaves it out.
- A list that mixes measurements and numbers is not modelled. Only all-measurement or all-number inputs are.
- Iteration (`__iter__`) is not modelled. The model uses the item sequence directly.
- `labtex/linear.py`, `labtex/nonlinear.py` and `labtex/document.py` use the core and are not part of this model.
- Reflected operators `__radd__` and `__rmul__` (of measurements and of lists, and `__rmul__` of units, which is `Units.MulNumber`) are not modelled separately. They call the forward operator unchanged, so they are the same functions. The other reflected list operators are modelled on their own: `MeasurementLists.RSub`, `MeasurementLists.RDivList` and `MeasurementLists.RPowList`.
- Units.PowReal: a unit raised to a power that leaves a fractional slot power fails with the model-only error FractionalUnitPower. Python would store a float power, which the integer-powered record cannot hold.
- UnitParse.Parse carries no contract of its own. Its behaviour is stated by ParseSteps, ExpansionParse, UnitExamples and UnitPrint.ReprRoundTrip: the grammar, the printed forms, the slash, caret, parenthesis and stray-character errors, and a prefix with no symbol after it.
- UnitParse.PrefixAt / UnitParse.PowerAt: the word-character test behind the prefix match and the digit test behind the power match are ASCII letters, digits and `_` plus `µ`. Python's `\w` and `\d` also accept other Unicode letters and digits (Arabic-Indic digits, say), so texts with such characters are not modelled.
- Measurements.To: the two lines of diagnostic output that `to` prints before it raises the dimension error (labtex/measurement.py:322-323) are not modelled. The model has no output channel, so only the error is kept.
- Measurements.PowMeasurement: the corrected power takes the logarithm of the base, so it refuses a non-positive base that the code as written accepts (see Findings).
- Units.Factor: no contract of its own. UnitAlgebra.FactorPositive, UnitAlgebra.FactorIsValue and the UnitLaws resolution lemmas state its meaning.
- Units.BaseDims: no contract of its own. UnitExamples.SingleResolves, UnitExamples.ExpansionResolves and the UnitLaws resolution lemmas state its meaning.
- Units.Equal: no contract of its own. It is a definition, and its laws are stated by UnitLaws.MulRespectsEqual, UnitPrint.NormalEqual and the UnitExamples equality lemmas.
- Units.SameDims: no contract of its own. It is the definition the dimension checks of `to` and `+` use.
- Units.Unitless: no contract of its own. It is a definition, and UnitLaws.DimensionlessResolves states the empty unit satisfies it.
- MeasurementLists.Add, MeasurementLists.Mul, MeasurementLists.Div, MeasurementLists.Sub, MeasurementLists.PowList, MeasurementLists.RDivList, MeasurementLists.RPowList: the operators accept any `aliased` index set. Only a set meeting `MeasurementLists.WellAliased` is one a list expression can produce (an aliased index is in range and its element is the operand), and `MeasurementLists.ItselfOnlyOnSame` states what that gives. The operators do not require it, because for any other set they still compute a defined, if unreachable, result.
- MeasurementLists.Sub: the contract states only the error cases and the length. The elements are stated by MeasurementListLaws.SubPairwise and MeasurementListLaws.SubSelf.
- MeasurementLists.RSub: the contract states only the plain-list error and the length. The elements are stated by MeasurementListLaws.RSubNumber.
- MeasurementLists.PowList: the contract states only the plain-list error and the length. The elements are stated by MeasurementListLaws.PowListAt.
- UnitParse.SymbolAt: the contract states only that the symbol read is a prefix of the remaining text. Which symbol a printed token yields is stated by ParseSteps.TokenAtText.
- UnitParse.PowerAt: the contract states only the shape of a match. The value read back is stated by ParseSteps.TokenAtText and Numerals.DigitsRoundTrip.
- UnitParse.StepBody: the contract states only that the scan makes progress. What each pass does is stated by the ParseSteps lemmas.
- Reconcile.Rescale: the contract states only that the rescaling is positive. Its value is fixed by Reconcile.AlignResolves.
- MeasurementLists.Get: the contract states which indices succeed. The element reached is stated by MeasurementListLaws.GetNegative.
- MeasurementLists.Binary: the contract states only the length check. The elements of the result are stated by MeasurementListLaws.BinaryAt and MeasurementListLaws.BinaryFirstError.

## Findings

| source | as written | input that shows it | evidently intended | confidence | as-written member | corrected member |
|---|---|---|---|---|---|---|
| labtex/unit.py:150-163 | when exactly one side uses a symbol, the product and quotient concatenate both prefixes; when neither uses it, two different leftover prefixes raise | `Unit("km^0") * Unit("m")` gives the slot prefix "k", so the result prints as `km` with the factor of kilometres | take the prefix of the side that uses the symbol; refuse only a clash between two used slots | not executed | Findings.CombineAsWritten | Units.Mul |
| labtex/unit.py:178-189 | the quotient uses the same slot rule as the product: when neither side uses a symbol, two different leftover prefixes raise, and reconciliation (labtex/measurement.py:152-158) skips such slots | `Measurement(1, 0, "km^0") / Measurement(1, 0, "s")` raises the prefix error | refuse only a clash between two used slots | not executed | Findings.QuotientRefusesUnused | Units.Div |
| labtex/measurement.py:190-198 | the uncertainty of `x ** y` uses `log(y.value)`, the logarithm of the exponent | `Measurement(2, 0.1) ** Measurement(-1, 0)` raises a math domain error | the partial derivative with respect to `y` is `x ** y * log(x)`: use `log(x.value)`; the corrected power therefore refuses a non-positive base, such as `(-2 ± 0.1) ** (2 ± 0)`, which the code as written accepts | not executed | Findings.PowAsWritten | Measurements.PowMeasurement |
| labtex/measurement.py:111-118 | prefix reconciliation multiplies the copy's value and recomputes its relative uncertainty from the unscaled absolute uncertainty (lines 152-159 repeat this for `/`) | `Measurement(1, 0, "m") * Measurement(1, 0.1, "km")` uses relative uncertainty 0.0001 instead of 0.1 | rescale the uncertainty with the value, so the relative uncertainty is unchanged | not executed | Findings.CopyRelativeAsWritten | Measurements.Reconciled |
| labtex/measurement.py:111-118 | the recomputed relative uncertainty divides by the rescaled value, also when that value is zero (lines 152-159 repeat this for `/`) | `Measurement(1, 0, "m") * Measurement(0, 0.1, "km")` raises ZeroDivisionError | a zero value has relative uncertainty zero, as the constructor (line 19) already treats it | not executed | Findings.MulCrashesOnZero | Measurements.Mul |

=== FILE: errors.dfy ===
/** The exceptions the library raises, one constructor per distinct failure. */
module Errors {

  /** Why a unit string is rejected by the parser. */
  datatype ParseError =
    | TwoSlashes                 // a second '/' in one unit string
    | Parentheses                // '(' or ')', also '{' and '}' after rewriting
    | UnknownCharacter(c: char)  // a character that starts no prefix, symbol, space or '1'
    | NothingAfterSlash          // a trailing '/': Python indexes past the end of the string

  datatype Error =
    | BadUnit(reason: ParseError)
    | PrefixConflict        // two units share a symbol with different prefixes
    | DimensionMismatch     // adding, converting or exponentiating across dimensions
    | ZeroDivision
    | MathDomain            // `math.log` or `math.sqrt` outside its real domain
    | FractionalUnitPower   // a unit raised to a power that leaves a non-integral exponent
    | LengthMismatch        // elementwise operation on lists of different lengths
    | MixedUnits            // a list whose elements do not share one unit
    | IndexOutOfRange
    | NotAppendable
    | ListOperand           // a Measurement combined with a plain list
    | UnsupportedOperand    // Python's `NotImplemented`, surfacing as a `TypeError`
}

=== FILE: expansion_parse.dfy ===
/** The derived-unit table stores each expansion as text, and resolution
    parses that text every time. These lemmas state that the text parses to
    the expansion the resolver is defined with. */
module ExpansionParse {
  import opened Wrappers
  import opened Symbols
  import opened Errors
  import opened Numerals
  import opened Units
  import opened UnitParse
  import opened ParseSteps

  const Kg: Token := Token(Kilo, Gram, None)

  function Base(s: Symbol, n: int): Token {
    Token(NoPrefix, s, if n == 1 then None else Some(n))
  }

  /** The tokens of each expansion text, in the order the text writes them. */
  function ExpansionTokens(s: Symbol): seq<Token>
    requires !IsBase(s)
  {
    match s
    case Joule => [Kg, Base(Metre, 2), Base(Second, -2)]
    case Volt => [Kg, Base(Metre, 2), Base(Second, -3), Base(Ampere, -1)]
    case Newton => [Kg, Base(Metre, 1), Base(Second, -2)]
    case Watt => [Kg, Base(Metre, 2), Base(Second, -3)]
    case Tesla => [Kg, Base(Second, -2), Base(Ampere, -1)]
    case Pascal => [Kg, Base(Metre, -1), Base(Second, -2)]
    case Hertz => [Base(Second, -1)]
    case Celsius => [Base(Kelvin, 1)]
    case ElectronVolt => [Kg, Base(Metre, 2), Base(Second, -2)]
  }

  lemma SmallNumerals()
    ensures IntToString(2) == "2" && IntToString(-1) == "-1" && IntToString(-2) == "-2" && IntToString(-3) == "-3"
  {
    assert NatToString(1) == [DigitChar(1)] == "1";
    assert NatToString(2) == [DigitChar(2)] == "2";
    assert NatToString(3) == [DigitChar(3)] == "3";
  }

  lemma TokenTexts()
    ensures TokenText(Kg) == "kg"
    ensures TokenText(Base(Metre, 1)) == "m" && TokenText(Base(Kelvin, 1)) == "K"
    ensures TokenText(Base(Metre, 2)) == "m^2" && TokenText(Base(Metre, -1)) == "m^-1"
    ensures TokenText(Base(Second, -1)) == "s^-1" && TokenText(Base(Second, -2)) == "s^-2"
    ensures TokenText(Base(Second, -3)) == "s^-3" && TokenText(Base(Ampere, -1)) == "A^-1"
  {
    SmallNumerals();
  }

  lemma JoinOne(a: Token)
    ensures JoinText([a]) == TokenText(a)
  {
  }

  lemma JoinCons(a: Token, rest: seq<Token>)
    requires rest != []
    ensures JoinText([a] + rest) == TokenText(a) + (" " + JoinText(rest))
  {
    assert ([a] + rest)[1..] == rest;
  }

  lemma Text3(a: Token, b: Token, c: Token, ta: string, tb: string, tc: string)
    requires TokenText(a) == ta && TokenText(b) == tb && TokenText(c) == tc
    ensures JoinText([a, b, c]) == ta + " " + tb + " " + tc
  {
    hide *;
    JoinCons(a, [b, c]);
    JoinCons(b, [c]);
    JoinOne(c);
    assert [a, b, c] == [a] + [b, c];
    assert [b, c] == [b] + [c];
  }


  /** `Parse` of a text without braces is the scan from no slots. */
  lemma ParseNoBraces(text: string)
    requires forall i | 0 <= i < |text| :: text[i] != '{' && text[i] != '}'
    ensures Parse(text) == match ParseFrom(text, false, Dimensionless) case Ok(u) => Ok(u) case Err(e) => Err(BadUnit(e))
  {
    BracesFree(text);
  }

  lemma ParsesAs3(a: Token, b: Token, c: Token, ta: string, tb: string, tc: string, text: string)
    requires TokenText(a) == ta && TokenText(b) == tb && TokenText(c) == tc
    requires text == ta + " " + tb + " " + tc
    requires forall i | 0 <= i < |text| :: text[i] != '{' && text[i] != '}'
    ensures Parse(text) == Ok(Apply(Dimensionless, [a, b, c]))
  {
    hide *;
    Text3(a, b, c, ta, tb, tc);
    ParseJoin([a, b, c], Dimensionless);
    ParseNoBraces(text);
  }

  lemma ParsesAs4(a: Token, b: Token, c: Token, d: Token, ta: string, tb: string, tc: string, td: string, text: string)
    requires TokenText(a) == ta && TokenText(b) == tb && TokenText(c) == tc && TokenText(d) == td
    requires text == ta + " " + tb + " " + tc + " " + td
    requires forall i | 0 <= i < |text| :: text[i] != '{' && text[i] != '}'
    ensures Parse(text) == Ok(Apply(Dimensionless, [a, b, c, d]))
  {
    hide *;
    Text3(b, c, d, tb, tc, td);
    JoinCons(a, [b, c, d]);
    assert [a, b, c, d] == [a] + [b, c, d];
    assert JoinText([a, b, c, d]) == text;
    ParseJoin([a, b, c, d], Dimensionless);
    ParseNoBraces(text);
  }

  lemma ParsesAs1(a: Token, text: string)
    requires TokenText(a) == text
    requires forall i | 0 <= i < |text| :: text[i] != '{' && text[i] != '}'
    ensures Parse(text) == Ok(Apply(Dimensionless, [a]))
  {
    hide *;
    JoinOne(a);
    ParseJoin([a], Dimensionless);
    ParseNoBraces(text);
  }

  lemma ApplyStep(acc: Unit, toks: seq<Token>)
    requires toks != []
    ensures Apply(acc, toks) == Apply(With(acc, toks[0].sym, TokenEntry(toks[0], false)), toks[1..])
  {
  }

  lemma ApplyNil(acc: Unit)
    ensures Apply(acc, []) == acc
  {
  }

  lemma Apply1(acc: Unit, a: Token)
    ensures Apply(acc, [a]) == With(acc, a.sym, TokenEntry(a, false))
  {
    hide *;
    ApplyStep(acc, [a]);
    assert [a][1..] == [];
    ApplyNil(With(acc, a.sym, TokenEntry(a, false)));
  }

  lemma Apply3(acc: Unit, a: Token, b: Token, c: Token)
    ensures Apply(acc, [a, b, c])
         == With(With(With(acc, a.sym, TokenEntry(a, false)), b.sym, TokenEntry(b, false)), c.sym, TokenEntry(c, false))
  {
    hide *;
    var acc1 := With(acc, a.sym, TokenEntry(a, false));
    var acc2 := With(acc1, b.sym, TokenEntry(b, false));
    ApplyStep(acc, [a, b, c]);
    assert [a, b, c][1..] == [b, c];
    ApplyStep(acc1, [b, c]);
    assert [b, c][1..] == [c];
    Apply1(acc2, c);
  }

  lemma Apply4(acc: Unit, a: Token, b: Token, c: Token, d: Token)
    ensures Apply(acc, [a, b, c, d])
         == With(With(With(With(acc, a.sym, TokenEntry(a, false)), b.sym, TokenEntry(b, false)), c.sym, TokenEntry(c, false)),
                 d.sym, TokenEntry(d, false))
  {
    hide *;
    ApplyStep(acc, [a, b, c, d]);
    assert [a, b, c, d][1..] == [b, c, d];
    Apply3(With(acc, a.sym, TokenEntry(a, false)), b, c, d);
  }

  /** Every derived symbol's expansion text parses to its expansion. */
  lemma ExpansionParses(s: Symbol)
    requires !IsBase(s)
    ensures Parse(ExpansionText(s)) == Ok(Expansion(s))
  {
    hide Parse, ParseFrom, Braces, Expansion, ExpansionText;
    if s == Joule {
      JouleExpansion();
    } else if s == Volt {
      VoltExpansion();
    } else if s == Newton {
      NewtonExpansion();
    } else if s == Watt {
      WattExpansion();
    } else if s == Tesla {
      TeslaExpansion();
    } else if s == Pascal {
      PascalExpansion();
    } else if s == Hertz {
      HertzExpansion();
    } else if s == Celsius {
      CelsiusExpansion();
    } else {
      ElectronVoltExpansion();
    }
  }

  lemma JouleExpansion()
    ensures Parse(ExpansionText(Joule)) == Ok(Expansion(Joule))
  {
    hide *;
    JouleScan();
    JouleSlots();
  }

  lemma JouleScan()
    ensures Parse(ExpansionText(Joule)) == Ok(Apply(Dimensionless, [Kg, Base(Metre, 2), Base(Second, -2)]))
  {
    hide Parse, ParseFrom, Braces, JoinText, TokenText, Apply, Expansion;
    TokenTexts();
    ParsesAs3(Kg, Base(Metre, 2), Base(Second, -2), "kg", "m^2", "s^-2", "kg m^2 s^-2");
  }

  lemma JouleSlots()
    ensures Apply(Dimensionless, [Kg, Base(Metre, 2), Base(Second, -2)]) == Expansion(Joule)
  {
    hide Apply;
    Apply3(Dimensionless, Kg, Base(Metre, 2), Base(Second, -2));
  }

  lemma VoltExpansion()
    ensures Parse(ExpansionText(Volt)) == Ok(Expansion(Volt))
  {
    hide *;
    VoltScan();
    VoltSlots();
  }

  lemma VoltScan()
    ensures Parse(ExpansionText(Volt)) == Ok(Apply(Dimensionless, [Kg, Base(Metre, 2), Base(Second, -3), Base(Ampere, -1)]))
  {
    hide Parse, ParseFrom, Braces, JoinText, TokenText, Apply, Expansion;
    TokenTexts();
    ParsesAs4(Kg, Base(Metre, 2), Base(Second, -3), Base(Ampere, -1), "kg", "m^2", "s^-3", "A^-1", "kg m^2 s^-3 A^-1");
  }

  lemma VoltSlots()
    ensures Apply(Dimensionless, [Kg, Base(Metre, 2), Base(Second, -3), Base(Ampere, -1)]) == Expansion(Volt)
  {
    hide Apply;
    Apply4(Dimensionless, Kg, Base(Metre, 2), Base(Second, -3), Base(Ampere, -1));
  }

  lemma NewtonExpansion()
    ensures Parse(ExpansionText(Newton)) == Ok(Expansion(Newton))
  {
    hide *;
    NewtonScan();
    NewtonSlots();
  }

  lemma NewtonScan()
    ensures Parse(ExpansionText(Newton)) == Ok(Apply(Dimensionless, [Kg, Base(Metre, 1), Base(Second, -2)]))
  {
    hide Parse, ParseFrom, Braces, JoinText, TokenText, Apply, Expansion;
    TokenTexts();
    ParsesAs3(Kg, Base(Metre, 1), Base(Second, -2), "kg", "m", "s^-2", "kg m s^-2");
  }

  lemma NewtonSlots()
    ensures Apply(Dimensionless, [Kg, Base(Metre, 1), Base(Second, -2)]) == Expansion(Newton)
  {
    hide Apply;
    Apply3(Dimensionless, Kg, Base(Metre, 1), Base(Second, -2));
  }

  lemma WattExpansion()
    ensures Parse(ExpansionText(Watt)) == Ok(Expansion(Watt))
  {
    hide *;
    WattScan();
    WattSlots();
  }

  lemma WattScan()
    ensures Parse(ExpansionText(Watt)) == Ok(Apply(Dimensionless, [Kg, Base(Metre, 2), Base(Second, -3)]))
  {
    hide Parse, ParseFrom, Braces, JoinText, TokenText, Apply, Expansion;
    TokenTexts();
    ParsesAs3(Kg, Base(Metre, 2), Base(Second, -3), "kg", "m^2", "s^-3", "kg m^2 s^-3");
  }

  lemma WattSlots()
    ensures Apply(Dimensionless, [Kg, Base(Metre, 2), Base(Second, -3)]) == Expansion(Watt)
  {
    hide Apply;
    Apply3(Dimensionless, Kg, Base(Metre, 2), Base(Second, -3));
  }

  lemma TeslaExpansion()
    ensures Parse(ExpansionText(Tesla)) == Ok(Expansion(Tesla))
  {
    hide *;
    TeslaScan();
    TeslaSlots();
  }

  lemma TeslaScan()
    ensures Parse(ExpansionText(Tesla)) == Ok(Apply(Dimensionless, [Kg, Base(Second, -2), Base(Ampere, -1)]))
  {
    hide Parse, ParseFrom, Braces, JoinText, TokenText, Apply, Expansion;
    TokenTexts();
    ParsesAs3(Kg, Base(Second, -2), Base(Ampere, -1), "kg", "s^-2", "A^-1", "kg s^-2 A^-1");
  }

  lemma TeslaSlots()
    ensures Apply(Dimensionless, [Kg, Base(Second, -2), Base(Ampere, -1)]) == Expansion(Tesla)
  {
    hide Apply;
    Apply3(Dimensionless, Kg, Base(Second, -2), Base(Ampere, -1));
  }

  lemma PascalExpansion()
    ensures Parse(ExpansionText(Pascal)) == Ok(Expansion(Pascal))
  {
    hide *;
    PascalScan();
    PascalSlots();
  }

  lemma PascalScan()
    ensures Parse(ExpansionText(Pascal)) == Ok(Apply(Dimensionless, [Kg, Base(Metre, -1), Base(Second, -2)]))
  {
    hide Parse, ParseFrom, Braces, JoinText, TokenText, Apply, Expansion;
    TokenTexts();
    ParsesAs3(Kg, Base(Metre, -1), Base(Second, -2), "kg", "m^-1", "s^-2", "kg m^-1 s^-2");
  }

  lemma PascalSlots()
    ensures Apply(Dimensionless, [Kg, Base(Metre, -1), Base(Second, -2)]) == Expansion(Pascal)
  {
    hide Apply;
    Apply3(Dimensionless, Kg, Base(Metre, -1), Base(Second, -2));
  }

  lemma HertzExpansion()
    ensures Parse(ExpansionText(Hertz)) == Ok(Expansion(Hertz))
  {
    hide *;
    HertzScan();
    HertzSlots();
  }

  lemma HertzScan()
    ensures Parse(ExpansionText(Hertz)) == Ok(Apply(Dimensionless, [Base(Second, -1)]))
  {
    hide Parse, ParseFrom, Braces, JoinText, TokenText, Apply, Expansion;
    TokenTexts();
    ParsesAs1(Base(Second, -1), "s^-1");
  }

  lemma HertzSlots()
    ensures Apply(Dimensionless, [Base(Second, -1)]) == Expansion(Hertz)
  {
    hide Apply;
    Apply1(Dimensionless, Base(Second, -1));
  }

  lemma CelsiusExpansion()
    ensures Parse(ExpansionText(Celsius)) == Ok(Expansion(Celsius))
  {
    hide *;
    CelsiusScan();
    CelsiusSlots();
  }

  lemma CelsiusScan()
    ensures Parse(ExpansionText(Celsius)) == Ok(Apply(Dimensionless, [Base(Kelvin, 1)]))
  {
    hide Parse, ParseFrom, Braces, JoinText, TokenText, Apply, Expansion;
    TokenTexts();
    ParsesAs1(Base(Kelvin, 1), "K");
  }

  lemma CelsiusSlots()
    ensures Apply(Dimensionless, [Base(Kelvin, 1)]) == Expansion(Celsius)
  {
    hide Apply;
    Apply1(Dimensionless, Base(Kelvin, 1));
  }

  lemma ElectronVoltExpansion()
    ensures Parse(ExpansionText(ElectronVolt)) == Ok(Expansion(ElectronVolt))
  {
    hide *;
    ElectronVoltScan();
    ElectronVoltSlots();
  }

  lemma ElectronVoltScan()
    ensures Parse(ExpansionText(ElectronVolt)) == Ok(Apply(Dimensionless, [Kg, Base(Metre, 2), Base(Second, -2)]))
  {
    hide Parse, ParseFrom, Braces, JoinText, TokenText, Apply, Expansion;
    TokenTexts();
    ParsesAs3(Kg, Base(Metre, 2), Base(Second, -2), "kg", "m^2", "s^-2", "kg m^2 s^-2");
  }

  lemma ElectronVoltSlots()
    ensures Apply(Dimensionless, [Kg, Base(Metre, 2), Base(Second, -2)]) == Expansion(ElectronVolt)
  {
    hide Apply;
    Apply3(Dimensionless, Kg, Base(Metre, 2), Base(Second, -2));
  }
}

=== FILE: findings.dfy ===
/** Four places where the library's code does something its authors
    evidently did not intend. Each is modelled here as the code is written,
    with an input that shows the discrepancy; the rest of the model uses the
    corrected definitions (`Units.Combine`, `Measurements.PowMeasurement`,
    `Measurements.Reconciled`), and the lemmas below tie the two together
    wherever they agree. */
module Findings {
  import opened Wrappers
  import opened Powers
  import opened Symbols
  import opened Errors
  import opened Units
  import opened UnitLaws
  import opened Reconcile
  import opened Measurements
  import opened MeasurementLaws

  // ---------------------------------------------------------------------------
  // 1. Unit products and quotients concatenate prefixes

  /** A unit slot as the code builds it: the prefix is a string, so two
      prefixes can be glued together. */
  datatype RawEntry = RawEntry(prefix: string, power: int)

  function Raw(e: Entry): RawEntry {
    RawEntry(PrefixText(e.prefix), e.power)
  }

  /** One slot of `a * b` (with `power` the sum of the powers) or of `a / b`
      (with `power` their difference), as written: when exactly one side has
      a non-zero power the two prefix strings are concatenated, when the
      prefixes agree the prefix is kept unless the power cancels, and
      otherwise the product is refused, even when both powers are zero. */
  function CombineAsWritten(x: Entry, y: Entry, power: int): (r: Result<RawEntry, Error>)
    ensures r.Ok? ==> r.value.power == power
    ensures r.Err? <==> ((x.power != 0) == (y.power != 0) && x.prefix != y.prefix)
  {
    if (x.power != 0) != (y.power != 0) then
      Ok(RawEntry(PrefixText(x.prefix) + PrefixText(y.prefix), power))
    else if x.prefix == y.prefix then
      Ok(RawEntry(if power != 0 then PrefixText(x.prefix) else "", power))
    else
      Err(PrefixConflict)
  }

  /** A slot is normal when a zero power carries no prefix. */
  predicate NormalEntry(e: Entry) {
    e.power == 0 ==> e.prefix == NoPrefix
  }

  /** On normal slots the code as written and the corrected slot agree: the
      same slots are refused, and the accepted ones get the same prefix. */
  lemma CombineAgrees(x: Entry, y: Entry, power: int)
    requires NormalEntry(x) && NormalEntry(y)
    requires power == x.power + y.power || power == x.power - y.power
    ensures CombineAsWritten(x, y, power).Ok? <==> !Clash(x, y)
    ensures CombineAsWritten(x, y, power).Ok? ==> CombineAsWritten(x, y, power).value == Raw(Combine(x, y, power))
  {
  }

  /** `km^0 * m`: the parser stores a kilo prefix on a zero power; the code
      glues it onto the metre of the other unit and reports `km`, a thousand
      times the quantity, while the corrected slot is a plain metre. */
  lemma CombineGluesPrefix()
    ensures CombineAsWritten(Entry(Kilo, 0), Entry(NoPrefix, 1), 1).Ok?
    ensures CombineAsWritten(Entry(Kilo, 0), Entry(NoPrefix, 1), 1).value == RawEntry("k", 1)
    ensures Combine(Entry(Kilo, 0), Entry(NoPrefix, 1), 1) == Entry(NoPrefix, 1)
    ensures Raw(Combine(Entry(Kilo, 0), Entry(NoPrefix, 1), 1)) != RawEntry("k", 1)
  {
    assert PrefixText(Kilo) + PrefixText(NoPrefix) == "k";
  }

  /** `km^0 * mm^0`: both sides are dimensionless, yet the code refuses the
      product because the unused slots carry different prefixes. */
  lemma CombineRefusesUnused()
    ensures CombineAsWritten(Entry(Kilo, 0), Entry(Milli, 0), 0) == Err(PrefixConflict)
    ensures !Clash(Entry(Kilo, 0), Entry(Milli, 0))
  {
  }

  /** `km^0`: a metre slot with a kilo prefix and power zero. */
  const KilometresToZero: Unit := With(Dimensionless, Metre, Entry(Kilo, 0))
  const Seconds: Unit := With(Dimensionless, Second, Entry(NoPrefix, 1))

  /** `(1 ± 0) km^0 / (1 ± 0) s`: reconciliation skips the metre slot, whose
      powers are zero, so the code's quotient meets the kilo prefix against
      no prefix there and raises; the corrected quotient succeeds. */
  lemma QuotientRefusesUnused(lib: MathLib)
    ensures CombineAsWritten(At(KilometresToZero, Metre), At(Seconds, Metre), 0 - 0) == Err(PrefixConflict)
    ensures Units.Div(KilometresToZero, Seconds).Ok?
    ensures Measurements.Div(lib, Measurement(1.0, 0.0, KilometresToZero), Other(Measurement(1.0, 0.0, Seconds))).Ok?
  {
    hide Measurements.Div, Reconciled, Relative, Abs, Tabulate;
    var a, b := KilometresToZero, Seconds;
    assert At(a, Metre) == Entry(Kilo, 0) && At(b, Metre) == Blank;
    forall s: Symbol ensures !Clash(At(a, s), At(b, s)) {
      assert At(a, s).power == 0 || At(b, s).power == 0;
    }
  }

  // ---------------------------------------------------------------------------
  // 2. A measurement raised to a measurement takes the log of the exponent

  /** `m ** e` for a dimensionless measurement `e`, as written: the
      logarithm in the uncertainty is taken of the exponent's value rather
      than the base's, so it is the exponent that must be positive. */
  function PowAsWritten(lib: MathLib, m: Measurement, e: Measurement): (r: Result<Measurement, Error>)
    ensures r.Ok? ==> Unitless(e.unit) && e.value > 0.0
    ensures Unitless(e.unit) && e.value <= 0.0 && !(m.value == 0.0 && e.value < 0.0) ==> r == Err(MathDomain)
  {
    if !Unitless(e.unit) then Err(DimensionMismatch)
    else
      var p :- PowValue(lib, m.value, e.value);
      var l :- LogValue(lib, e.value);
      var u :- PowReal(m.unit, e.value);
      Ok(Measurement(p, PowSpread(lib, m, e, p, l), u))
  }

  /** The two versions coincide when the exponent's value is the base's,
      as in `x ** x`. */
  lemma PowAgreesOnEqualValues(lib: MathLib, m: Measurement, e: Measurement)
    requires e.value == m.value
    ensures PowAsWritten(lib, m, e) == PowMeasurement(lib, m, e)
  {
    hide PowSpread, PowReal, Unitless;
    assert LogValue(lib, e.value) == LogValue(lib, m.value);
  }

  /** The corrected power is defined exactly when the exponent is
      dimensionless, the base is positive and the unit power is whole. */
  lemma PowDomain(lib: MathLib, m: Measurement, e: Measurement)
    ensures PowMeasurement(lib, m, e).Ok? <==> Unitless(e.unit) && m.value > 0.0 && PowReal(m.unit, e.value).Ok?
  {
  }

  /** `2 ** -1` with both dimensionless: the code as written fails on the
      logarithm of `-1`, while the corrected power gives a result. */
  lemma PowRejectsNegativeExponent(lib: MathLib)
    ensures PowAsWritten(lib, Measurement(2.0, 0.1, Dimensionless), Measurement(-1.0, 0.0, Dimensionless)) == Err(MathDomain)
    ensures PowMeasurement(lib, Measurement(2.0, 0.1, Dimensionless), Measurement(-1.0, 0.0, Dimensionless)).Ok?
  {
    DimensionlessResolves();
    PowRealIntegral(Dimensionless, -1);
  }

  // ---------------------------------------------------------------------------
  // 3. Prefix reconciliation forgets to rescale the uncertainty

  /** The relative uncertainty the code stores on the reconciled copy of `n`:
      after rescaling the value it divides the old, unscaled uncertainty by
      the new value, which fails when that value is zero. */
  function CopyRelativeAsWritten(a: Unit, n: Measurement): (r: Result<real, Error>)
    ensures Compatible(a, n.unit) ==> r == Ok(Relative(n))
    ensures r.Err? <==> !Compatible(a, n.unit) && n.value == 0.0
  {
    if Compatible(a, n.unit) then Ok(Relative(n))
    else if n.value == 0.0 then Err(ZeroDivision)
    else Ok(n.uncertainty / (n.value * Rescale(a, n.unit)))
  }

  /** Where a prefix is reconciled, the stored relative uncertainty is the
      true one divided by the rescale factor, whereas the corrected copy
      keeps the true one. */
  lemma CopyRelativeShrinks(a: Unit, n: Measurement)
    requires !Compatible(a, n.unit) && n.value != 0.0
    ensures CopyRelativeAsWritten(a, n).value * Rescale(a, n.unit) == Relative(n)
    ensures Relative(Reconciled(a, n)) == Relative(n)
  {
    hide *;
    ReconciledRelative(a, n);
    CopyRelativeValue(a, n);
    RelativeScaledBack(n.value, n.uncertainty, Rescale(a, n.unit), CopyRelativeAsWritten(a, n).value, Relative(n));
  }

  lemma CopyRelativeValue(a: Unit, n: Measurement)
    requires !Compatible(a, n.unit) && n.value != 0.0
    ensures CopyRelativeAsWritten(a, n).Ok?
    ensures CopyRelativeAsWritten(a, n).value == n.uncertainty / (n.value * Rescale(a, n.unit))
  {
    hide Compatible, Rescale, Relative;
  }

  lemma RelativeScaledBack(v: real, u: real, k: real, q: real, r: real)
    requires v != 0.0 && k > 0.0 && q == u / (v * k) && r * v == u
    ensures q * k == r
  {
    assert q * (v * k) == u;
    assert (q * k) * v == r * v;
  }

  /** `m * o` for two measurements, as written: the copy of `o` carries the
      rescaled value and the aligned unit but the relative uncertainty
      computed above. */
  function MulAsWritten(lib: MathLib, m: Measurement, n: Measurement): (r: Result<Measurement, Error>)
    ensures r.Ok? <==> CopyRelativeAsWritten(m.unit, n).Ok?
    ensures r.Ok? ==> r.value.value == m.value * Reconciled(m.unit, n).value
  {
    var n' := Reconciled(m.unit, n);
    var rel :- CopyRelativeAsWritten(m.unit, n);
    var v := m.value * n'.value;
    Ok(Measurement(v, Abs(v) * lib.hypot(Relative(m), rel), Units.Mul(m.unit, n'.unit).value))
  }

  /** Without a prefix to reconcile the code as written is the corrected product. */
  lemma MulAgrees(lib: MathLib, m: Measurement, n: Measurement)
    requires Compatible(m.unit, n.unit)
    ensures MulAsWritten(lib, m, n) == Measurements.Mul(lib, m, Other(n))
  {
    hide *;
    ReconciledRelative(m.unit, n);
    MulShape(lib, m, n);
    MulAsWrittenCompatible(lib, m, n);
    assert MulAsWritten(lib, m, n).value == Measurements.Mul(lib, m, Other(n)).value;
    ResultOf(MulAsWritten(lib, m, n));
    ResultOf(Measurements.Mul(lib, m, Other(n)));
  }

  lemma MulAsWrittenCompatible(lib: MathLib, m: Measurement, n: Measurement)
    requires Compatible(m.unit, n.unit)
    ensures MulAsWritten(lib, m, n).Ok?
    ensures MulAsWritten(lib, m, n).value
         == Measurement(m.value * Reconciled(m.unit, n).value,
                        Abs(m.value * Reconciled(m.unit, n).value) * lib.hypot(Relative(m), Relative(n)),
                        Units.Mul(m.unit, Reconciled(m.unit, n).unit).value)
  {
    hide Reconciled, Units.Mul, Relative, Abs, Compatible;
  }

  const Metres: Unit := With(Dimensionless, Metre, Entry(NoPrefix, 1))
  const Kilometres: Unit := With(Dimensionless, Metre, Entry(Kilo, 1))

  /** Metres against kilometres rescale by a thousand. */
  lemma MetresRescale()
    ensures !Compatible(Metres, Kilometres)
    ensures Rescale(Metres, Kilometres) == 1000.0
  {
    hide At, Tabulate, With, Rescale, SlotRescale, RealPow;
    var a, b := Metres, Kilometres;
    assert At(a, Metre) == Entry(NoPrefix, 1) && At(b, Metre) == Entry(Kilo, 1);
    assert Clash(At(a, Metre), At(b, Metre));
    forall s: Symbol | s != Metre
      ensures !Clash(At(a, s), At(b, s))
    {
      assert At(a, s) == At(Dimensionless, s) == At(b, s);
    }
    RescaleSingle(a, b);
    KiloSlot();
  }

  lemma KiloSlot()
    ensures SlotRescale(Entry(NoPrefix, 1), Entry(Kilo, 1)) == 1000.0
  {
    assert RealPow(1000.0 / 1.0, 1) == 1000.0 * NatPow(1000.0, 0);
  }

  /** When only the metre slots can clash, the rescale is that slot's. */
  lemma RescaleSingle(a: Unit, b: Unit)
    requires forall s: Symbol :: s != Metre ==> !Clash(At(a, s), At(b, s))
    ensures Rescale(a, b) == SlotRescale(At(a, Metre), At(b, Metre))
  {
    hide SlotRescale, At, Clash, RescaleOver;
    var xs, ys := KnownUnits[..9], KnownUnits[10..];
    assert KnownUnits == xs + ([Metre] + ys);
    RescaleOverOnes(a, b, xs);
    RescaleOverOnes(a, b, ys);
    RescaleOverSplit(a, b, xs, [Metre] + ys);
    RescaleOverSplit(a, b, [Metre], ys);
    RescaleOverStep(a, b, [Metre]);
    assert RescaleOver(a, b, [Metre][1..]) == 1.0 by {
      RescaleOverOnes(a, b, []);
    }
  }

  /** Slots that do not clash contribute nothing to the rescale. */
  lemma {:induction false} RescaleOverOnes(a: Unit, b: Unit, syms: seq<Symbol>)
    requires forall i :: 0 <= i < |syms| ==> !Clash(At(a, syms[i]), At(b, syms[i]))
    ensures RescaleOver(a, b, syms) == 1.0
  {
    hide SlotRescale, At;
    if syms != [] {
      RescaleOverOnes(a, b, syms[1..]);
      RescaleOverStep(a, b, syms);
      assert !Clash(At(a, syms[0]), At(b, syms[0]));
      SlotOne(At(a, syms[0]), At(b, syms[0]));
    }
  }

  lemma SlotOne(x: Entry, y: Entry)
    requires !Clash(x, y)
    ensures SlotRescale(x, y) == 1.0
  {
  }

  /** The rescale over a concatenation is the product of the parts. */
  lemma {:induction false} RescaleOverSplit(a: Unit, b: Unit, xs: seq<Symbol>, ys: seq<Symbol>)
    ensures RescaleOver(a, b, xs + ys) == RescaleOver(a, b, xs) * RescaleOver(a, b, ys)
  {
    hide SlotRescale, At, RescaleOver, Clash;
    if xs == [] {
      assert xs + ys == ys;
      RescaleOverOnes(a, b, xs);
    } else {
      RescaleOverStep(a, b, xs);
      RescaleOverStep(a, b, xs + ys);
      assert (xs + ys)[1..] == xs[1..] + ys;
      RescaleOverSplit(a, b, xs[1..], ys);
      var f := SlotRescale(At(a, xs[0]), At(b, xs[0]));
      assert RescaleOver(a, b, xs + ys) == f * (RescaleOver(a, b, xs[1..]) * RescaleOver(a, b, ys));
    }
  }

  /** `(1 ± 0.1) m * (1 ± 0.1) km`: the code stores the kilometre factor's
      relative uncertainty as 0.0001 instead of 0.1. */
  lemma MulUnderstates()
    ensures CopyRelativeAsWritten(Metres, Measurement(1.0, 0.1, Kilometres)) == Ok(0.0001)
    ensures Relative(Reconciled(Metres, Measurement(1.0, 0.1, Kilometres))) == 0.1
  {
    MetresRescale();
    ReconciledRelative(Metres, Measurement(1.0, 0.1, Kilometres));
  }

  /** `(1 ± 0) m * (0 ± 0.1) km`: the code divides by the rescaled zero value
      and raises, whereas the corrected product gives zero. */
  lemma MulCrashesOnZero(lib: MathLib)
    ensures MulAsWritten(lib, Measurement(1.0, 0.0, Metres), Measurement(0.0, 0.1, Kilometres)) == Err(ZeroDivision)
    ensures Measurements.Mul(lib, Measurement(1.0, 0.0, Metres), Other(Measurement(0.0, 0.1, Kilometres))).Ok?
  {
    MetresRescale();
  }
}

=== FILE: measurement_laws.dfy ===
/** What the measurement operators preserve. Every operation acts on the
    physical quantity (value times unit factor) as its arithmetic promises:
    conversion keeps it, sums add it, products multiply it, quotients divide
    it. Reconciling prefixes before a product does not change the second
    operand's relative uncertainty. The aliased forms (`x + x`, `x * x`,
    `x / x`, `x - x`) are compared with their independent counterparts. */
module MeasurementLaws {
  import opened Wrappers
  import opened Powers
  import opened Symbols
  import opened Errors
  import opened Units
  import opened UnitParse
  import opened UnitAlgebra
  import opened UnitLaws
  import opened UnitPrint
  import opened Reconcile
  import opened Measurements

  // ---------------------------------------------------------------------------
  // Real-number helpers

  lemma ScaleBack(v: real, a: real, b: real)
    requires b != 0.0
    ensures (v * a / b) * b == v * a
  {
  }

  lemma RoundTripReal(v: real, a: real, b: real)
    requires a != 0.0 && b != 0.0
    ensures (v * a / b) * b / a == v
  {
  }

  lemma Distribute(v: real, w: real, f: real)
    ensures (v + w) * f == v * f + w * f
  {
  }

  lemma Product4(v: real, fa: real, w: real, k: real, fb: real, fr: real, falign: real)
    requires fr == fa * falign && falign * k == fb
    ensures (v * (w * k)) * fr == (v * fa) * (w * fb)
  {
    calc {
      (v * (w * k)) * fr;
      (v * (w * k)) * (fa * falign);
      (v * fa) * (w * (falign * k));
    }
  }

  lemma Quotient4(v: real, fa: real, w: real, k: real, fb: real, fr: real, falign: real)
    requires w * k != 0.0
    requires fr * falign == fa && falign * k == fb
    ensures (v / (w * k)) * fr * (w * fb) == v * fa
  {
    calc {
      (v / (w * k)) * fr * (w * fb);
      (v / (w * k)) * fr * (w * (falign * k));
      (v / (w * k)) * (w * k) * (fr * falign);
      v * fa;
    }
  }

  lemma DivCancel(v: real, f: real)
    requires f != 0.0
    ensures v * f / f == v
  {
  }

  lemma CrossScaled(u: real, v: real, a: real, b: real)
    requires b != 0.0
    ensures (u * a / b) * v == u * (v * a / b)
  {
  }

  lemma AbsCancel(a: real, b: real, c: real)
    requires c != 0.0 && a * c == b * Abs(c)
    ensures Abs(a) == Abs(b)
  {
    if c > 0.0 {
      assert (a - b) * c == 0.0;
    } else {
      assert (a + b) * c == 0.0;
    }
  }

  lemma SquareUncertainty(v: real, rel: real, u: real)
    requires v != 0.0 ==> rel * v == u
    requires v == 0.0 ==> rel == 0.0
    ensures (v * v) * 2.0 * rel == 2.0 * v * u
  {
    if v != 0.0 {
      assert (v * v) * 2.0 * rel == 2.0 * v * (rel * v);
    }
  }

  // ---------------------------------------------------------------------------
  // One-step unfoldings of the operations, stated over folded subterms

  lemma QuantityOf(m: Measurement)
    ensures Quantity(m) == m.value * Factor(m.unit)
  {
    hide Factor;
  }

  lemma RelativeOf(m: Measurement)
    ensures m.value != 0.0 ==> Relative(m) * m.value == m.uncertainty
    ensures m.value == 0.0 ==> Relative(m) == 0.0
  {
  }

  lemma ConvertShape(m: Measurement, t: Unit)
    ensures Factor(t) > 0.0 && Factor(m.unit) > 0.0
    ensures Convert(m, t) == Measurement(m.value * Factor(m.unit) / Factor(t), m.uncertainty * Factor(m.unit) / Factor(t), t)
  {
    hide Factor;
    FactorPositive(t);
    FactorPositive(m.unit);
  }

  lemma ToShape(m: Measurement, t: Unit)
    ensures SameDims(m.unit, t) ==> To(m, t).Ok? && To(m, t).value == Convert(m, t)
    ensures !SameDims(m.unit, t) ==> To(m, t).Err? && To(m, t).error == DimensionMismatch
  {
    hide Convert, SameDims;
  }

  lemma SameDimsSymmetric(a: Unit, b: Unit)
    ensures SameDims(a, b) == SameDims(b, a)
    ensures SameDims(a, a)
  {
    hide BaseDims;
  }

  lemma EqualFacts(a: Unit, b: Unit)
    ensures Equal(a, a)
    ensures Equal(a, b) ==> Factor(a) == Factor(b) && SameDims(a, b) && Equal(b, a)
  {
    hide Factor, BaseDims;
  }

  lemma AddShape(lib: MathLib, m: Measurement, n: Measurement)
    ensures !Equal(m.unit, n.unit) && SameDims(m.unit, n.unit) ==> Add(lib, m, Other(n)) == Add(lib, m, Other(Convert(n, m.unit)))
    ensures !SameDims(m.unit, n.unit) ==> Add(lib, m, Other(n)).Err?
    ensures Equal(m.unit, n.unit) ==> Add(lib, m, Other(n)).Ok?
    ensures Equal(m.unit, n.unit) ==>
              Add(lib, m, Other(n)).value == Measurement(m.value + n.value, lib.hypot(m.uncertainty, n.uncertainty), m.unit)
  {
    hide Equal, SameDims, Convert;
  }

  lemma SubShape(lib: MathLib, m: Measurement, n: Measurement)
    ensures Sub(lib, m, Other(n)) == Add(lib, m, Other(Neg(n)))
    ensures Sub(lib, m, Itself) == Add(lib, m, Other(Neg(m)))
    ensures Neg(n) == Measurement(-n.value, n.uncertainty, n.unit)
  {
    hide Add;
  }

  lemma MulShape(lib: MathLib, m: Measurement, n: Measurement)
    ensures Units.Mul(m.unit, Reconciled(m.unit, n).unit).Ok?
    ensures Measurements.Mul(lib, m, Other(n)).Ok?
    ensures Measurements.Mul(lib, m, Other(n)).value
         == Measurement(m.value * Reconciled(m.unit, n).value,
                        Abs(m.value * Reconciled(m.unit, n).value) * lib.hypot(Relative(m), Relative(Reconciled(m.unit, n))),
                        Units.Mul(m.unit, Reconciled(m.unit, n).unit).value)
  {
    hide Reconciled, Units.Mul, Relative, Abs, Units.Pow;
  }

  lemma DivShape(lib: MathLib, m: Measurement, n: Measurement)
    requires n.value != 0.0
    ensures Reconciled(m.unit, n).value != 0.0
    ensures Units.Div(m.unit, Reconciled(m.unit, n).unit).Ok?
    ensures Measurements.Div(lib, m, Other(n)).Ok?
    ensures Measurements.Div(lib, m, Other(n)).value
         == Measurement(m.value / Reconciled(m.unit, n).value,
                        Abs(m.value / Reconciled(m.unit, n).value) * lib.hypot(Relative(m), Relative(Reconciled(m.unit, n))),
                        Units.Div(m.unit, Reconciled(m.unit, n).unit).value)
  {
    hide Reconciled, Units.Div, Relative, Abs;
  }

  lemma SelfShapes(lib: MathLib, m: Measurement)
    ensures Add(lib, m, Itself).Ok? && Add(lib, m, Itself).value == Measurement(m.value * 2.0, m.uncertainty * 2.0, m.unit)
    ensures Measurements.Mul(lib, m, Itself).Ok? && Measurements.Mul(lib, m, Itself).value == Measurement(m.value * m.value, (m.value * m.value) * 2.0 * Relative(m), Units.Pow(m.unit, 2))
    ensures Measurements.Div(lib, m, Itself).Ok? && Measurements.Div(lib, m, Itself).value == Measurement(1.0, 0.0, Dimensionless)
  {
    hide Relative, Units.Pow, Reconciled, Units.Mul, Units.Div, Equal, SameDims, Convert;
  }

  lemma NumberShapes(lib: MathLib, m: Measurement, c: real)
    ensures Measurements.Mul(lib, m, Number(c)).Ok? && Measurements.Mul(lib, m, Number(c)).value == Measurement(m.value * c, m.uncertainty * Abs(c), m.unit)
    ensures c != 0.0 ==> Measurements.Div(lib, m, Number(c)).Ok? && Measurements.Div(lib, m, Number(c)).value == Measurement(m.value / c, m.uncertainty / Abs(c), m.unit)
  {
    hide Relative, Abs, Reconciled, Units.Mul, Units.Div, Units.Pow, Inv;
  }

  lemma RDivShape(m: Measurement, c: real)
    requires m.value != 0.0
    ensures RDiv(m, c).Ok? && RDiv(m, c).value == Measurement(c / m.value, Abs(c / m.value) * Relative(m), Inv(m.unit))
  {
    hide Relative, Abs, Inv;
  }

  lemma PowNumberShape(lib: MathLib, m: Measurement, c: real)
    requires m.value != 0.0
    ensures Measurements.Pow(lib, m, Number(c)).Ok? == PowReal(m.unit, c).Ok?
    ensures PowReal(m.unit, c).Ok? ==>
              Measurements.Pow(lib, m, Number(c)).value
              == Measurement(lib.pow(m.value, c), Abs(lib.pow(m.value, c) * c) * Relative(m), PowReal(m.unit, c).value)
  {
    hide PowReal, Relative, Abs, PowMeasurement;
  }

  /** `c ** m` for a number `c` is `m` raised over the exact base
      `Measurement(c, 0)`: the same value, the same errors, and, once the
      square root is exact, the same uncertainty. */
  lemma RPowIsExactBasePower(lib: MathLib, m: Measurement, c: real)
    requires m.uncertainty >= 0.0
    requires forall x: real :: lib.sqrt(Sq(x)) == Abs(x)
    ensures RPow(lib, m, c) == PowMeasurement(lib, Measurement(c, 0.0, Dimensionless), m)
  {
    var b := Measurement(c, 0.0, Dimensionless);
    PowRealDimensionless(m.value);
    if Unitless(m.unit) && c > 0.0 {
      var p, l := lib.pow(c, m.value), lib.log(c);
      ExactSpread(lib, b, m, p, l);
      assert PowValue(lib, c, m.value) == Ok(p) && LogValue(lib, c) == Ok(l);
      assert RPow(lib, m, c).Ok?;
      assert RPow(lib, m, c).value.value == p;
      assert RPow(lib, m, c).value.uncertainty == Abs(p * l) * m.uncertainty;
      assert RPow(lib, m, c) == Ok(Measurement(p, Abs(p * l) * m.uncertainty, Dimensionless));
      assert PowMeasurement(lib, b, m) == Ok(Measurement(p, PowSpread(lib, b, m, p, l), Dimensionless));
    }
  }

  lemma PowRealDimensionless(c: real)
    ensures PowReal(Dimensionless, c) == Ok(Dimensionless)
  {
    var r := PowReal(Dimensionless, c);
    assert forall s: Symbol :: IsIntegral(Scaled(At(Dimensionless, s).power, c));
    Ext(r.value, Dimensionless);
  }

  /** With an exact base the spread of a power is the exponent's uncertainty
      times `|p * ln c|`. */
  lemma ExactSpread(lib: MathLib, b: Measurement, m: Measurement, p: real, l: real)
    requires b.uncertainty == 0.0 && m.uncertainty >= 0.0
    requires forall x: real :: lib.sqrt(Sq(x)) == Abs(x)
    ensures PowSpread(lib, b, m, p, l) == Abs(p * l) * m.uncertainty
  {
    var x, y := m.value * Relative(b), l * m.uncertainty;
    assert x == 0.0;
    assert Sq(x) + Sq(y) == Sq(y);
    AbsProduct(p, l, m.uncertainty);
  }

  lemma AbsProduct(p: real, l: real, u: real)
    requires u >= 0.0
    ensures Abs(p) * Abs(l * u) == Abs(p * l) * u
  {
  }

  /** A unit never clashes with itself, so reconciling a measurement against
      its own unit changes nothing. */
  lemma ReconciledSelf(m: Measurement)
    ensures Reconciled(m.unit, m) == m
  {
    hide Align, RescaleOver, Factor, Reconciled, Quantity;
    CompatibleSelf(m.unit);
    AlignUnchanged(m.unit, m.unit, KnownUnits);
    ReconciledShape(m.unit, m);
    UnitScale(m);
  }

  lemma CompatibleSelf(u: Unit)
    ensures Compatible(u, u)
  {
  }

  lemma UnitScale(m: Measurement)
    ensures Measurement(m.value * 1.0, m.uncertainty * 1.0, m.unit) == m
  {
  }

  // ---------------------------------------------------------------------------
  // Conversion

  /** Conversion keeps the quantity and the relative uncertainty. */
  lemma ConvertKeeps(m: Measurement, t: Unit)
    ensures Quantity(Convert(m, t)) == Quantity(m)
    ensures Convert(m, t).uncertainty * m.value == m.uncertainty * Convert(m, t).value
  {
    hide *;
    ConvertShape(m, t);
    QuantityOf(Convert(m, t));
    QuantityOf(m);
    ScaleBack(m.value, Factor(m.unit), Factor(t));
    CrossScaled(m.uncertainty, m.value, Factor(m.unit), Factor(t));
  }

  /** `m.to(t).to(m.unit)` gives back `m`. */
  lemma ToRoundTrip(m: Measurement, t: Unit)
    requires SameDims(m.unit, t)
    ensures To(m, t).Ok? && To(To(m, t).value, m.unit) == Ok(m)
  {
    hide *;
    var c := Convert(m, t);
    ToShape(m, t);
    SameDimsSymmetric(m.unit, t);
    ConvertShape(m, t);
    ToShape(c, m.unit);
    ConvertShape(c, m.unit);
    RoundTripReal(m.value, Factor(m.unit), Factor(t));
    RoundTripReal(m.uncertainty, Factor(m.unit), Factor(t));
    assert Convert(c, m.unit) == m;
    ResultOf(To(c, m.unit));
  }

  /** Converting to the unit a measurement already has changes nothing. */
  lemma ToItself(m: Measurement)
    ensures To(m, m.unit) == Ok(m)
  {
    hide *;
    ToShape(m, m.unit);
    SameDimsSymmetric(m.unit, m.unit);
    ConvertShape(m, m.unit);
    DivCancel(m.value, Factor(m.unit));
    DivCancel(m.uncertainty, Factor(m.unit));
    assert Convert(m, m.unit) == m;
    ResultOf(To(m, m.unit));
  }

  // ---------------------------------------------------------------------------
  // Sums and differences

  /** The sum of two independent measurements of the same dimensions is the
      sum of their quantities, in the left operand's unit, with the second
      operand's uncertainty converted to that unit and added in quadrature. */
  lemma AddQuantity(lib: MathLib, m: Measurement, n: Measurement)
    requires SameDims(m.unit, n.unit)
    ensures Add(lib, m, Other(n)).Ok?
    ensures Add(lib, m, Other(n)).value.unit == m.unit
    ensures Quantity(Add(lib, m, Other(n)).value) == Quantity(m) + Quantity(n)
    ensures Add(lib, m, Other(n)).value.uncertainty == lib.hypot(m.uncertainty, Convert(n, m.unit).uncertainty)
  {
    hide *;
    var c := Convert(n, m.unit);
    AddShape(lib, m, n);
    ConvertShape(n, m.unit);
    ConvertKeeps(n, m.unit);
    EqualFacts(m.unit, n.unit);
    if Equal(m.unit, n.unit) {
      assert Factor(n.unit) == Factor(m.unit);
      DivCancel(n.value, Factor(m.unit));
      DivCancel(n.uncertainty, Factor(m.unit));
      assert c.uncertainty == n.uncertainty;
      QuantityOf(n);
      AddSum(lib, m, n);
    } else {
      AddShape(lib, m, c);
      EqualFacts(m.unit, c.unit);
      QuantityOf(c);
      AddSum(lib, m, c);
    }
  }

  lemma AddSum(lib: MathLib, m: Measurement, n: Measurement)
    requires Equal(m.unit, n.unit) && Quantity(n) == n.value * Factor(m.unit)
    requires Add(lib, m, Other(n)).Ok?
    requires Add(lib, m, Other(n)).value == Measurement(m.value + n.value, lib.hypot(m.uncertainty, n.uncertainty), m.unit)
    ensures Quantity(Add(lib, m, Other(n)).value) == Quantity(m) + Quantity(n)
  {
    hide *;
    var r := Add(lib, m, Other(n)).value;
    QuantityOf(r);
    QuantityOf(m);
    Distribute(m.value, n.value, Factor(m.unit));
  }

  /** `x + x` is `2 * x`: value and uncertainty both double. */
  lemma AddSelfIsDouble(lib: MathLib, m: Measurement)
    ensures Add(lib, m, Itself) == Measurements.Mul(lib, m, Number(2.0))
  {
    hide *;
    SelfShapes(lib, m);
    NumberShapes(lib, m, 2.0);
    AbsOf(2.0);
  }

  lemma AbsOf(x: real)
    ensures x >= 0.0 ==> Abs(x) == x
    ensures x < 0.0 ==> Abs(x) == -x
  {
  }

  /** Negation is an involution that negates the quantity. */
  lemma NegInvolution(m: Measurement)
    ensures Neg(Neg(m)) == m
    ensures Quantity(Neg(m)) == -Quantity(m)
  {
    hide Factor;
    QuantityOf(m);
    QuantityOf(Neg(m));
  }

  /** The difference of independent measurements of the same dimensions is
      the difference of their quantities. */
  lemma SubQuantity(lib: MathLib, m: Measurement, n: Measurement)
    requires SameDims(m.unit, n.unit)
    ensures Sub(lib, m, Other(n)).Ok?
    ensures Quantity(Sub(lib, m, Other(n)).value) == Quantity(m) - Quantity(n)
  {
    hide *;
    SubShape(lib, m, n);
    AddQuantity(lib, m, Neg(n));
    NegInvolution(n);
  }

  /** `x - x` is zero but, unlike `x / x`, keeps an uncertainty: `-x` is a new
      object, so the two operands are treated as independent. */
  lemma SubSelf(lib: MathLib, m: Measurement)
    ensures Sub(lib, m, Itself) == Ok(Measurement(0.0, lib.hypot(m.uncertainty, m.uncertainty), m.unit))
  {
    hide *;
    SubShape(lib, m, m);
    AddShape(lib, m, Neg(m));
    EqualFacts(m.unit, m.unit);
  }

  /** `c - x` is the negation of `x - c`. */
  lemma RSubIsNegatedSub(lib: MathLib, m: Measurement, c: real)
    ensures RSub(lib, m, Number(c)) == Ok(Neg(Sub(lib, m, Number(c)).value))
  {
    hide Equal, SameDims, Convert;
  }

  // ---------------------------------------------------------------------------
  // Products and quotients

  /** Reconciliation rescales value and uncertainty together, so the relative
      uncertainty of the second operand does not change. */
  lemma ReconciledRelative(a: Unit, n: Measurement)
    ensures Relative(Reconciled(a, n)) == Relative(n)
    ensures Quantity(Reconciled(a, n)) == Quantity(n)
  {
    hide *;
    var k := Rescale(a, n.unit);
    AlignResolves(a, n.unit);
    ReconciledShape(a, n);
    if n.value != 0.0 {
      RelativeScaled(n, k, Align(a, n.unit));
    } else {
      RelativeZero(n, Reconciled(a, n));
    }
    Quantity4(n.value, k, Factor(Align(a, n.unit)), Factor(n.unit));
  }

  lemma ReconciledShape(a: Unit, n: Measurement)
    ensures Reconciled(a, n) == Measurement(n.value * Rescale(a, n.unit), n.uncertainty * Rescale(a, n.unit), Align(a, n.unit))
    ensures Rescale(a, n.unit) > 0.0
    ensures Quantity(Reconciled(a, n)) == n.value * Rescale(a, n.unit) * Factor(Align(a, n.unit))
    ensures Quantity(n) == n.value * Factor(n.unit)
  {
    hide Factor, Rescale, Align;
    QuantityOf(n);
    QuantityOf(Reconciled(a, n));
  }

  lemma RelativeScaled(n: Measurement, k: real, u: Unit)
    requires n.value != 0.0 && k > 0.0
    ensures Relative(Measurement(n.value * k, n.uncertainty * k, u)) == Relative(n)
  {
    ScaledQuotient(n.uncertainty, n.value, k);
  }

  lemma ScaledQuotient(u: real, v: real, k: real)
    requires v != 0.0 && k != 0.0
    ensures (u * k) / (v * k) == u / v
  {
    var r := u / v;
    assert r * (v * k) == u * k;
  }

  lemma RelativeZero(n: Measurement, r: Measurement)
    requires n.value == 0.0 && r.value == 0.0
    ensures Relative(r) == Relative(n)
  {
  }

  lemma Quantity4(v: real, k: real, falign: real, fb: real)
    requires falign * k == fb
    ensures v * k * falign == v * fb
  {
  }

  /** The product of two independent measurements multiplies the quantities,
      adds the dimensions, and combines the relative uncertainties in
      quadrature. */
  lemma MulQuantity(lib: MathLib, m: Measurement, n: Measurement)
    ensures Measurements.Mul(lib, m, Other(n)).Ok?
    ensures Quantity(Measurements.Mul(lib, m, Other(n)).value) == Quantity(m) * Quantity(n)
    ensures BaseDims(Measurements.Mul(lib, m, Other(n)).value.unit) == BaseDims(m.unit).Plus(BaseDims(n.unit))
    ensures Measurements.Mul(lib, m, Other(n)).value.uncertainty
         == Abs(Measurements.Mul(lib, m, Other(n)).value.value) * lib.hypot(Relative(m), Relative(n))
  {
    hide *;
    var n' := Reconciled(m.unit, n);
    var k := Rescale(m.unit, n.unit);
    MulShape(lib, m, n);
    ReconciledRelative(m.unit, n);
    ReconciledShape(m.unit, n);
    var ru := Units.Mul(m.unit, n'.unit).value;
    var r := Measurements.Mul(lib, m, Other(n)).value;
    assert r.value == m.value * (n.value * k) && r.unit == ru;
    ResultOf(Units.Mul(m.unit, n'.unit));
    MulResolves(m.unit, n'.unit, ru);
    AlignResolves(m.unit, n.unit);
    assert Factor(n'.unit) * k == Factor(n.unit);
    Product4(m.value, Factor(m.unit), n.value, k, Factor(n.unit), Factor(ru), Factor(n'.unit));
    QuantityOf(r);
    QuantityOf(m);
    QuantityOf(n);
    assert Quantity(r) == Quantity(m) * Quantity(n);
  }

  lemma ResultOf<T, E>(r: Result<T, E>)
    requires r.Ok?
    ensures r == Ok(r.value)
  {
  }

  /** Multiplying by a number scales the quantity and, for a nonzero number,
      keeps the relative uncertainty up to sign. */
  lemma MulNumber(lib: MathLib, m: Measurement, c: real)
    ensures Measurements.Mul(lib, m, Number(c)).Ok?
    ensures Quantity(Measurements.Mul(lib, m, Number(c)).value) == Quantity(m) * c
    ensures c != 0.0 ==> Abs(Relative(Measurements.Mul(lib, m, Number(c)).value)) == Abs(Relative(m))
  {
    hide *;
    NumberShapes(lib, m, c);
    var r := Measurement(m.value * c, m.uncertainty * Abs(c), m.unit);
    QuantityOf(r);
    QuantityOf(m);
    ScaleQuantity(m.value, c, Factor(m.unit));
    if c != 0.0 {
      ScaledRelative(m, c, r);
    }
  }

  lemma ScaledRelative(m: Measurement, c: real, r: Measurement)
    requires c != 0.0 && r == Measurement(m.value * c, m.uncertainty * Abs(c), m.unit)
    ensures Abs(Relative(r)) == Abs(Relative(m))
  {
    hide *;
    RelativeOf(r);
    RelativeOf(m);
    if m.value != 0.0 {
      ScaleRelative(Relative(r), Relative(m), m.value, c, m.uncertainty, Abs(c));
      AbsCancel(Relative(r), Relative(m), c);
    } else {
      assert r.value == 0.0;
    }
  }

  lemma ScaleQuantity(v: real, c: real, f: real)
    ensures (v * c) * f == (v * f) * c
  {
  }

  lemma ScaleRelative(rr: real, rm: real, v: real, c: real, u: real, a: real)
    requires v != 0.0 && rr * (v * c) == u * a && rm * v == u
    ensures rr * c == rm * a
  {
    assert (rr * c) * v == (rm * a) * v;
  }

  /** `x * x` has the value and unit of the independent product `x * y` with
      `y` a copy of `x`, but twice the absolute uncertainty `x.value * x.uncertainty`. */
  lemma MulSelf(lib: MathLib, m: Measurement)
    ensures Measurements.Mul(lib, m, Itself).Ok? && Measurements.Mul(lib, m, Other(m)).Ok?
    ensures Measurements.Mul(lib, m, Itself).value.value == Measurements.Mul(lib, m, Other(m)).value.value
    ensures Equal(Measurements.Mul(lib, m, Itself).value.unit, Measurements.Mul(lib, m, Other(m)).value.unit)
    ensures Measurements.Mul(lib, m, Itself).value.uncertainty == 2.0 * m.value * m.uncertainty
  {
    hide *;
    var u := m.unit;
    SelfShapes(lib, m);
    MulShape(lib, m, m);
    ReconciledSelf(m);
    UnitLaws.MulSelf(u);
    EqualFacts(Units.Mul(u, u).value, Units.Pow(u, 2));
    RelativeOf(m);
    SquareUncertainty(m.value, Relative(m), m.uncertainty);
  }

  /** The quotient of two independent measurements divides the quantities
      and subtracts the dimensions. */
  lemma DivQuantity(lib: MathLib, m: Measurement, n: Measurement)
    requires n.value != 0.0
    ensures Measurements.Div(lib, m, Other(n)).Ok?
    ensures Quantity(Measurements.Div(lib, m, Other(n)).value) * Quantity(n) == Quantity(m)
    ensures BaseDims(Measurements.Div(lib, m, Other(n)).value.unit).Plus(BaseDims(n.unit)) == BaseDims(m.unit)
    ensures Measurements.Div(lib, m, Other(n)).value.uncertainty
         == Abs(Measurements.Div(lib, m, Other(n)).value.value) * lib.hypot(Relative(m), Relative(n))
  {
    hide *;
    var n' := Reconciled(m.unit, n);
    var k := Rescale(m.unit, n.unit);
    DivShape(lib, m, n);
    ReconciledRelative(m.unit, n);
    ReconciledShape(m.unit, n);
    var ru := Units.Div(m.unit, n'.unit).value;
    var r := Measurements.Div(lib, m, Other(n)).value;
    assert r.value == m.value / (n.value * k) && r.unit == ru;
    ResultOf(Units.Div(m.unit, n'.unit));
    DivResolves(m.unit, n'.unit, ru);
    AlignResolves(m.unit, n.unit);
    assert Factor(n'.unit) * k == Factor(n.unit);
    Quotient4(m.value, Factor(m.unit), n.value, k, Factor(n.unit), Factor(ru), Factor(n'.unit));
    QuantityOf(r);
    QuantityOf(m);
    QuantityOf(n);
    DimsShift(BaseDims(ru), BaseDims(n'.unit), BaseDims(n.unit), BaseDims(m.unit));
  }

  lemma DimsShift(r: Dims, x: Dims, y: Dims, a: Dims)
    requires r.Plus(x) == a && x == y
    ensures r.Plus(y) == a
  {
  }

  /** `x / x` is exactly one with no uncertainty, while dividing by an
      independent copy gives the same value and a dimensionless unit. */
  lemma DivSelf(lib: MathLib, m: Measurement)
    requires m.value != 0.0
    ensures Measurements.Div(lib, m, Itself) == Ok(Measurement(1.0, 0.0, Dimensionless))
    ensures Measurements.Div(lib, m, Other(m)).Ok?
    ensures Measurements.Div(lib, m, Other(m)).value.value == 1.0
    ensures Equal(Measurements.Div(lib, m, Other(m)).value.unit, Dimensionless)
  {
    hide *;
    var u := m.unit;
    SelfShapes(lib, m);
    DivShape(lib, m, m);
    ReconciledSelf(m);
    var q := Units.Div(u, u).value;
    DivResolves(u, u, q);
    FactorPositive(u);
    DimensionlessResolves();
    DivOne(Factor(q), Factor(u));
    DimsZero(BaseDims(q), BaseDims(u));
    SelfQuotient(m.value);
    EqualIntro(q, Dimensionless);
  }

  lemma SelfQuotient(v: real)
    requires v != 0.0
    ensures v / v == 1.0
  {
  }

  lemma DivOne(q: real, f: real)
    requires f != 0.0 && q * f == f
    ensures q == 1.0
  {
  }

  lemma DimsZero(q: Dims, d: Dims)
    requires q.Plus(d) == d
    ensures q == NoDims
  {
  }

  /** Dividing by a nonzero number is multiplying by its reciprocal. */
  lemma DivNumberIsMulInverse(lib: MathLib, m: Measurement, c: real)
    requires c != 0.0
    ensures Measurements.Div(lib, m, Number(c)) == Measurements.Mul(lib, m, Number(1.0 / c))
  {
    hide *;
    NumberShapes(lib, m, c);
    NumberShapes(lib, m, 1.0 / c);
    AbsOf(c);
    AbsOf(1.0 / c);
    Reciprocal(m.value, c);
    if c > 0.0 {
      Reciprocal(m.uncertainty, c);
    } else {
      Reciprocal(m.uncertainty, -c);
      assert 1.0 / -c == -(1.0 / c);
    }
    assert Measurements.Div(lib, m, Number(c)).value == Measurements.Mul(lib, m, Number(1.0 / c)).value;
    ResultOf(Measurements.Div(lib, m, Number(c)));
    ResultOf(Measurements.Mul(lib, m, Number(1.0 / c)));
  }

  lemma Reciprocal(v: real, c: real)
    requires c != 0.0
    ensures v / c == v * (1.0 / c)
    ensures c > 0.0 ==> 1.0 / c > 0.0
    ensures c < 0.0 ==> 1.0 / c < 0.0
  {
  }

  /** `c / x` has the quantity `c` divided by the quantity of `x`. */
  lemma RDivQuantity(m: Measurement, c: real)
    requires m.value != 0.0
    ensures RDiv(m, c).Ok?
    ensures Quantity(RDiv(m, c).value) * Quantity(m) == c
  {
    hide *;
    RDivShape(m, c);
    var r := Measurement(c / m.value, Abs(c / m.value) * Relative(m), Inv(m.unit));
    InvResolves(m.unit);
    QuantityOf(r);
    QuantityOf(m);
    QuotientBack(c, m.value);
    Cancel(r.value, m.value, Factor(Inv(m.unit)), Factor(m.unit), c);
  }

  lemma QuotientBack(c: real, v: real)
    requires v != 0.0
    ensures (c / v) * v == c
  {
  }

  lemma Cancel(v: real, w: real, f: real, g: real, c: real)
    requires v * w == c && f * g == 1.0
    ensures (v * f) * (w * g) == c
  {
    assert (v * f) * (w * g) == (v * w) * (f * g);
  }

  // ---------------------------------------------------------------------------
  // Powers

  /** An integer power raises the unit to that power and, where float `**`
      agrees with the exact power, raises the quantity to it. */
  lemma PowInteger(lib: MathLib, m: Measurement, n: int)
    requires m.value != 0.0
    requires lib.pow(m.value, n as real) == RealPow(m.value, n)
    ensures Measurements.Pow(lib, m, Number(n as real)).Ok?
    ensures Measurements.Pow(lib, m, Number(n as real)).value.unit == Units.Pow(m.unit, n)
    ensures Quantity(Measurements.Pow(lib, m, Number(n as real)).value) == RealPow(Quantity(m), n)
  {
    hide *;
    PowNumberShape(lib, m, n as real);
    PowRealIntegral(m.unit, n);
    var r := Measurements.Pow(lib, m, Number(n as real)).value;
    assert r.value == RealPow(m.value, n) && r.unit == Units.Pow(m.unit, n);
    PowResolves(m.unit, n);
    FactorPositive(m.unit);
    QuantityOf(r);
    QuantityOf(m);
    PowQuantity(m.value, Factor(m.unit), n, Quantity(r), Factor(r.unit), Quantity(m));
  }

  lemma PowQuantity(v: real, f: real, n: int, q: real, g: real, p: real)
    requires v != 0.0 && f > 0.0 && p == v * f
    requires g == RealPow(f, n) && q == RealPow(v, n) * g
    ensures p != 0.0 && q == RealPow(p, n)
  {
    hide *;
    RealPowProduct(v, f, n);
  }

  // ---------------------------------------------------------------------------
  // Functions of dimensionless measurements

  /** The math functions reject exactly the measurements with dimensions. */
  lemma ApplyGate(lib: MathLib, f: MathFunction, m: Measurement)
    ensures Apply(lib, f, m) == Err(DimensionMismatch) <==> !Unitless(m.unit)
  {
  }

  /** A result of a math function is dimensionless, so it can be fed to any
      math function again without a dimension error. */
  lemma ApplyCompose(lib: MathLib, f: MathFunction, g: MathFunction, m: Measurement)
    requires Apply(lib, f, m).Ok?
    ensures Apply(lib, g, Apply(lib, f, m).value) != Err(DimensionMismatch)
  {
    DimensionlessResolves();
    ApplyGate(lib, g, Apply(lib, f, m).value);
  }

  // ---------------------------------------------------------------------------
  // Construction from text

  /** A measurement built from a printed unit gets that unit back, with its
      zero-power slots cleared, exactly when no power is negative. */
  lemma MakeFromRepr(value: real, uncertainty: real, u: Unit)
    ensures NoNegative(u) ==> Make(value, uncertainty, Repr(u)) == Ok(Measurement(value, uncertainty, Normal(u)))
    ensures NoNegative(u) ==> Equal(Make(value, uncertainty, Repr(u)).value.unit, u)
    ensures !NoNegative(u) ==> Make(value, uncertainty, Repr(u)) == Err(BadUnit(UnknownCharacter('^')))
  {
    hide *;
    ReprRoundTrip(u);
    NormalEqual(u);
    MakeOf(value, uncertainty, Repr(u));
  }

  lemma MakeOf(value: real, uncertainty: real, text: string)
    ensures Parse(text).Ok? ==> Make(value, uncertainty, text) == Ok(Measurement(value, uncertainty, Parse(text).value))
    ensures Parse(text).Err? ==> Make(value, uncertainty, text) == Err(Parse(text).error)
  {
    hide Parse;
  }
}

=== FILE: measurement_list_laws.dfy ===
/** What the list operations promise: construction keeps the given values
    and uncertainties, negative indices count from the end, appending keeps
    the elements in order and succeeds exactly when the units agree, and
    every operator acts element by element as the measurement operator of the
    same name does. */
module MeasurementListLaws {
  import opened Wrappers
  import opened Errors
  import opened Units
  import opened UnitAlgebra
  import opened UnitLaws
  import opened UnitParse
  import opened Measurements
  import opened MeasurementLaws
  import opened MeasurementLists

  // ---------------------------------------------------------------------------
  // Construction and indexing

  /** A list built from numbers gives back those numbers as its values, and as
      uncertainties the shared one or the leading part of the given ones. */
  lemma FromNumbersRoundTrip(values: seq<real>, spread: Spread, text: string)
    requires FromNumbers(values, spread, text).Ok?
    ensures Values(FromNumbers(values, spread, text).value) == values
    ensures spread.Each? ==> Uncertainties(FromNumbers(values, spread, text).value) == spread.us[..|values|]
    ensures spread.Same? ==> forall i :: 0 <= i < |values| ==> Uncertainties(FromNumbers(values, spread, text).value)[i] == spread.u
    ensures forall i :: 0 <= i < |values| ==> FromNumbers(values, spread, text).value.items[i].unit == Parse(text).value
  {
    hide Parse, Equal, Factor, BaseDims;
  }

  /** Index `i - len(l)` is index `i`. */
  lemma GetNegative(l: MeasurementList, i: int)
    requires 0 <= i < Len(l)
    ensures Get(l, i).Ok? && Get(l, i).value == l.items[i]
    ensures Get(l, i - Len(l)).Ok? && Get(l, i - Len(l)).value == l.items[i]
  {
  }

  lemma EqualTransitive(a: Unit, b: Unit, c: Unit)
    requires Equal(a, b) && Equal(b, c)
    ensures Equal(a, c) && Equal(c, a)
  {
  }

  /** Appending a measurement succeeds exactly when its unit equals the
      list's, and puts it last after the unchanged elements. */
  lemma AppendMeasurement(l: MeasurementList, m: Measurement)
    ensures Append(l, OneMeasurement(m)).Ok? <==> Equal(m.unit, l.unit)
    ensures !Equal(m.unit, l.unit) ==> Append(l, OneMeasurement(m)) == Err(MixedUnits)
    ensures Append(l, OneMeasurement(m)).Ok? ==>
              var r := Append(l, OneMeasurement(m)).value;
              Len(r) == Len(l) + 1 && r.items[..Len(l)] == l.items && Get(r, -1) == Ok(m)
  {
    var ms := l.items + [m];
    if Equal(m.unit, l.unit) {
      forall i | 0 <= i < |ms|
        ensures Equal(ms[i].unit, ms[0].unit)
      {
        if i == |l.items| {
          assert ms[i] == m;
        } else {
          assert ms[i] == l.items[i];
        }
      }
      assert ms[..Len(l)] == l.items;
    } else {
      assert ms[|l.items|] == m;
    }
  }

  /** Appending a list succeeds exactly when its unit equals this list's, and
      the values come out as this list's values followed by the other's. */
  lemma AppendList(l: MeasurementList, k: MeasurementList)
    ensures Append(l, AnotherList(k)).Ok? <==> Equal(k.unit, l.unit)
    ensures Append(l, AnotherList(k)).Ok? ==>
              Append(l, AnotherList(k)).value.items == l.items + k.items
              && Values(Append(l, AnotherList(k)).value) == Values(l) + Values(k)
  {
    var ms := l.items + k.items;
    if Equal(k.unit, l.unit) {
      forall i | 0 <= i < |ms|
        ensures Equal(ms[i].unit, ms[0].unit)
      {
        if i < |l.items| {
          assert ms[i] == l.items[i];
        } else {
          assert ms[i] == k.items[i - |l.items|];
          EqualTransitive(ms[i].unit, k.unit, l.unit);
        }
      }
      var r := Append(l, AnotherList(k)).value;
      assert Values(r) == Values(l) + Values(k);
    } else {
      assert ms[|l.items|] == k.items[0];
    }
  }

  // ---------------------------------------------------------------------------
  // Element-by-element operators

  /** Collecting results that all succeeded gives their values. */
  lemma CollectValues(rs: seq<Result<Measurement, Error>>, ms: seq<Measurement>)
    requires |rs| == |ms| && forall i :: 0 <= i < |rs| ==> rs[i].Ok? && rs[i].value == ms[i]
    ensures Collect(rs) == Ok(ms)
  {
    assert Collect(rs).value == ms;
  }

  /** Results that all succeed with the units of a uniform sequence build a
      list with those items and the first unit. */
  lemma BuildSameUnits(rs: seq<Result<Measurement, Error>>, ms: seq<Measurement>, ref: seq<Measurement>)
    requires Uniform(ref) && |ref| == |ms| == |rs|
    requires forall i :: 0 <= i < |rs| ==> rs[i].Ok? && rs[i].value == ms[i] && ms[i].unit == ref[i].unit
    ensures Build(rs).Ok? && Build(rs).value.items == ms && Build(rs).value.unit == ref[0].unit
  {
    hide Equal;
    CollectValues(rs, ms);
    assert Uniform(ms) by {
      forall i | 0 <= i < |ms|
        ensures Equal(ms[i].unit, ms[0].unit)
      {
        assert Equal(ref[i].unit, ref[0].unit);
      }
    }
  }

  /** A successful list operator holds, at every index, what the measurement
      operator gives for that element and its operand. */
  lemma BinaryAt(lib: MathLib, op: BinOp, l: MeasurementList, r: Rhs)
    requires Binary(lib, op, l, r).Ok?
    ensures r.Pairwise? ==> Len(r.other) == Len(l)
    ensures Len(Binary(lib, op, l, r).value) == Len(l)
    ensures forall i :: 0 <= i < Len(l) ==>
              ElementOp(lib, op, l.items[i], OperandAt(r, i)).Ok?
              && Binary(lib, op, l, r).value.items[i] == ElementOp(lib, op, l.items[i], OperandAt(r, i)).value
  {
  }

  /** A list operator fails with the error of the first element whose
      measurement operator fails. */
  lemma BinaryFirstError(lib: MathLib, op: BinOp, l: MeasurementList, r: Rhs, i: nat)
    requires r.Pairwise? ==> Len(r.other) == Len(l)
    requires i < Len(l) && ElementOp(lib, op, l.items[i], OperandAt(r, i)).Err?
    requires forall j :: 0 <= j < i ==> ElementOp(lib, op, l.items[j], OperandAt(r, j)).Ok?
    ensures Binary(lib, op, l, r) == Err(ElementOp(lib, op, l.items[i], OperandAt(r, i)).error)
  {
    var rs := Results(lib, op, l, r);
    var c := Collect(rs);
    assert !c.Ok? by {
      assert !rs[i].Ok?;
    }
    var k :| 0 <= k < |rs| && rs[k].Err? && rs[k].error == c.error && forall j :: 0 <= j < k ==> rs[j].Ok?;
    assert k == i;
  }

  /** A sum of lists succeeds exactly when the lengths agree and every
      element sum succeeds: the element sums keep the left element's unit, so
      the rebuilt list never fails the unit check. */
  lemma AddOkIff(lib: MathLib, l: MeasurementList, r: Rhs)
    ensures MeasurementLists.Add(lib, l, r).Ok?
        <==> (r.Pairwise? ==> Len(r.other) == Len(l))
             && forall i :: 0 <= i < Len(l) && (r.Pairwise? ==> Len(r.other) == Len(l)) ==>
                  Measurements.Add(lib, l.items[i], OperandAt(r, i)).Ok?
  {
    if r.Pairwise? ==> Len(r.other) == Len(l) {
      var rs := Results(lib, Plus, l, r);
      if forall i :: 0 <= i < |rs| ==> rs[i].Ok? {
        var ms := Collect(rs).value;
        forall i | 0 <= i < |ms|
          ensures Equal(ms[i].unit, ms[0].unit)
        {
          assert ms[i].unit == l.items[i].unit;
          assert ms[0].unit == l.items[0].unit;
        }
      }
    }
  }

  /** Two lists of the same dimensions and length, holding distinct
      objects, add up element by element as physical quantities. */
  lemma AddPairwiseQuantity(lib: MathLib, l: MeasurementList, k: MeasurementList)
    requires Len(l) == Len(k) && SameDims(l.unit, k.unit)
    ensures MeasurementLists.Add(lib, l, Pairwise(k, {})).Ok?
    ensures forall i :: 0 <= i < Len(l) ==>
              Quantity(MeasurementLists.Add(lib, l, Pairwise(k, {})).value.items[i]) == Quantity(l.items[i]) + Quantity(k.items[i])
  {
    var r := Pairwise(k, {});
    forall i | 0 <= i < Len(l)
      ensures Measurements.Add(lib, l.items[i], Other(k.items[i])).Ok?
      ensures Quantity(Measurements.Add(lib, l.items[i], Other(k.items[i])).value) == Quantity(l.items[i]) + Quantity(k.items[i])
    {
      assert SameDims(l.items[i].unit, k.items[i].unit);
      AddQuantity(lib, l.items[i], k.items[i]);
    }
    AddOkIff(lib, l, r);
    BinaryAt(lib, Plus, l, r);
  }

  /** The difference of two lists is, element by element, the difference of
      the measurements. */
  lemma SubPairwise(lib: MathLib, l: MeasurementList, k: MeasurementList, aliased: set<nat>)
    requires MeasurementLists.Sub(lib, l, Pairwise(k, aliased)).Ok?
    ensures forall i :: 0 <= i < Len(l) ==>
              Measurements.Sub(lib, l.items[i], Other(k.items[i])).Ok?
              && MeasurementLists.Sub(lib, l, Pairwise(k, aliased)).value.items[i] == Measurements.Sub(lib, l.items[i], Other(k.items[i])).value
  {
    BinaryAt(lib, Plus, l, Pairwise(MeasurementLists.Neg(k), {}));
  }

  /** `l - l` negates a fresh copy first, so every element is the sum of two
      independent measurements: zero with the uncertainty doubled in
      quadrature, not zero uncertainty. */
  lemma SubSelf(lib: MathLib, l: MeasurementList, aliased: set<nat>)
    ensures MeasurementLists.Sub(lib, l, Pairwise(l, aliased)).Ok?
    ensures forall i :: 0 <= i < Len(l) ==>
              MeasurementLists.Sub(lib, l, Pairwise(l, aliased)).value.items[i]
              == Measurement(0.0, lib.hypot(l.items[i].uncertainty, l.items[i].uncertainty), l.items[i].unit)
  {
    var r := Pairwise(MeasurementLists.Neg(l), {});
    forall i | 0 <= i < Len(l)
      ensures Measurements.Add(lib, l.items[i], OperandAt(r, i)).Ok?
      ensures Measurements.Add(lib, l.items[i], OperandAt(r, i)).value
              == Measurement(0.0, lib.hypot(l.items[i].uncertainty, l.items[i].uncertainty), l.items[i].unit)
    {
      MeasurementLaws.SubSelf(lib, l.items[i]);
      SubShape(lib, l.items[i], l.items[i]);
    }
    AddOkIff(lib, l, r);
    BinaryAt(lib, Plus, l, r);
  }

  /** Negating a list twice gives it back. */
  lemma NegInvolution(l: MeasurementList)
    ensures MeasurementLists.Neg(MeasurementLists.Neg(l)) == l
    ensures Values(MeasurementLists.Neg(l)) == seq(Len(l), i requires 0 <= i < Len(l) => -l.items[i].value)
  {
    hide Equal, Factor, BaseDims, Uniform, Measurements.Neg;
    var n := MeasurementLists.Neg(MeasurementLists.Neg(l));
    assert n.items == l.items;
  }

  /** `c - l` for a number `c` is, element by element, `c - m`. */
  lemma RSubNumber(lib: MathLib, l: MeasurementList, c: real)
    ensures MeasurementLists.RSub(lib, l, WithNumber(c)).Ok?
    ensures forall i :: 0 <= i < Len(l) ==>
              Measurements.RSub(lib, l.items[i], Number(c)).Ok?
              && MeasurementLists.RSub(lib, l, WithNumber(c)).value.items[i] == Measurements.RSub(lib, l.items[i], Number(c)).value
              && MeasurementLists.RSub(lib, l, WithNumber(c)).value.items[i].value == c - l.items[i].value
  {
    var n := MeasurementLists.Neg(l);
    AddOkIff(lib, n, Broadcast(WithNumber(c)));
    BinaryAt(lib, Plus, n, Broadcast(WithNumber(c)));
  }

  /** Multiplying a list by a number always succeeds, keeps the unit and
      scales every value by the number and every uncertainty by its size. */
  lemma ScaleByNumber(lib: MathLib, l: MeasurementList, c: real)
    ensures MeasurementLists.Mul(lib, l, Broadcast(WithNumber(c))).Ok?
    ensures MeasurementLists.Mul(lib, l, Broadcast(WithNumber(c))).value.unit == l.unit
    ensures forall i :: 0 <= i < Len(l) ==>
              Values(MeasurementLists.Mul(lib, l, Broadcast(WithNumber(c))).value)[i] == Values(l)[i] * c
              && Uncertainties(MeasurementLists.Mul(lib, l, Broadcast(WithNumber(c))).value)[i] == Uncertainties(l)[i] * Abs(c)
  {
    hide Measurements.Mul, Measurements.Add, Measurements.Div, Abs, Build, Results, Equal, Collect, FromMeasurements, Uniform, Factor, BaseDims, Scaled;
    var rs := Results(lib, Times, l, Broadcast(WithNumber(c)));
    var ms := Scaled(l.items, c);
    forall i | 0 <= i < Len(l)
      ensures rs[i].Ok? && rs[i].value == ms[i] && ms[i].unit == l.items[i].unit
    {
      ScaleAt(lib, l, c, i);
    }
    BuildSameUnits(rs, ms, l.items);
  }

  function Scaled(xs: seq<Measurement>, c: real): (ms: seq<Measurement>)
    ensures |ms| == |xs|
    ensures forall i :: 0 <= i < |xs| ==> ms[i] == Measurement(xs[i].value * c, xs[i].uncertainty * Abs(c), xs[i].unit)
  {
    seq(|xs|, i requires 0 <= i < |xs| => Measurement(xs[i].value * c, xs[i].uncertainty * Abs(c), xs[i].unit))
  }

  lemma ScaleAt(lib: MathLib, l: MeasurementList, c: real, i: nat)
    requires i < Len(l)
    ensures Results(lib, Times, l, Broadcast(WithNumber(c)))[i].Ok?
    ensures Results(lib, Times, l, Broadcast(WithNumber(c)))[i].value == Scaled(l.items, c)[i]
  {
    hide Measurements.Mul, Measurements.Add, Measurements.Div, Abs, Scaled, Equal, Factor, BaseDims, Uniform, Relative, Reconciled;
    var m := l.items[i];
    NumberShapes(lib, m, c);
    assert OperandAt(Broadcast(WithNumber(c)), i) == Number(c);
    assert ElementOp(lib, Times, m, Number(c)) == Measurements.Mul(lib, m, Number(c));
    assert Scaled(l.items, c)[i] == Measurement(m.value * c, m.uncertainty * Abs(c), m.unit);
  }

  lemma InvEqual(a: Unit, b: Unit)
    requires Equal(a, b)
    ensures Equal(Inv(a), Inv(b))
  {
    hide *;
    EqualFacts(a, b);
    InvResolves(a);
    InvResolves(b);
    FactorPositive(a);
    ReciprocalUnique(Factor(Inv(a)), Factor(Inv(b)), Factor(a), Factor(b));
    SameDimsBase(a, b);
    DimsCancel(BaseDims(Inv(a)), BaseDims(Inv(b)), BaseDims(a));
    EqualIntro(Inv(a), Inv(b));
  }

  lemma SameDimsBase(a: Unit, b: Unit)
    requires SameDims(a, b)
    ensures BaseDims(a) == BaseDims(b)
  {
    hide BaseDims;
  }

  lemma ReciprocalUnique(x: real, y: real, f: real, g: real)
    requires f > 0.0 && f == g && x * f == 1.0 && y * g == 1.0
    ensures x == y
  {
    assert (x - y) * f == 0.0;
  }

  lemma DimsCancel(x: Dims, y: Dims, d: Dims)
    requires x.Plus(d) == NoDims && y.Plus(d) == NoDims
    ensures x == y
  {
  }

  /** `c / l` for a number `c` succeeds exactly when no value is zero; the
      reciprocal units of equal units are equal, so the unit check passes. */
  lemma RDivNumber(lib: MathLib, l: MeasurementList, c: real)
    ensures RDivList(lib, l, WithNumber(c)).Ok? <==> forall i :: 0 <= i < Len(l) ==> l.items[i].value != 0.0
    ensures RDivList(lib, l, WithNumber(c)).Ok? ==>
              forall i :: 0 <= i < Len(l) ==> RDivList(lib, l, WithNumber(c)).value.items[i].value * l.items[i].value == c
  {
    hide Inv, Factor, BaseDims, Measurements.Div, Measurements.Pow, Measurements.Mul, Measurements.Add, Equal, Relative, Abs, Parse,
      Quotients, RDiv;
    var rs := Quotients(lib, l, WithNumber(c));
    forall i | 0 <= i < |rs|
      ensures rs[i].Ok? <==> l.items[i].value != 0.0
      ensures rs[i].Ok? ==> rs[i].value.value * l.items[i].value == c && rs[i].value.unit == Inv(l.items[i].unit)
    {
      QuotientAt(lib, l, c, i);
    }
    if forall i :: 0 <= i < |rs| ==> rs[i].Ok? {
      var ms := Collect(rs).value;
      forall i | 0 <= i < |ms|
        ensures Equal(ms[i].unit, ms[0].unit)
      {
        InvEqual(l.items[i].unit, l.items[0].unit);
      }
    }
  }

  lemma QuotientAt(lib: MathLib, l: MeasurementList, c: real, i: nat)
    requires i < Len(l)
    ensures Quotients(lib, l, WithNumber(c))[i] == RDiv(l.items[i], c)
  {
    hide RDiv;
  }

  /** `c ** l` for a number `c` succeeds exactly when the list is
      dimensionless and `c` is positive; the results are dimensionless. */
  lemma RPowNumber(lib: MathLib, l: MeasurementList, c: real)
    ensures RPowList(lib, l, WithNumber(c)).Ok? <==> Unitless(l.unit) && c > 0.0
    ensures RPowList(lib, l, WithNumber(c)).Ok? ==>
              RPowList(lib, l, WithNumber(c)).value.unit == Dimensionless
              && forall i :: 0 <= i < Len(l) ==> RPowList(lib, l, WithNumber(c)).value.items[i].value == lib.pow(c, l.items[i].value)
  {
    hide Factor, BaseDims, Measurements.RPow, Measurements.Pow, Relative, Abs, ReflectedPowers, Equal;
    var rs := ReflectedPowers(lib, l, WithNumber(c));
    forall i | 0 <= i < |rs|
      ensures rs[i] == Measurements.RPow(lib, l.items[i], c)
      ensures Unitless(l.items[i].unit) <==> Unitless(l.unit)
    {
      ReflectedPowerAt(lib, l, c, i);
      EqualFacts(l.items[i].unit, l.items[0].unit);
    }
    if Unitless(l.unit) && c > 0.0 {
      var ms := Collect(rs).value;
      forall i | 0 <= i < |ms|
        ensures Equal(ms[i].unit, ms[0].unit)
      {
        EqualFacts(Dimensionless, Dimensionless);
      }
    } else {
      assert rs[0].Err?;
    }
  }

  lemma ReflectedPowerAt(lib: MathLib, l: MeasurementList, c: real, i: nat)
    requires i < Len(l)
    ensures ReflectedPowers(lib, l, WithNumber(c))[i] == Measurements.RPow(lib, l.items[i], c)
  {
    hide Measurements.RPow;
  }

  /** A successful `l ** s` holds, at every index, the element's power. */
  lemma PowListAt(lib: MathLib, l: MeasurementList, s: Scalar)
    ensures PowList(lib, l, s).Ok? ==>
              Len(PowList(lib, l, s).value) == Len(l)
              && forall i :: 0 <= i < Len(l) ==>
                   Measurements.Pow(lib, l.items[i], ScalarOperand(s, i)).Ok?
                   && PowList(lib, l, s).value.items[i] == Measurements.Pow(lib, l.items[i], ScalarOperand(s, i)).value
    ensures (exists i :: 0 <= i < Len(l) && Measurements.Pow(lib, l.items[i], ScalarOperand(s, i)).Err?) ==> PowList(lib, l, s).Err?
  {
    hide Measurements.Pow, Equal, Factor, BaseDims;
  }

  // ---------------------------------------------------------------------------
  // The static functions

  /** A math function over a sequence of measurements succeeds exactly when
      the sequence is not empty and the function succeeds on every element;
      the results are dimensionless and so always share a unit. */
  lemma MapFunctionOkIff(lib: MathLib, f: MathFunction, xs: seq<Measurement>)
    ensures MapFunction(lib, f, xs).Ok? <==> xs != [] && forall i :: 0 <= i < |xs| ==> Apply(lib, f, xs[i]).Ok?
    ensures MapFunction(lib, f, xs).Ok? ==> MapFunction(lib, f, xs).value.unit == Dimensionless
  {
    hide Apply, Factor, BaseDims, Equal;
    var rs := Applied(lib, f, xs);
    if forall i :: 0 <= i < |rs| ==> rs[i].Ok? {
      var ms := Collect(rs).value;
      EqualFacts(Dimensionless, Dimensionless);
      forall i | 0 <= i < |ms|
        ensures Equal(ms[i].unit, ms[0].unit)
      {
        assert ms[i] == rs[i].value;
      }
    }
  }

  /** A list whose unit has dimensions is refused by every math function,
      since all its elements share those dimensions. */
  lemma MapFunctionGate(lib: MathLib, f: MathFunction, l: MeasurementList)
    requires !Unitless(l.unit)
    ensures MapFunction(lib, f, l.items) == Err(DimensionMismatch)
  {
    var rs := Applied(lib, f, l.items);
    assert rs[0] == Err(DimensionMismatch);
    var c := Collect(rs);
    var k :| 0 <= k < |rs| && rs[k].Err? && rs[k].error == c.error && forall j :: 0 <= j < k ==> rs[j].Ok?;
    assert k == 0;
  }
}

=== FILE: measurement_lists.dfy ===
/** Lists of measurements that share one unit. A list is built either from
    measurements, which must all have units equal to the first one's, or from
    plain numbers with one uncertainty each or one for all and a unit text.
    The operators act element by element: against another list of the same
    length pairwise, against a number or a single measurement by broadcasting
    it to every element. Each result is rebuilt as a new list, so it passes
    the same unit check as a list built by hand. */
module MeasurementLists {
  import opened Wrappers
  import opened Errors
  import opened Units
  import opened UnitParse
  import opened Measurements

  /** The elements of a list and its unit. */
  datatype ListData = ListData(items: seq<Measurement>, unit: Unit)

  /** A non-empty sequence whose every unit equals the first element's. */
  predicate Uniform(ms: seq<Measurement>) {
    ms != [] && forall i :: 0 <= i < |ms| ==> Equal(ms[i].unit, ms[0].unit)
  }

  /** What a constructed list always satisfies: its unit is the first
      element's and every element's unit equals it. */
  type MeasurementList = l: ListData | Uniform(l.items) && l.unit == l.items[0].unit
    witness ListData([Measurement(0.0, 0.0, Dimensionless)], Dimensionless)

  // ---------------------------------------------------------------------------
  // Construction, indexing, appending

  /** A list from measurements: an empty sequence fails when the first element
      is looked up, a sequence with unequal units is refused. */
  function FromMeasurements(ms: seq<Measurement>): (r: Result<MeasurementList, Error>)
    ensures r.Ok? <==> Uniform(ms)
    ensures ms == [] ==> r == Err(IndexOutOfRange)
    ensures ms != [] && !Uniform(ms) ==> r == Err(MixedUnits)
    ensures r.Ok? ==> r.value.items == ms
  {
    if ms == [] then Err(IndexOutOfRange)
    else if forall i :: 0 <= i < |ms| ==> Equal(ms[i].unit, ms[0].unit) then Ok(ListData(ms, ms[0].unit))
    else Err(MixedUnits)
  }

  /** The uncertainty argument of a list built from numbers. */
  datatype Spread =
    | Each(us: seq<real>)   // one uncertainty per value
    | Same(u: real)         // one uncertainty for every value

  function SpreadAt(s: Spread, i: nat): real
    requires s.Each? ==> i < |s.us|
  {
    match s
    case Each(us) => us[i]
    case Same(u) => u
  }

  /** A list from numbers, an uncertainty argument and a unit text. The checks
      come in the order the constructor meets them: an empty list, then the
      unit text, then an uncertainty list shorter than the values. */
  function FromNumbers(values: seq<real>, spread: Spread, text: string): (r: Result<MeasurementList, Error>)
    ensures r.Ok? <==> values != [] && Parse(text).Ok? && (spread.Each? ==> |values| <= |spread.us|)
    ensures values == [] ==> r == Err(IndexOutOfRange)
    ensures values != [] && Parse(text).Err? ==> r == Err(Parse(text).error)
    ensures r.Ok? ==> r.value.unit == Parse(text).value
  {
    if values == [] then Err(IndexOutOfRange)
    else
      match Parse(text)
      case Err(e) => Err(e)
      case Ok(u) =>
        if spread.Each? && |spread.us| < |values| then Err(IndexOutOfRange)
        else
          var ms := seq(|values|, i requires 0 <= i < |values| => Measurement(values[i], SpreadAt(spread, i), u));
          Ok(ListData(ms, u))
  }

  function Len(l: MeasurementList): nat {
    |l.items|
  }

  /** `l[i]`, with Python's negative indices counting from the end. */
  function Get(l: MeasurementList, i: int): (r: Result<Measurement, Error>)
    ensures r.Ok? <==> -(Len(l) as int) <= i < Len(l)
    ensures r.Err? ==> r.error == IndexOutOfRange
  {
    if 0 <= i < |l.items| then Ok(l.items[i])
    else if -|l.items| <= i < 0 then Ok(l.items[|l.items| + i])
    else Err(IndexOutOfRange)
  }

  /** `l.values()`: the values, in list order. */
  function Values(l: MeasurementList): (r: seq<real>)
    ensures |r| == Len(l)
    ensures forall i :: 0 <= i < Len(l) ==> r[i] == l.items[i].value
  {
    seq(|l.items|, i requires 0 <= i < |l.items| => l.items[i].value)
  }

  /** `l.uncertainties()`: the absolute uncertainties, in list order. */
  function Uncertainties(l: MeasurementList): (r: seq<real>)
    ensures |r| == Len(l)
    ensures forall i :: 0 <= i < Len(l) ==> r[i] == l.items[i].uncertainty
  {
    seq(|l.items|, i requires 0 <= i < |l.items| => l.items[i].uncertainty)
  }

  /** What `append` accepts. */
  datatype Appendee =
    | AnotherList(other: MeasurementList)
    | OneMeasurement(m: Measurement)
    | NotAppendable

  /** `l.append(x)`: a new list of `l`'s elements followed by `x`'s. */
  function Append(l: MeasurementList, x: Appendee): (r: Result<MeasurementList, Error>)
    ensures x.NotAppendable? ==> r == Err(Errors.NotAppendable)
    ensures r.Ok? ==> r.value.unit == l.unit
    ensures x.OneMeasurement? && r.Ok? ==> r.value.items == l.items + [x.m]
    ensures x.AnotherList? && r.Ok? ==> r.value.items == l.items + x.other.items
    ensures !x.NotAppendable? && r.Err? ==> r.error == MixedUnits
  {
    match x
    case AnotherList(k) => FromMeasurements(l.items + k.items)
    case OneMeasurement(m) => FromMeasurements(l.items + [m])
    case NotAppendable => Err(Errors.NotAppendable)
  }

  // ---------------------------------------------------------------------------
  // Element-by-element evaluation

  /** Evaluates a list comprehension left to right: the first failing
      element's error, or all the results. */
  function Collect(rs: seq<Result<Measurement, Error>>): (r: Result<seq<Measurement>, Error>)
    ensures r.Ok? <==> forall i :: 0 <= i < |rs| ==> rs[i].Ok?
    ensures r.Ok? ==> |r.value| == |rs| && forall i :: 0 <= i < |rs| ==> r.value[i] == rs[i].value
    ensures r.Err? ==> exists i :: 0 <= i < |rs| && rs[i].Err? && rs[i].error == r.error
                                   && forall j :: 0 <= j < i ==> rs[j].Ok?
  {
    if rs == [] then Ok([])
    else if rs[0].Err? then Err(rs[0].error)
    else
      match Collect(rs[1..])
      case Err(e) => Err(e)
      case Ok(rest) => Ok([rs[0].value] + rest)
  }

  /** A new list from the results of a comprehension. */
  function Build(rs: seq<Result<Measurement, Error>>): (r: Result<MeasurementList, Error>)
    ensures r.Ok? ==> Holds(r.value, rs)
    ensures rs != [] && rs[0].Err? ==> r == Err(rs[0].error)
  {
    match Collect(rs)
    case Err(e) => Err(e)
    case Ok(ms) => FromMeasurements(ms)
  }

  /** `l` holds, in order, the values of the results `rs`, all of which succeeded. */
  predicate Holds(l: MeasurementList, rs: seq<Result<Measurement, Error>>) {
    |l.items| == |rs| && forall i :: 0 <= i < |rs| ==> rs[i].Ok? && l.items[i] == rs[i].value
  }

  /** A number, a single measurement or a plain list on the other side of a
      list operator. `aliased` holds the indices whose element is that very
      measurement object. */
  datatype Scalar =
    | WithNumber(x: real)
    | WithMeasurement(m: Measurement, aliased: set<nat>)
    | WithPlainList

  /** The right operand of a list operator: another list, paired element by
      element (`aliased` holds the indices at which both lists hold the same
      object), or a scalar broadcast to every element. */
  datatype Rhs =
    | Pairwise(other: MeasurementList, aliased: set<nat>)
    | Broadcast(s: Scalar)

  /** The operand the `i`-th element meets. */
  function ScalarOperand(s: Scalar, i: nat): Operand {
    match s
    case WithNumber(x) => Number(x)
    case WithMeasurement(m, aliased) => if i in aliased then Itself else Other(m)
    case WithPlainList => PlainList
  }

  function OperandAt(r: Rhs, i: nat): Operand
    requires r.Pairwise? ==> i < |r.other.items|
  {
    match r
    case Pairwise(k, aliased) => if i in aliased then Itself else Other(k.items[i])
    case Broadcast(s) => ScalarOperand(s, i)
  }

  /** The aliasing a list expression can produce: an aliased index is in
      range and its element is the very operand it meets. */
  predicate WellAliased(l: MeasurementList, r: Rhs) {
    match r
    case Pairwise(k, aliased) =>
      forall i :: i in aliased ==> i < |l.items| && i < |k.items| && l.items[i] == k.items[i]
    case Broadcast(WithMeasurement(m, aliased)) =>
      forall i :: i in aliased ==> i < |l.items| && l.items[i] == m
    case Broadcast(_) => true
  }

  /** Under well-formed aliasing, an element meets `Itself` only where the
      operand it would otherwise meet is that element. */
  lemma ItselfOnlyOnSame(l: MeasurementList, r: Rhs, i: nat)
    requires WellAliased(l, r)
    requires r.Pairwise? ==> i < |r.other.items|
    requires OperandAt(r, i).Itself?
    ensures i < |l.items|
    ensures r.Pairwise? ==> r.other.items[i] == l.items[i]
    ensures r.Broadcast? ==> r.s.WithMeasurement? && r.s.m == l.items[i]
  {
  }

  datatype BinOp = Plus | Times | Over

  /** The measurement operator behind a list operator. */
  function ElementOp(lib: MathLib, op: BinOp, m: Measurement, o: Operand): Result<Measurement, Error> {
    match op
    case Plus => Measurements.Add(lib, m, o)
    case Times => Measurements.Mul(lib, m, o)
    case Over => Measurements.Div(lib, m, o)
  }

  /** The results of `l[i] op r_i` for every index. */
  function Results(lib: MathLib, op: BinOp, l: MeasurementList, r: Rhs): (rs: seq<Result<Measurement, Error>>)
    requires r.Pairwise? ==> Len(r.other) == Len(l)
    ensures |rs| == Len(l)
    ensures forall i :: 0 <= i < Len(l) ==> rs[i] == ElementOp(lib, op, l.items[i], OperandAt(r, i))
  {
    seq(|l.items|, i requires 0 <= i < |l.items| => ElementOp(lib, op, l.items[i], OperandAt(r, i)))
  }

  /** `l + r`, `l * r` and `l / r`: lists of different lengths are refused
      before any element is touched. */
  function Binary(lib: MathLib, op: BinOp, l: MeasurementList, r: Rhs): (res: Result<MeasurementList, Error>)
    ensures r.Pairwise? && Len(r.other) != Len(l) ==> res == Err(LengthMismatch)
  {
    if r.Pairwise? && Len(r.other) != Len(l) then Err(LengthMismatch)
    else Build(Results(lib, op, l, r))
  }

  /** `l + r`, and `r + l` for a scalar `r`, which Python reflects unchanged. */
  function Add(lib: MathLib, l: MeasurementList, r: Rhs): (res: Result<MeasurementList, Error>)
    ensures r.Pairwise? && Len(r.other) != Len(l) ==> res == Err(LengthMismatch)
    ensures r == Broadcast(WithPlainList) ==> res == Err(ListOperand)
    ensures res.Ok? ==> (r.Pairwise? ==> Len(r.other) == Len(l)) && Len(res.value) == Len(l)
    ensures res.Ok? ==> forall i :: 0 <= i < Len(l) ==>
              Measurements.Add(lib, l.items[i], OperandAt(r, i)).Ok?
              && res.value.items[i] == Measurements.Add(lib, l.items[i], OperandAt(r, i)).value
  {
    Binary(lib, Plus, l, r)
  }

  /** `l * r`, and `r * l` for a scalar `r`. */
  function Mul(lib: MathLib, l: MeasurementList, r: Rhs): (res: Result<MeasurementList, Error>)
    ensures r.Pairwise? && Len(r.other) != Len(l) ==> res == Err(LengthMismatch)
    ensures r == Broadcast(WithPlainList) ==> res == Err(ListOperand)
    ensures res.Ok? ==> (r.Pairwise? ==> Len(r.other) == Len(l)) && Len(res.value) == Len(l)
    ensures res.Ok? ==> forall i :: 0 <= i < Len(l) ==>
              Measurements.Mul(lib, l.items[i], OperandAt(r, i)).Ok?
              && res.value.items[i] == Measurements.Mul(lib, l.items[i], OperandAt(r, i)).value
  {
    Binary(lib, Times, l, r)
  }

  /** `l / r`. */
  function Div(lib: MathLib, l: MeasurementList, r: Rhs): (res: Result<MeasurementList, Error>)
    ensures r.Pairwise? && Len(r.other) != Len(l) ==> res == Err(LengthMismatch)
    ensures r == Broadcast(WithPlainList) ==> res == Err(ListOperand)
    ensures res.Ok? ==> (r.Pairwise? ==> Len(r.other) == Len(l)) && Len(res.value) == Len(l)
    ensures res.Ok? ==> forall i :: 0 <= i < Len(l) ==>
              Measurements.Div(lib, l.items[i], OperandAt(r, i)).Ok?
              && res.value.items[i] == Measurements.Div(lib, l.items[i], OperandAt(r, i)).value
  {
    Binary(lib, Over, l, r)
  }

  /** `-l`: every element negated; the units do not change, so the new list
      always passes the unit check. */
  function Neg(l: MeasurementList): (r: MeasurementList)
    ensures Len(r) == Len(l) && r.unit == l.unit
    ensures forall i :: 0 <= i < Len(l) ==> r.items[i] == Measurements.Neg(l.items[i])
  {
    ListData(seq(|l.items|, i requires 0 <= i < |l.items| => Measurements.Neg(l.items[i])), l.unit)
  }

  /** `l - r`, computed as `l + (-r)`. The negation is a new object, so no
      element of the result is an aliased operation. A plain list cannot be
      negated. */
  function Sub(lib: MathLib, l: MeasurementList, r: Rhs): (res: Result<MeasurementList, Error>)
    ensures r.Pairwise? && Len(r.other) != Len(l) ==> res == Err(LengthMismatch)
    ensures r == Broadcast(WithPlainList) ==> res == Err(UnsupportedOperand)
    ensures res.Ok? ==> Len(res.value) == Len(l)
  {
    match r
    case Pairwise(k, _) => Add(lib, l, Pairwise(Neg(k), {}))
    case Broadcast(WithNumber(x)) => Add(lib, l, Broadcast(WithNumber(-x)))
    case Broadcast(WithMeasurement(m, _)) => Add(lib, l, Broadcast(WithMeasurement(Measurements.Neg(m), {})))
    case Broadcast(WithPlainList) => Err(UnsupportedOperand)
  }

  /** A scalar with its aliasing forgotten, as seen by a freshly built list. */
  function Unaliased(s: Scalar): Scalar {
    match s
    case WithMeasurement(m, _) => WithMeasurement(m, {})
    case _ => s
  }

  /** `s - l` for a scalar `s`: `(-l) + s`. */
  function RSub(lib: MathLib, l: MeasurementList, s: Scalar): (res: Result<MeasurementList, Error>)
    ensures s.WithPlainList? ==> res == Err(ListOperand)
    ensures res.Ok? ==> Len(res.value) == Len(l)
  {
    Add(lib, Neg(l), Broadcast(Unaliased(s)))
  }

  /** `s / m` for one element `m`. */
  function ReflectedQuotient(lib: MathLib, s: Scalar, m: Measurement, i: nat): Result<Measurement, Error> {
    match s
    case WithNumber(c) => RDiv(m, c)
    case WithMeasurement(n, aliased) => Measurements.Div(lib, n, if i in aliased then Itself else Other(m))
    case WithPlainList => Err(UnsupportedOperand)
  }

  function Quotients(lib: MathLib, l: MeasurementList, s: Scalar): (rs: seq<Result<Measurement, Error>>)
    ensures |rs| == Len(l)
    ensures forall i :: 0 <= i < Len(l) ==> rs[i] == ReflectedQuotient(lib, s, l.items[i], i)
  {
    seq(|l.items|, i requires 0 <= i < |l.items| => ReflectedQuotient(lib, s, l.items[i], i))
  }

  /** `s / l` for a scalar `s`, element by element. */
  function RDivList(lib: MathLib, l: MeasurementList, s: Scalar): (res: Result<MeasurementList, Error>)
    ensures s.WithPlainList? ==> res == Err(UnsupportedOperand)
    ensures res.Ok? ==> Holds(res.value, Quotients(lib, l, s))
  {
    Build(Quotients(lib, l, s))
  }

  function Powers(lib: MathLib, l: MeasurementList, s: Scalar): (rs: seq<Result<Measurement, Error>>)
    ensures |rs| == Len(l)
    ensures forall i :: 0 <= i < Len(l) ==> rs[i] == Measurements.Pow(lib, l.items[i], ScalarOperand(s, i))
  {
    seq(|l.items|, i requires 0 <= i < |l.items| => Measurements.Pow(lib, l.items[i], ScalarOperand(s, i)))
  }

  /** `l ** s`, element by element. */
  function PowList(lib: MathLib, l: MeasurementList, s: Scalar): (res: Result<MeasurementList, Error>)
    ensures s.WithPlainList? ==> res == Err(UnsupportedOperand)
    ensures res.Ok? ==> Len(res.value) == Len(l)
  {
    Build(Powers(lib, l, s))
  }

  /** `s ** m` for one element `m`. */
  function ReflectedPower(lib: MathLib, s: Scalar, m: Measurement, i: nat): Result<Measurement, Error> {
    match s
    case WithNumber(c) => Measurements.RPow(lib, m, c)
    case WithMeasurement(n, aliased) => Measurements.Pow(lib, n, if i in aliased then Itself else Other(m))
    case WithPlainList => Err(UnsupportedOperand)
  }

  function ReflectedPowers(lib: MathLib, l: MeasurementList, s: Scalar): (rs: seq<Result<Measurement, Error>>)
    ensures |rs| == Len(l)
    ensures forall i :: 0 <= i < Len(l) ==> rs[i] == ReflectedPower(lib, s, l.items[i], i)
  {
    seq(|l.items|, i requires 0 <= i < |l.items| => ReflectedPower(lib, s, l.items[i], i))
  }

  /** `s ** l` for a scalar `s`, element by element. */
  function RPowList(lib: MathLib, l: MeasurementList, s: Scalar): (res: Result<MeasurementList, Error>)
    ensures s.WithPlainList? ==> res == Err(UnsupportedOperand)
    ensures res.Ok? ==> Holds(res.value, ReflectedPowers(lib, l, s))
  {
    Build(ReflectedPowers(lib, l, s))
  }

  /** The static `sin`, `cos`, ... of the list class: the function applied to
      every measurement of `xs`. */
  function MapFunction(lib: MathLib, f: MathFunction, xs: seq<Measurement>): (res: Result<MeasurementList, Error>)
    ensures xs == [] ==> res == Err(IndexOutOfRange)
    ensures res.Ok? ==> |res.value.items| == |xs| && forall i :: 0 <= i < |xs| ==> Apply(lib, f, xs[i]) == Ok(res.value.items[i])
  {
    Build(Applied(lib, f, xs))
  }

  function Applied(lib: MathLib, f: MathFunction, xs: seq<Measurement>): (rs: seq<Result<Measurement, Error>>)
    ensures |rs| == |xs|
    ensures forall i :: 0 <= i < |xs| ==> rs[i] == Apply(lib, f, xs[i])
  {
    seq(|xs|, i requires 0 <= i < |xs| => Apply(lib, f, xs[i]))
  }
}

=== FILE: measurements.dfy ===
/** A single measured quantity: a value, an absolute uncertainty and a unit.
    The operators propagate uncertainties for independent variables: sums
    add absolute uncertainties in quadrature, products and quotients add
    relative ones. An operand that is the very same object as the left-hand
    side is treated as fully correlated. Floating point is replaced by exact
    reals; the functions of Python's `math` module and float `**` are a
    parameter, and only where Python raises on an exact value (a zero
    divisor, a logarithm of a non-positive number) does the model fail. */
module Measurements {
  import opened Wrappers
  import opened Powers
  import opened Symbols
  import opened Errors
  import opened Units
  import opened UnitParse
  import opened UnitAlgebra
  import opened UnitLaws
  import opened Reconcile

  datatype Measurement = Measurement(value: real, uncertainty: real, unit: Unit)

  /** The floating-point functions the arithmetic calls: `math.hypot`,
      `math.sqrt`, `math.log`, the trigonometric functions and float `**`. */
  datatype MathLib = MathLib(
    hypot: (real, real) -> real,
    sqrt: real -> real,
    log: real -> real,
    sin: real -> real,
    cos: real -> real,
    tan: real -> real,
    asin: real -> real,
    acos: real -> real,
    atan: real -> real,
    pow: (real, real) -> real)

  /** The right-hand operand of a binary operator. */
  datatype Operand =
    | Number(x: real)          // an `int` or `float`
    | Other(m: Measurement)    // a distinct `Measurement` object
    | Itself                   // the left-hand operand itself, as in `x + x`
    | PlainList                // a Python `list`

  function Abs(x: real): (r: real)
    ensures r >= 0.0 && (r == x || r == -x)
  {
    if x < 0.0 then -x else x
  }

  /** The relative uncertainty the constructor stores: zero for a zero value. */
  function Relative(m: Measurement): (r: real)
    ensures m.value != 0.0 ==> r * m.value == m.uncertainty
    ensures m.value == 0.0 ==> r == 0.0
  {
    if m.value != 0.0 then m.uncertainty / m.value else 0.0
  }

  /** The physical amount a measurement stands for, in base units. */
  function Quantity(m: Measurement): (r: real)
    ensures r == 0.0 <==> m.value == 0.0
  {
    FactorPositive(m.unit);
    m.value * Factor(m.unit)
  }

  /** `Measurement(value, uncertainty, text)` with the unit given as a string. */
  function Make(value: real, uncertainty: real, text: string): (r: Result<Measurement, Error>)
    ensures r.Ok? <==> Parse(text).Ok?
    ensures r.Err? ==> r == Err(Parse(text).error)
    ensures r.Ok? ==> r.value.value == value && r.value.uncertainty == uncertainty
  {
    match Parse(text)
    case Ok(u) => Ok(Measurement(value, uncertainty, u))
    case Err(e) => Err(e)
  }

  // ---------------------------------------------------------------------------
  // Conversion

  /** The measurement rewritten in unit `t`, scaling value and uncertainty by
      the ratio of the two factors. */
  function Convert(m: Measurement, t: Unit): (r: Measurement)
    ensures r.unit == t
  {
    FactorPositive(t);
    Measurement(m.value * Factor(m.unit) / Factor(t), m.uncertainty * Factor(m.unit) / Factor(t), t)
  }

  /** `m.to(t)`: conversion between units of the same dimensions. */
  function To(m: Measurement, t: Unit): (r: Result<Measurement, Error>)
    ensures r.Ok? <==> SameDims(m.unit, t)
    ensures r.Err? ==> r.error == DimensionMismatch
    ensures r.Ok? ==> r.value.unit == t
  {
    if SameDims(m.unit, t) then Ok(Convert(m, t)) else Err(DimensionMismatch)
  }

  /** `m.to(text)` with the target unit given as a string. */
  function ToText(m: Measurement, text: string): (r: Result<Measurement, Error>)
    ensures Parse(text).Err? ==> r == Err(Parse(text).error)
    ensures Parse(text).Ok? ==> r == To(m, Parse(text).value)
  {
    match Parse(text)
    case Ok(t) => To(m, t)
    case Err(e) => Err(e)
  }

  // ---------------------------------------------------------------------------
  // Sums and differences

  /** Ranks an operand for the one recursive call of `Add`. */
  function AddRank(m: Measurement, o: Operand): nat {
    if o.Other? && !Equal(m.unit, o.m.unit) then 1 else 0
  }

  /** `m + o`, and `o + m` since addition is reflected unchanged. */
  function Add(lib: MathLib, m: Measurement, o: Operand): (r: Result<Measurement, Error>)
    ensures o.Other? ==> (r.Ok? <==> SameDims(m.unit, o.m.unit))
    ensures o.Other? && r.Err? ==> r.error == DimensionMismatch
    ensures o.Number? ==> r == Ok(Measurement(m.value + o.x, m.uncertainty, m.unit))
    ensures o.PlainList? ==> r == Err(ListOperand)
    ensures r.Ok? ==> r.value.unit == m.unit
    decreases AddRank(m, o)
  {
    match o
    case Itself => Ok(Measurement(m.value * 2.0, m.uncertainty * 2.0, m.unit))
    case Other(n) =>
      if Equal(m.unit, n.unit) then
        Ok(Measurement(m.value + n.value, lib.hypot(m.uncertainty, n.uncertainty), m.unit))
      else if SameDims(m.unit, n.unit) then
        var c := Convert(n, m.unit);
        assert Equal(m.unit, c.unit);
        Add(lib, m, Other(c))
      else
        Err(DimensionMismatch)
    case Number(x) => Ok(Measurement(m.value + x, m.uncertainty, m.unit))
    case PlainList => Err(ListOperand)
  }

  /** `-m`. */
  function Neg(m: Measurement): (r: Measurement)
    ensures r.unit == m.unit && r.uncertainty == m.uncertainty && r.value + m.value == 0.0
  {
    Measurement(-m.value, m.uncertainty, m.unit)
  }

  /** `m - o`, computed as `m + (-o)`; `-o` is a new object, so `x - x` is a
      sum of two independent measurements. */
  function Sub(lib: MathLib, m: Measurement, o: Operand): (r: Result<Measurement, Error>)
    ensures o.Other? ==> (r.Ok? <==> SameDims(m.unit, o.m.unit))
    ensures o.Number? ==> r == Ok(Measurement(m.value - o.x, m.uncertainty, m.unit))
    ensures o.PlainList? ==> r == Err(UnsupportedOperand)
    ensures r.Ok? ==> r.value.unit == m.unit
  {
    match o
    case Number(x) => Add(lib, m, Number(-x))
    case Other(n) => Add(lib, m, Other(Neg(n)))
    case Itself => Add(lib, m, Other(Neg(m)))
    case PlainList => Err(UnsupportedOperand)
  }

  /** `o - m` for an operand on the left that does not handle the subtraction:
      `(-m) + o`. */
  function RSub(lib: MathLib, m: Measurement, o: Operand): (r: Result<Measurement, Error>)
    ensures o.Number? ==> r == Ok(Measurement(o.x - m.value, m.uncertainty, m.unit))
    ensures o.PlainList? ==> r == Err(ListOperand)
  {
    match o
    case Itself => Add(lib, Neg(m), Other(m))
    case _ => Add(lib, Neg(m), o)
  }

  // ---------------------------------------------------------------------------
  // Products and quotients

  /** The second operand of a product or quotient after prefix reconciliation
      against the unit `a`. */
  function Reconciled(a: Unit, n: Measurement): (r: Measurement)
    ensures r.unit == Align(a, n.unit)
    ensures Compatible(a, r.unit)
    ensures r.value == 0.0 <==> n.value == 0.0
  {
    var k := Rescale(a, n.unit);
    AlignCompatible(a, n.unit);
    Measurement(n.value * k, n.uncertainty * k, Align(a, n.unit))
  }

  /** `m * o`, and `o * m` since multiplication is reflected unchanged. */
  function Mul(lib: MathLib, m: Measurement, o: Operand): (r: Result<Measurement, Error>)
    ensures r.Ok? <==> !o.PlainList?
    ensures r.Err? ==> r.error == ListOperand
    ensures o.Number? ==> r.value.unit == m.unit
    ensures o.Itself? ==> r.value.unit == Units.Pow(m.unit, 2)
    ensures o.Other? ==> r.value.uncertainty == Abs(r.value.value) * lib.hypot(Relative(m), Relative(Reconciled(m.unit, o.m)))
  {
    match o
    case Itself =>
      Ok(Measurement(m.value * m.value, (m.value * m.value) * 2.0 * Relative(m), Units.Pow(m.unit, 2)))
    case Other(n) => Ok(Product(lib, m, n))
    case Number(x) => Ok(Measurement(m.value * x, m.uncertainty * Abs(x), m.unit))
    case PlainList => Err(ListOperand)
  }

  /** The product of two measurements, once the second is reconciled. */
  function Product(lib: MathLib, m: Measurement, n: Measurement): (r: Measurement)
    ensures r.uncertainty == Abs(r.value) * lib.hypot(Relative(m), Relative(Reconciled(m.unit, n)))
  {
    var n' := Reconciled(m.unit, n);
    var v := m.value * n'.value;
    Measurement(v, Abs(v) * lib.hypot(Relative(m), Relative(n')), Units.Mul(m.unit, n'.unit).value)
  }

  /** `m / o`. */
  function Div(lib: MathLib, m: Measurement, o: Operand): (r: Result<Measurement, Error>)
    ensures o.Other? ==> (r.Ok? <==> o.m.value != 0.0)
    ensures o.Number? ==> (r.Ok? <==> o.x != 0.0)
    ensures o.Itself? ==> r == Ok(Measurement(1.0, 0.0, Dimensionless))
    ensures o.PlainList? ==> r == Err(ListOperand)
    ensures o.Other? && r.Err? ==> r.error == ZeroDivision
    ensures o.Number? && r.Ok? ==> r.value.unit == m.unit
  {
    match o
    case Itself => Ok(Measurement(1.0, 0.0, Dimensionless))
    case Other(n) =>
      var n' := Reconciled(m.unit, n);
      if n'.value == 0.0 then Err(ZeroDivision)
      else
        var v := m.value / n'.value;
        Ok(Measurement(v, Abs(v) * lib.hypot(Relative(m), Relative(n')), Units.Div(m.unit, n'.unit).value))
    case Number(x) =>
      if x == 0.0 then Err(ZeroDivision) else Ok(Measurement(m.value / x, m.uncertainty / Abs(x), m.unit))
    case PlainList => Err(ListOperand)
  }

  /** `c / m` for a number `c`. */
  function RDiv(m: Measurement, c: real): (r: Result<Measurement, Error>)
    ensures r.Ok? <==> m.value != 0.0
    ensures r.Err? ==> r.error == ZeroDivision
    ensures r.Ok? ==> r.value.value * m.value == c && r.value.unit == Inv(m.unit)
    ensures r.Ok? ==> r.value.uncertainty == Abs(r.value.value) * Relative(m)
  {
    if m.value == 0.0 then Err(ZeroDivision)
    else
      var v := c / m.value;
      Ok(Measurement(v, Abs(v) * Relative(m), Units.NumberOver(c, m.unit)))
  }

  // ---------------------------------------------------------------------------
  // Powers

  /** Float `b ** e`: zero to a negative power raises. */
  function PowValue(lib: MathLib, b: real, e: real): (r: Result<real, Error>)
    ensures r.Err? <==> b == 0.0 && e < 0.0
    ensures r.Err? ==> r.error == ZeroDivision
    ensures r.Ok? ==> r.value == lib.pow(b, e)
  {
    if b == 0.0 && e < 0.0 then Err(ZeroDivision) else Ok(lib.pow(b, e))
  }

  /** `math.log`, which rejects non-positive arguments. */
  function LogValue(lib: MathLib, x: real): (r: Result<real, Error>)
    ensures r.Err? <==> x <= 0.0
    ensures r.Err? ==> r.error == MathDomain
    ensures r.Ok? ==> r.value == lib.log(x)
  {
    if x <= 0.0 then Err(MathDomain) else Ok(lib.log(x))
  }

  /** `m ** e` for a dimensionless measurement `e`: the uncertainty of
      `a ** b` is `|a ** b| * sqrt((b * δa/a)^2 + (ln a * δb)^2)`. */
  function PowMeasurement(lib: MathLib, m: Measurement, e: Measurement): (r: Result<Measurement, Error>)
    ensures !Unitless(e.unit) ==> r == Err(DimensionMismatch)
    ensures r.Ok? ==> Unitless(e.unit) && m.value > 0.0
    ensures r.Ok? ==> r.value.value == lib.pow(m.value, e.value) && PowReal(m.unit, e.value) == Ok(r.value.unit)
    ensures r.Ok? ==> r.value.uncertainty == PowSpread(lib, m, e, r.value.value, lib.log(m.value))
  {
    if !Unitless(e.unit) then Err(DimensionMismatch)
    else
      var p :- PowValue(lib, m.value, e.value);
      var l :- LogValue(lib, m.value);
      var u :- PowReal(m.unit, e.value);
      Ok(Measurement(p, PowSpread(lib, m, e, p, l), u))
  }

  /** The uncertainty of `p = a ** b` given the logarithm `l` the formula
      uses: `|p| * sqrt((b * δa/a)^2 + (l * δb)^2)`. */
  function PowSpread(lib: MathLib, m: Measurement, e: Measurement, p: real, l: real): real {
    Abs(p) * lib.sqrt(Sq(e.value * Relative(m)) + Sq(l * e.uncertainty))
  }

  function Sq(x: real): (r: real)
    ensures r >= 0.0
  {
    x * x
  }

  /** `u / c`, with the product that undoes it. */
  function Over(u: real, c: real): (q: real)
    requires c != 0.0
    ensures q * c == u
  {
    u / c
  }

  /** `m ** o`. */
  function Pow(lib: MathLib, m: Measurement, o: Operand): (r: Result<Measurement, Error>)
    ensures o.Other? ==> r == PowMeasurement(lib, m, o.m)
    ensures o.Itself? ==> r == PowMeasurement(lib, m, m)
    ensures o.PlainList? ==> r == Err(UnsupportedOperand)
    ensures o.Number? && r.Ok? ==> r.value.value == lib.pow(m.value, o.x) && PowReal(m.unit, o.x) == Ok(r.value.unit)
    ensures o.Number? && r.Ok? ==> r.value.uncertainty == Abs(lib.pow(m.value, o.x) * o.x) * Relative(m)
    ensures o.Number? && r.Err? ==> r.error == ZeroDivision || r.error == FractionalUnitPower
  {
    match o
    case Other(e) => PowMeasurement(lib, m, e)
    case Itself => PowMeasurement(lib, m, m)
    case Number(c) =>
      var p :- PowValue(lib, m.value, c);
      var u :- PowReal(m.unit, c);
      Ok(Measurement(p, Abs(p * c) * Relative(m), u))
    case PlainList => Err(UnsupportedOperand)
  }

  /** `c ** m` for a number `c` and a dimensionless measurement `m`. */
  function RPow(lib: MathLib, m: Measurement, c: real): (r: Result<Measurement, Error>)
    ensures !Unitless(m.unit) ==> r == Err(DimensionMismatch)
    ensures Unitless(m.unit) ==> (r.Ok? <==> c > 0.0)
    ensures r.Ok? ==> r.value == Measurement(lib.pow(c, m.value), Abs(lib.pow(c, m.value) * lib.log(c)) * m.uncertainty, Dimensionless)
  {
    if !Unitless(m.unit) then Err(DimensionMismatch)
    else
      var p :- PowValue(lib, c, m.value);
      var l :- LogValue(lib, c);
      Ok(Measurement(p, Abs(p * l) * m.uncertainty, Dimensionless))
  }

  // ---------------------------------------------------------------------------
  // Functions of a dimensionless measurement

  datatype MathFunction = Sin | Cos | Tan | Log | Asin | Acos | Atan

  /** The static functions `Measurement.sin` ... `Measurement.atan` and
      `Measurement.log`: each accepts only dimensionless input, gives a
      dimensionless result, and scales the uncertainty by the absolute
      derivative. */
  function Apply(lib: MathLib, f: MathFunction, m: Measurement): (r: Result<Measurement, Error>)
    ensures !Unitless(m.unit) ==> r == Err(DimensionMismatch)
    ensures r.Ok? ==> r.value.unit == Dimensionless
    ensures f.Sin? || f.Cos? || f.Atan? ==> (r.Ok? <==> Unitless(m.unit))
    ensures f.Log? && Unitless(m.unit) ==> (r.Ok? <==> m.value > 0.0)
    ensures (f.Asin? || f.Acos?) && Unitless(m.unit) && (m.value < -1.0 || m.value > 1.0) ==> r == Err(MathDomain)
    ensures f.Tan? && Unitless(m.unit) ==> (r.Ok? <==> Sq(lib.cos(m.value)) != 0.0)
    ensures (f.Asin? || f.Acos?) && Unitless(m.unit) && -1.0 <= m.value <= 1.0 ==> (r.Ok? <==> lib.sqrt(1.0 - Sq(m.value)) != 0.0)
    ensures (f.Tan? || f.Asin? || f.Acos?) && Unitless(m.unit) && r.Err? && r.error != MathDomain ==> r.error == ZeroDivision
    ensures f.Sin? && r.Ok? ==> r.value.value == lib.sin(m.value) && r.value.uncertainty == Abs(lib.cos(m.value)) * m.uncertainty
    ensures f.Cos? && r.Ok? ==> r.value.value == lib.cos(m.value) && r.value.uncertainty == Abs(lib.sin(m.value)) * m.uncertainty
    ensures f.Tan? && r.Ok? ==> r.value.value == lib.tan(m.value) && r.value.uncertainty * Sq(lib.cos(m.value)) == m.uncertainty
    ensures f.Log? && r.Ok? ==> r.value.value == lib.log(m.value) && r.value.uncertainty == Abs(Relative(m))
    ensures f.Asin? && r.Ok? ==> r.value.value == lib.asin(m.value) && r.value.uncertainty * lib.sqrt(1.0 - Sq(m.value)) == m.uncertainty
    ensures f.Acos? && r.Ok? ==> r.value.value == lib.acos(m.value) && r.value.uncertainty * lib.sqrt(1.0 - Sq(m.value)) == m.uncertainty
    ensures f.Atan? && r.Ok? ==> r.value.value == lib.atan(m.value) && r.value.uncertainty * (1.0 + Sq(m.value)) == m.uncertainty
  {
    if !Unitless(m.unit) then Err(DimensionMismatch)
    else
      var v, u := m.value, m.uncertainty;
      match f
      case Sin => Ok(Measurement(lib.sin(v), Abs(lib.cos(v)) * u, Dimensionless))
      case Cos => Ok(Measurement(lib.cos(v), Abs(lib.sin(v)) * u, Dimensionless))
      case Tan =>
        var c := Sq(lib.cos(v));
        if c == 0.0 then Err(ZeroDivision) else Ok(Measurement(lib.tan(v), Over(u, c), Dimensionless))
      case Log =>
        if v <= 0.0 then Err(MathDomain) else Ok(Measurement(lib.log(v), Abs(Relative(m)), Dimensionless))
      case Asin =>
        if v < -1.0 || v > 1.0 then Err(MathDomain)
        else
          var d := lib.sqrt(1.0 - Sq(v));
          if d == 0.0 then Err(ZeroDivision) else Ok(Measurement(lib.asin(v), Over(u, d), Dimensionless))
      case Acos =>
        if v < -1.0 || v > 1.0 then Err(MathDomain)
        else
          var d := lib.sqrt(1.0 - Sq(v));
          if d == 0.0 then Err(ZeroDivision) else Ok(Measurement(lib.acos(v), Over(u, d), Dimensionless))
      case Atan => Ok(Measurement(lib.atan(v), Over(u, 1.0 + Sq(v)), Dimensionless))
  }
}

=== FILE: numerals.dfy ===
/** Decimal numerals as Python's `str(int)` writes them and `int(...)` reads
    them back, restricted to the ASCII digits `0`-`9`. */
module Numerals {

  predicate IsDigit(c: char) {
    '0' <= c <= '9'
  }

  predicate AllDigits(t: string) {
    forall i | 0 <= i < |t| :: IsDigit(t[i])
  }

  function DigitValue(c: char): (d: nat)
    requires IsDigit(c)
    ensures d < 10
  {
    c as int - '0' as int
  }

  function DigitChar(d: nat): (c: char)
    requires d < 10
    ensures IsDigit(c) && DigitValue(c) == d
  {
    ('0' as int + d) as char
  }

  /** `str(n)` for a natural number: no sign, no leading zeros. */
  function NatToString(n: nat): (r: string)
    ensures |r| >= 1 && AllDigits(r)
    decreases n
  {
    if n < 10 then [DigitChar(n)] else NatToString(n / 10) + [DigitChar(n % 10)]
  }

  /** `str(n)` for any integer. */
  function IntToString(n: int): (r: string)
    ensures n < 0 ==> r == "-" + NatToString(-n)
    ensures n >= 0 ==> r == NatToString(n)
  {
    if n < 0 then "-" + NatToString(-n) else NatToString(n)
  }

  /** `int(t)` for a string of digits, leading zeros allowed. */
  function DigitsValue(t: string): nat
    requires AllDigits(t)
  {
    if t == [] then 0 else DigitsValue(t[..|t| - 1]) * 10 + DigitValue(t[|t| - 1])
  }

  /** The length of the longest run of digits at the start of `t`: what `\d+`
      consumes. */
  function DigitRun(t: string): (k: nat)
    ensures k <= |t| && AllDigits(t[..k])
    ensures k < |t| ==> !IsDigit(t[k])
  {
    if t != [] && IsDigit(t[0]) then
      var k := 1 + DigitRun(t[1..]);
      assert t[..k] == [t[0]] + t[1..][..k - 1];
      k
    else
      0
  }

  /** Reading back a printed natural number gives the number. */
  lemma {:induction false} DigitsRoundTrip(n: nat)
    ensures DigitsValue(NatToString(n)) == n
    decreases n
  {
    if n >= 10 {
      var t := NatToString(n);
      DigitsRoundTrip(n / 10);
      assert t[..|t| - 1] == NatToString(n / 10);
    }
  }

  /** `\d+` stops exactly at the end of a digit string followed by a non-digit. */
  lemma {:induction false} DigitRunOf(ds: string, rest: string)
    requires AllDigits(ds)
    requires rest == [] || !IsDigit(rest[0])
    ensures DigitRun(ds + rest) == |ds|
  {
    if ds != [] {
      assert (ds + rest)[1..] == ds[1..] + rest;
      DigitRunOf(ds[1..], rest);
    } else {
      assert ds + rest == rest;
    }
  }
}

=== FILE: parse_steps.dfy ===
/** How the scanner consumes one token at a time: a prefixed symbol with an
    optional power, a skipped space or `1`, and a `/`. Each step lemma states
    what one pass of the scanning loop does to a string that starts with
    that token. */
module ParseSteps {
  import opened Wrappers
  import opened Symbols
  import opened Errors
  import opened Units
  import opened Numerals
  import opened UnitParse

  /** A prefixed symbol with an optional written power, e.g. `kg` or `s^-2`. */
  datatype Token = Token(prefix: Prefix, sym: Symbol, power: Option<int>)

  function TokenText(tok: Token): string {
    PrefixText(tok.prefix) + SymbolText(tok.sym) + PowerText(tok.power)
  }

  /** The power a token assigns, before a `/` negates it. */
  function Written(tok: Token): int {
    match tok.power case None => 1 case Some(n) => n
  }

  /** The slot a token assigns, with or without a preceding `/`. */
  function TokenEntry(tok: Token, flip: bool): Entry {
    Entry(tok.prefix, if flip then -Written(tok) else Written(tok))
  }

  /** What may follow a token without changing how it is read: no power
      pattern after a bare symbol, no digit after a power, and no word
      character after a bare one-letter symbol that is also a prefix letter
      (`m`, `T`). */
  predicate Fits(tok: Token, rest: string) {
    && (tok.power.None? ==> PowerAt(rest).None?)
    && (tok.power.Some? ==> rest == [] || !IsDigit(rest[0]))
    && (tok.prefix == NoPrefix && tok.power.None? && PrefixOfChar(SymbolText(tok.sym)[0]).Some? ==>
          rest == [] || !IsWordChar(rest[0]))
  }

  lemma SymbolTextShape(s: Symbol)
    ensures 1 <= |SymbolText(s)| <= 2
    ensures 'A' <= SymbolText(s)[0] <= 'Z' || 'a' <= SymbolText(s)[0] <= 'z'
    ensures |SymbolText(s)| == 2 ==> PrefixOfChar(SymbolText(s)[0]).None? && IsWordChar(SymbolText(s)[1])
    ensures |SymbolText(s)| == 2 ==> SymbolOfChar(SymbolText(s)[0]).None?
  {
  }

  lemma PrefixTextShape(p: Prefix)
    ensures p == NoPrefix <==> PrefixText(p) == ""
    ensures p != NoPrefix ==> |PrefixText(p)| == 1 && PrefixOfChar(PrefixText(p)[0]) == Some(p)
  {
  }

  /** The symbol pattern reads a symbol's own text. */
  lemma SymbolAtText(s: Symbol, tail: string)
    ensures SymbolAt(SymbolText(s) + tail) == Some(s)
  {
    var t := SymbolText(s) + tail;
    assert t[0] == SymbolText(s)[0];
    match s
    case Pascal => assert "Pa" <= t;
    case Hertz => assert "Hz" <= t;
    case ElectronVolt => assert "eV" <= t;
    case _ =>
  }

  /** The text of a written power, empty when there is none. */
  function PowerText(power: Option<int>): string {
    match power case None => "" case Some(n) => "^" + IntToString(n)
  }

  lemma PowerAtNonNegative(n: nat, rest: string)
    requires rest == [] || !IsDigit(rest[0])
    ensures PowerAt("^" + NatToString(n) + rest) == Some(PowerMatch(n, 1 + |NatToString(n)|))
  {
    var ds := NatToString(n);
    var t := "^" + ds + rest;
    hide NatToString, DigitRun, DigitsValue;
    assert t[1..] == ds + rest;
    assert t[1] == ds[0];
    DigitRunOf(ds, rest);
    assert t[1..][..|ds|] == ds;
    DigitsRoundTrip(n);
  }

  lemma PowerAtNegative(n: nat, rest: string)
    requires rest == [] || !IsDigit(rest[0])
    ensures PowerAt("^-" + NatToString(n) + rest) == Some(PowerMatch(-(n as int), 2 + |NatToString(n)|))
  {
    var ds := NatToString(n);
    var t := "^-" + ds + rest;
    hide NatToString, DigitRun, DigitsValue;
    assert t[2..] == ds + rest;
    assert t[1] == '-';
    DigitRunOf(ds, rest);
    assert t[2..][..|ds|] == ds;
    DigitsRoundTrip(n);
  }

  /** The power pattern reads a written power and nothing more. */
  lemma PowerAtText(power: Option<int>, rest: string)
    requires power.None? ==> PowerAt(rest).None?
    requires power.Some? ==> rest == [] || !IsDigit(rest[0])
    ensures PowerAt(PowerText(power) + rest)
         == match power case None => None case Some(n) => Some(PowerMatch(n, |PowerText(power)|))
  {
    hide PowerAt, NatToString, DigitRun, DigitsValue;
    match power
    case None =>
      assert PowerText(power) + rest == rest;
    case Some(n) =>
      if n < 0 {
        assert PowerText(power) + rest == "^-" + NatToString(-n) + rest;
        PowerAtNegative(-n, rest);
      } else {
        assert PowerText(power) + rest == "^" + NatToString(n) + rest;
        PowerAtNonNegative(n, rest);
      }
  }

  /** Without a prefix, the prefix pattern does not fire on a token. */
  lemma PrefixAtBare(tok: Token, rest: string)
    requires Fits(tok, rest) && tok.prefix == NoPrefix
    ensures PrefixAt(TokenText(tok) + rest) == None
  {
    var t := TokenText(tok) + rest;
    var st := SymbolText(tok.sym);
    SymbolTextShape(tok.sym);
    hide PowerAt, IntToString;
    assert PrefixText(NoPrefix) == "";
    assert t == st + (PowerText(tok.power) + rest);
    assert t[0] == st[0];
    if |st| == 1 && PrefixOfChar(st[0]).Some? && |t| >= 2 {
      assert t[1] == (PowerText(tok.power) + rest)[0];
      if tok.power.Some? {
        assert t[1] == '^';
      }
    }
  }

  /** A written prefix is followed by a letter, so the prefix pattern fires. */
  lemma PrefixAtPrefixed(tok: Token, rest: string)
    requires tok.prefix != NoPrefix
    ensures PrefixAt(TokenText(tok) + rest) == Some(tok.prefix)
  {
    var t := TokenText(tok) + rest;
    var st := SymbolText(tok.sym);
    SymbolTextShape(tok.sym);
    PrefixTextShape(tok.prefix);
    assert t[0] == PrefixText(tok.prefix)[0];
    assert t[1] == st[0];
  }

  /** The token pattern reads a written token and nothing more. */
  lemma SymbolPowerAtText(tok: Token, rest: string)
    requires Fits(tok, rest)
    ensures SymbolPowerAt(SymbolText(tok.sym) + PowerText(tok.power) + rest)
         == Some(SymbolMatch(tok.sym, Written(tok), |SymbolText(tok.sym)| + |PowerText(tok.power)|))
  {
    hide SymbolAt, PowerAt;
    var st, w := SymbolText(tok.sym), PowerText(tok.power);
    var u := st + w + rest;
    assert tok.power.None? ==> w == "";
    SymbolAtText(tok.sym, w + rest);
    PowerAtText(tok.power, rest);
    hide SymbolText, PowerText;
    assert u == st + (w + rest);
    assert u[|st|..] == w + rest;
  }

  /** Dropping a token's prefix leaves its symbol, its power and the rest. */
  lemma DropPrefix(tok: Token, rest: string)
    ensures (TokenText(tok) + rest)[|PrefixText(tok.prefix)|..] == SymbolText(tok.sym) + PowerText(tok.power) + rest
    ensures |TokenText(tok)| == |PrefixText(tok.prefix)| + |SymbolText(tok.sym)| + |PowerText(tok.power)|
  {
    var pt := PrefixText(tok.prefix);
    assert TokenText(tok) + rest == pt + (SymbolText(tok.sym) + PowerText(tok.power) + rest);
  }

  /** Whether the prefix pattern fires on a token, as its written prefix says. */
  lemma PrefixAtToken(tok: Token, rest: string)
    requires Fits(tok, rest)
    ensures PrefixAt(TokenText(tok) + rest).Some? <==> |PrefixText(tok.prefix)| == 1
    ensures PrefixAt(TokenText(tok) + rest).Some? ==> PrefixAt(TokenText(tok) + rest).value == tok.prefix
    ensures PrefixAt(TokenText(tok) + rest).None? ==> tok.prefix == NoPrefix && |PrefixText(tok.prefix)| == 0
  {
    PrefixTextShape(tok.prefix);
    if tok.prefix == NoPrefix {
      PrefixAtBare(tok, rest);
    } else {
      PrefixAtPrefixed(tok, rest);
    }
  }

  lemma TokenAtBare(t: string, m: SymbolMatch)
    requires PrefixAt(t) == None && SymbolPowerAt(t) == Some(m)
    ensures TokenAt(t) == Some(TokenMatch(NoPrefix, m.sym, m.power, m.length))
  {
    assert t[0..] == t;
  }

  lemma TokenAtPrefixed(t: string, m: SymbolMatch, p: Prefix)
    requires PrefixAt(t) == Some(p) && SymbolPowerAt(t[1..]) == Some(m)
    ensures TokenAt(t) == Some(TokenMatch(p, m.sym, m.power, 1 + m.length))
  {
  }

  lemma TokenAtText(tok: Token, rest: string)
    requires Fits(tok, rest)
    ensures TokenAt(TokenText(tok) + rest) == Some(TokenMatch(tok.prefix, tok.sym, Written(tok), |TokenText(tok)|))
  {
    hide *;
    var t := TokenText(tok) + rest;
    var m := SymbolMatch(tok.sym, Written(tok), |SymbolText(tok.sym)| + |PowerText(tok.power)|);
    DropPrefix(tok, rest);
    PrefixAtToken(tok, rest);
    SymbolPowerAtText(tok, rest);
    if PrefixAt(t).Some? {
      TokenAtPrefixed(t, m, tok.prefix);
    } else {
      assert t[0..] == t;
      TokenAtBare(t, m);
    }
  }

  lemma TokenStartsWithLetter(tok: Token)
    ensures TokenText(tok) != [] && TokenText(tok)[0] != '/'
  {
    PrefixTextShape(tok.prefix);
    SymbolTextShape(tok.sym);
    if tok.prefix == NoPrefix {
      assert TokenText(tok)[0] == SymbolText(tok.sym)[0];
    }
  }

  lemma BodyToken(tok: Token, rest: string, flipped: bool)
    requires Fits(tok, rest)
    ensures StepBody(TokenText(tok) + rest, flipped) == Assign(rest, flipped, tok.sym, TokenEntry(tok, flipped))
  {
    var t := TokenText(tok) + rest;
    TokenAtText(tok, rest);
    hide TokenText, TokenAt;
    assert t[|TokenText(tok)|..] == rest;
  }

  /** One pass of the loop over a token. */
  lemma TokenStep(tok: Token, rest: string, flip: bool, acc: Unit)
    requires Fits(tok, rest)
    ensures ParseFrom(TokenText(tok) + rest, flip, acc) == ParseFrom(rest, flip, With(acc, tok.sym, TokenEntry(tok, flip)))
  {
    TokenStartsWithLetter(tok);
    BodyToken(tok, rest, flip);
    hide TokenText, StepBody;
  }

  /** A space or a `1` is skipped. */
  lemma SkipStep(c: char, rest: string, flip: bool, acc: Unit)
    requires c == ' ' || c == '1'
    ensures ParseFrom([c] + rest, flip, acc) == ParseFrom(rest, flip, acc)
  {
    hide TokenAt;
    var t := [c] + rest;
    assert t[1..] == rest;
    NoTokenAtSkip(t);
    assert Step(t, flip) == Skip(rest, flip);
  }

  lemma NoTokenAtSkip(t: string)
    requires t != [] && (t[0] == ' ' || t[0] == '1')
    ensures TokenAt(t).None?
  {
    hide PowerAt;
    assert t[0..] == t;
    assert PrefixAt(t).None?;
    assert SymbolAt(t).None?;
  }

  /** One pass that assigns a slot continues from the rest. */
  lemma AssignStep(t: string, flip: bool, acc: Unit)
    requires t != [] && Step(t, flip).Assign?
    ensures var r := Step(t, flip); ParseFrom(t, flip, acc) == ParseFrom(r.rest, r.flip, With(acc, r.sym, r.entry))
  {
  }

  /** A first `/` negates the powers that follow it. */
  lemma SlashStep(tok: Token, rest: string, acc: Unit)
    requires Fits(tok, rest)
    ensures ParseFrom("/" + TokenText(tok) + rest, false, acc)
         == ParseFrom(rest, true, With(acc, tok.sym, TokenEntry(tok, true)))
  {
    hide TokenText, StepBody, ParseFrom;
    var t := "/" + TokenText(tok) + rest;
    BodyToken(tok, rest, true);
    assert t[1..] == TokenText(tok) + rest;
    assert Step(t, false) == Assign(rest, true, tok.sym, TokenEntry(tok, true));
    AssignStep(t, false, acc);
  }

  /** A second `/` is rejected. */
  lemma SecondSlashStep(rest: string, acc: Unit)
    ensures ParseFrom("/" + rest, true, acc) == Err(TwoSlashes)
  {
  }

  /** A `/` at the very end leaves nothing to read. */
  lemma TrailingSlashStep(acc: Unit)
    ensures ParseFrom("/", false, acc) == Err(NothingAfterSlash)
  {
    assert "/"[1..] == [];
  }

  /** A character that starts no prefix, no symbol and is not skipped ends the
      scan: a parenthesis with its own error, anything else as unknown. */
  lemma StrayStep(c: char, rest: string, flip: bool, acc: Unit)
    requires PrefixOfChar(c).None? && SymbolOfChar(c).None? && c != 'P' && c != 'H' && c != 'e'
    requires c != '/' && c != ' ' && c != '1'
    ensures ParseFrom([c] + rest, flip, acc)
         == Err(if c == '(' || c == ')' then Parentheses else UnknownCharacter(c))
  {
    var t := [c] + rest;
    assert t[0] == c;
    assert PrefixAt(t).None?;
    assert t[0..] == t;
    assert SymbolAt(t).None? by {
      if |t| >= 2 {
        assert t[..2] != "Pa" && t[..2] != "Hz" && t[..2] != "eV";
      }
    }
    assert SymbolPowerAt(t).None?;
    assert TokenAt(t).None?;
  }

  /** A prefix character followed by a word character is taken as a prefix;
      when no symbol follows it, the scan stops at the prefix character. */
  lemma PrefixWithoutSymbolStep(c: char, rest: string, flip: bool, acc: Unit)
    requires PrefixOfChar(c).Some? && rest != [] && IsWordChar(rest[0]) && SymbolAt(rest).None?
    ensures ParseFrom([c] + rest, flip, acc) == Err(UnknownCharacter(c))
  {
    hide PrefixOfChar, IsWordChar, SymbolAt, PowerAt, With;
    var t := [c] + rest;
    PrefixCharIsLetter(c);
    assert t[0] == c && t[1] == rest[0] && t[1..] == rest;
    assert PrefixAt(t).Some?;
    assert SymbolPowerAt(t[1..]).None?;
    assert TokenAt(t).None?;
  }

  lemma PrefixCharIsLetter(c: char)
    requires PrefixOfChar(c).Some?
    ensures c != '/' && c != ' ' && c != '1' && c != '(' && c != ')'
  {
  }

  /** A prefix character that is not itself a symbol and has no word
      character after it is not a prefix either: it is an unknown character. */
  lemma LonePrefixStep(c: char, rest: string, flip: bool, acc: Unit)
    requires PrefixOfChar(c).Some? && SymbolOfChar(c).None?
    requires rest == [] || !IsWordChar(rest[0])
    ensures ParseFrom([c] + rest, flip, acc) == Err(UnknownCharacter(c))
  {
    var t := [c] + rest;
    assert t[0] == c && t[0..] == t;
    assert PrefixAt(t).None?;
    assert SymbolAt(t).None? by {
      if |t| >= 2 {
        assert t[..2] != "Pa" && t[..2] != "Hz" && t[..2] != "eV";
      }
    }
    assert TokenAt(t).None?;
  }

  /** A `^` that no symbol owns is an unknown character. */
  lemma CaretStep(tail: string, flip: bool, acc: Unit)
    ensures ParseFrom("^" + tail, flip, acc) == Err(UnknownCharacter('^'))
  {
    StrayStep('^', tail, flip, acc);
    assert [('^')] + tail == "^" + tail;
  }

  lemma EndStep(flip: bool, acc: Unit)
    ensures ParseFrom("", flip, acc) == Ok(acc)
  {
  }

  /** Text without braces is left alone by the brace rewrite. */
  lemma {:induction false} BracesFree(t: string)
    requires forall i | 0 <= i < |t| :: t[i] != '{' && t[i] != '}'
    ensures Braces(t) == t
  {
    if t != [] {
      BracesFree(t[1..]);
      assert t == [t[0]] + t[1..];
    }
  }

  // ---------------------------------------------------------------------------
  // Space-separated tokens

  /** Tokens written one after another with a single space between them. */
  function JoinText(toks: seq<Token>): string {
    if toks == [] then "" else if |toks| == 1 then TokenText(toks[0]) else TokenText(toks[0]) + (" " + JoinText(toks[1..]))
  }

  /** The slots a scan of `toks` assigns on top of `acc`, without a `/`. */
  function Apply(acc: Unit, toks: seq<Token>): Unit
    decreases |toks|
  {
    if toks == [] then acc else Apply(With(acc, toks[0].sym, TokenEntry(toks[0], false)), toks[1..])
  }

  /** Nothing that may end a token: the end of the text or a space. */
  lemma FitsBeforeSpace(tok: Token, rest: string)
    requires rest == [] || rest[0] == ' '
    ensures Fits(tok, rest)
  {
  }

  /** Space-separated tokens are read one by one, each assigning its slot. */
  lemma {:induction false} ParseJoin(toks: seq<Token>, acc: Unit)
    ensures ParseFrom(JoinText(toks), false, acc) == Ok(Apply(acc, toks))
    decreases |toks|
  {
    if toks != [] {
      var acc' := With(acc, toks[0].sym, TokenEntry(toks[0], false));
      ParseJoin(toks[1..], acc');
      if |toks| == 1 {
        FitsBeforeSpace(toks[0], "");
        TokenStep(toks[0], "", false, acc);
        assert TokenText(toks[0]) + "" == TokenText(toks[0]);
        assert JoinText(toks[1..]) == "";
      } else {
        var j := JoinText(toks[1..]);
        FitsBeforeSpace(toks[0], " " + j);
        TokenStep(toks[0], " " + j, false, acc);
        SkipStep(' ', j, false, acc');
        assert [' '] + j == " " + j;
      }
    }
  }
}

=== FILE: powers.dfy ===
/** Integer powers of a real: the exact counterpart of Python's `float ** int`
    as the unit resolver uses it (a prefix multiplier raised to a unit power). */
module Powers {

  function NatPow(b: real, n: nat): (r: real)
    ensures b > 0.0 ==> r > 0.0
    ensures b != 0.0 ==> r != 0.0
  {
    if n == 0 then 1.0 else b * NatPow(b, n - 1)
  }

  /** `b ** n` for any integer `n`; a negative exponent raises the reciprocal. */
  function RealPow(b: real, n: int): (r: real)
    requires b != 0.0
    ensures r != 0.0
    ensures b > 0.0 ==> r > 0.0
  {
    if n >= 0 then NatPow(b, n) else NatPow(1.0 / b, -n)
  }

  /** A negative power is the reciprocal of the positive one. */
  lemma {:induction false} RealPowCases(b: real, n: int)
    requires b != 0.0
    ensures RealPow(b, n) == if n >= 0 then NatPow(b, n) else 1.0 / NatPow(b, -n)
  {
    if n < 0 {
      NatPowInverse(b, -n);
    }
  }

  lemma NatPowUnfold(b: real, n: nat)
    requires n > 0
    ensures NatPow(b, n) == b * NatPow(b, n - 1)
  {
  }

  lemma Assoc(a: real, x: real, y: real)
    ensures a * (x * y) == (a * x) * y
  {
  }

  lemma {:induction false} NatPowAdd(b: real, m: nat, n: nat)
    ensures NatPow(b, m + n) == NatPow(b, m) * NatPow(b, n)
  {
    if m > 0 {
      hide NatPow;
      NatPowAdd(b, m - 1, n);
      NatPowUnfold(b, m + n);
      NatPowUnfold(b, m);
      Assoc(b, NatPow(b, m - 1), NatPow(b, n));
    }
  }

  lemma {:induction false} NatPowProduct(a: real, b: real, n: nat)
    ensures NatPow(a * b, n) == NatPow(a, n) * NatPow(b, n)
  {
    if n > 0 {
      NatPowProduct(a, b, n - 1);
      Swap4(a, b, NatPow(a, n - 1), NatPow(b, n - 1));
    }
  }

  lemma {:induction false} NatPowMul(b: real, m: nat, n: nat)
    ensures NatPow(b, m * n) == NatPow(NatPow(b, m), n)
  {
    if n > 0 {
      hide NatPow;
      NatPowMul(b, m, n - 1);
      assert m * n == m + m * (n - 1);
      NatPowAdd(b, m, m * (n - 1));
      NatPowUnfold(NatPow(b, m), n);
    }
  }

  lemma {:induction false} NatPowOne(n: nat)
    ensures NatPow(1.0, n) == 1.0
  {
    if n > 0 {
      NatPowOne(n - 1);
    }
  }

  /** Raising a reciprocal is taking the reciprocal of the power. */
  lemma {:induction false} NatPowInverse(x: real, n: nat)
    requires x != 0.0
    ensures NatPow(1.0 / x, n) == 1.0 / NatPow(x, n)
  {
    if n > 0 {
      NatPowInverse(x, n - 1);
      InverseProduct(x, NatPow(x, n - 1));
    }
  }

  lemma Swap4(a: real, b: real, x: real, y: real)
    ensures (a * b) * (x * y) == (a * x) * (b * y)
  {
  }

  lemma Quotient(x: real, y: real, z: real)
    requires y != 0.0 && x == z * y
    ensures z == x * (1.0 / y)
  {
  }

  lemma InverseProduct(x: real, y: real)
    requires x != 0.0 && y != 0.0
    ensures 1.0 / (x * y) == (1.0 / x) * (1.0 / y)
  {
  }

  lemma InverseQuotient(x: real, y: real, z: real)
    requires x != 0.0 && y != 0.0 && y == x * z
    ensures 1.0 / z == x * (1.0 / y)
  {
  }

  lemma DoubleInverse(x: real)
    requires x != 0.0
    ensures 1.0 / (1.0 / x) == x
  {
  }

  /** `b ** (m - k)` for naturals `m`, `k`, whichever is larger. */
  lemma MixedAdd(b: real, m: nat, k: nat)
    requires b != 0.0
    ensures RealPow(b, m - k) == NatPow(b, m) * (1.0 / NatPow(b, k))
  {
    if m >= k {
      MixedAddAbove(b, m, k);
    } else {
      MixedAddBelow(b, m, k);
    }
  }

  lemma MixedAddAbove(b: real, m: nat, k: nat)
    requires b != 0.0 && m >= k
    ensures RealPow(b, m - k) == NatPow(b, m) * (1.0 / NatPow(b, k))
  {
    hide NatPow, RealPow;
    RealPowCases(b, m - k);
    NatPowAdd(b, m - k, k);
    Quotient(NatPow(b, m), NatPow(b, k), NatPow(b, m - k));
  }

  lemma MixedAddBelow(b: real, m: nat, k: nat)
    requires b != 0.0 && m < k
    ensures RealPow(b, m - k) == NatPow(b, m) * (1.0 / NatPow(b, k))
  {
    hide NatPow, RealPow;
    RealPowCases(b, m - k);
    NatPowAdd(b, m, k - m);
    InverseQuotient(NatPow(b, m), NatPow(b, k), NatPow(b, k - m));
  }

  /** Exponents add: `b ** (p + q) == b ** p * b ** q`. */
  lemma {:induction false} RealPowAdd(b: real, p: int, q: int)
    requires b != 0.0
    ensures RealPow(b, p + q) == RealPow(b, p) * RealPow(b, q)
  {
    if p >= 0 && q >= 0 {
      NatPowAdd(b, p, q);
    } else if p < 0 && q < 0 {
      RealPowAddNegative(b, p, q);
    } else if p >= 0 {
      RealPowAddMixed(b, p, q);
    } else {
      RealPowAddMixed(b, q, p);
    }
  }

  lemma {:induction false} RealPowAddNegative(b: real, p: int, q: int)
    requires b != 0.0 && p < 0 && q < 0
    ensures RealPow(b, p + q) == RealPow(b, p) * RealPow(b, q)
  {
    RealPowCases(b, p);
    RealPowCases(b, q);
    RealPowCases(b, p + q);
    NatPowAdd(b, -p, -q);
    InverseProduct(NatPow(b, -p), NatPow(b, -q));
  }

  lemma {:induction false} RealPowAddMixed(b: real, p: int, q: int)
    requires b != 0.0 && p >= 0 && q < 0
    ensures RealPow(b, p + q) == RealPow(b, p) * RealPow(b, q)
  {
    RealPowCases(b, q);
    MixedAdd(b, p, -q);
  }

  /** Exponents multiply: `(b ** m) ** n == b ** (m * n)`. */
  lemma {:induction false} RealPowMul(b: real, m: int, n: int)
    requires b != 0.0
    ensures RealPow(RealPow(b, m), n) == RealPow(b, m * n)
  {
    if m >= 0 && n >= 0 {
      NatPowMul(b, m, n);
    } else if m < 0 && n >= 0 {
      RealPowMulNegBase(b, m, n);
    } else if m >= 0 && n < 0 {
      RealPowMulNegExp(b, m, n);
    } else {
      RealPowMulNegBoth(b, m, n);
    }
  }

  lemma {:induction false} RealPowMulNegBase(b: real, m: int, n: int)
    requires b != 0.0 && m < 0 && n >= 0
    ensures RealPow(RealPow(b, m), n) == RealPow(b, m * n)
  {
    RealPowCases(b, m);
    RealPowCases(b, m * n);
    NatPowInverse(NatPow(b, -m), n);
    NatPowMul(b, -m, n);
    assert (-m) * n == -(m * n);
  }

  lemma {:induction false} RealPowMulNegExp(b: real, m: int, n: int)
    requires b != 0.0 && m >= 0 && n < 0
    ensures RealPow(RealPow(b, m), n) == RealPow(b, m * n)
  {
    RealPowCases(RealPow(b, m), n);
    RealPowCases(b, m * n);
    NatPowMul(b, m, -n);
    assert m * (-n) == -(m * n);
    if m == 0 {
      NatPowOne(-n);
    }
  }

  lemma {:induction false} RealPowMulNegBoth(b: real, m: int, n: int)
    requires b != 0.0 && m < 0 && n < 0
    ensures RealPow(RealPow(b, m), n) == RealPow(b, m * n)
  {
    RealPowCases(b, m);
    RealPowCases(RealPow(b, m), n);
    NatPowInverse(NatPow(b, -m), -n);
    NatPowMul(b, -m, -n);
    assert (-m) * (-n) == m * n;
    DoubleInverse(NatPow(b, m * n));
  }

  lemma RealPowZero(b: real)
    requires b != 0.0
    ensures RealPow(b, 0) == 1.0
  {
  }

  lemma RealPowFirst(b: real)
    requires b != 0.0
    ensures RealPow(b, 1) == b
  {
    assert NatPow(b, 1) == b * NatPow(b, 0);
  }

  lemma {:induction false} RealPowOne(n: int)
    ensures RealPow(1.0, n) == 1.0
  {
    if n >= 0 {
      NatPowOne(n);
    } else {
      NatPowOne(-n);
    }
  }

  /** Negating the exponent takes the reciprocal. */
  lemma {:induction false} RealPowNeg(b: real, n: int)
    requires b != 0.0
    ensures RealPow(b, -n) == 1.0 / RealPow(b, n)
  {
    RealPowAdd(b, n, -n);
  }

  /** Powers distribute over a product of bases. */
  lemma {:induction false} RealPowProduct(a: real, b: real, n: int)
    requires a != 0.0 && b != 0.0
    ensures RealPow(a * b, n) == RealPow(a, n) * RealPow(b, n)
  {
    var k: nat := if n >= 0 then n else -n;
    RealPowCases(a * b, n);
    RealPowCases(a, n);
    RealPowCases(b, n);
    NatPowProduct(a, b, k);
    if n < 0 {
      InverseProduct(NatPow(a, k), NatPow(b, k));
    }
  }
}

=== FILE: reconcile.dfy ===
/** Prefix reconciliation before a product or quotient of two measurements:
    wherever both units use a symbol with different prefixes, the second
    operand is rewritten with the first one's prefix and its value rescaled
    so that the physical quantity stays the same. Afterwards the two units
    never clash, so the unit product or quotient always exists. */
module Reconcile {
  import opened Wrappers
  import opened Powers
  import opened Symbols
  import opened Units
  import opened UnitAlgebra
  import opened UnitLaws

  /** The slot of the second unit after reconciliation against the first. */
  function AlignEntry(x: Entry, y: Entry): (r: Entry)
    ensures r.power == y.power
    ensures !Clash(x, r)
    ensures !Clash(x, y) ==> r == y
    ensures Clash(x, y) ==> r.prefix == x.prefix
  {
    if Clash(x, y) then Entry(x.prefix, y.power) else y
  }

  /** What one slot's reconciliation multiplies the value by:
      `(prefix of y / prefix of x) ** power of y`. */
  function SlotRescale(x: Entry, y: Entry): (r: real)
    ensures r > 0.0
  {
    if Clash(x, y) then RealPow(PrefixValue(y.prefix) / PrefixValue(x.prefix), y.power) else 1.0
  }

  function RescaleOver(a: Unit, b: Unit, syms: seq<Symbol>): (r: real)
    ensures r > 0.0
  {
    if syms == [] then 1.0 else SlotRescale(At(a, syms[0]), At(b, syms[0])) * RescaleOver(a, b, syms[1..])
  }

  /** The factor the reconciliation loop multiplies the second value by. */
  function Rescale(a: Unit, b: Unit): (r: real)
    ensures r > 0.0
  {
    RescaleOver(a, b, KnownUnits)
  }

  /** The second unit rewritten with the first unit's prefixes where they clash. */
  function Align(a: Unit, b: Unit): (r: Unit)
    ensures forall s: Symbol :: At(r, s) == AlignEntry(At(a, s), At(b, s))
  {
    Tabulate(s => AlignEntry(At(a, s), At(b, s)))
  }

  /** After reconciliation the two units never clash. */
  lemma AlignCompatible(a: Unit, b: Unit)
    ensures Compatible(a, Align(a, b))
    ensures Mul(a, Align(a, b)).Ok? && Div(a, Align(a, b)).Ok?
  {
  }

  /** Nothing changes when nothing clashes. */
  lemma {:induction false} AlignUnchanged(a: Unit, b: Unit, syms: seq<Symbol>)
    requires Compatible(a, b)
    ensures Align(a, b) == b
    ensures RescaleOver(a, b, syms) == 1.0
  {
    Ext(Align(a, b), b);
    if syms != [] {
      AlignUnchanged(a, b, syms[1..]);
    }
  }

  /** The ratio of two prefix multipliers is a power of ten. */
  lemma PrefixRatio(p: Prefix, q: Prefix)
    ensures PrefixValue(q) / PrefixValue(p) == RealPow(10.0, PrefixExponent(q) - PrefixExponent(p))
  {
    hide RealPow;
    PrefixValueIsPower(p);
    PrefixValueIsPower(q);
    RealPowAdd(10.0, PrefixExponent(q), -PrefixExponent(p));
    RealPowNeg(10.0, PrefixExponent(p));
  }

  /** The scale of a slot whose prefix changes from `p` to `q`. */
  lemma ScaleShift(s: Symbol, p: Prefix, q: Prefix, n: int)
    ensures SymbolScale(s, Entry(q, n))
         == SymbolScale(s, Entry(p, n)).Plus(Scale((PrefixExponent(q) - PrefixExponent(p)) * n, 0))
  {
    var d, k := PrefixExponent(q) - PrefixExponent(p), PrefixExponent(p) + ExpansionExponent(s);
    assert (PrefixExponent(q) + ExpansionExponent(s)) * n == k * n + d * n;
  }

  /** One slot: the reconciled slot's factor times the rescale is the original factor. */
  lemma SlotFactor(s: Symbol, x: Entry, y: Entry)
    ensures SymbolFactor(s, AlignEntry(x, y)) * SlotRescale(x, y) == SymbolFactor(s, y)
  {
    hide *;
    SlotCases(x, y);
    if Clash(x, y) {
      PrefixShift(s, x.prefix, y.prefix, y.power);
    }
  }

  lemma SlotCases(x: Entry, y: Entry)
    ensures Clash(x, y) ==> AlignEntry(x, y) == Entry(x.prefix, y.power) && y == Entry(y.prefix, y.power)
    ensures Clash(x, y) ==> SlotRescale(x, y) == RealPow(PrefixValue(y.prefix) / PrefixValue(x.prefix), y.power)
    ensures !Clash(x, y) ==> AlignEntry(x, y) == y && SlotRescale(x, y) == 1.0
  {
  }

  /** Rewriting a slot from prefix `q` to prefix `p` divides its factor by
      `(q / p) ** n`. */
  lemma PrefixShift(s: Symbol, p: Prefix, q: Prefix, n: int)
    ensures SymbolFactor(s, Entry(p, n)) * RealPow(PrefixValue(q) / PrefixValue(p), n) == SymbolFactor(s, Entry(q, n))
  {
    hide *;
    var d := PrefixExponent(q) - PrefixExponent(p);
    var a, b := SymbolScale(s, Entry(p, n)), SymbolScale(s, Entry(q, n));
    SymbolFactorIsValue(s, Entry(p, n));
    SymbolFactorIsValue(s, Entry(q, n));
    ScaleShift(s, p, q, n);
    ValuePlus(a, Scale(d * n, 0));
    ValueTen(d * n);
    PrefixRatio(p, q);
    RealPowMul(10.0, d, n);
    assert RealPow(PrefixValue(q) / PrefixValue(p), n) == Value(Scale(d * n, 0));
    assert Value(b) == Value(a) * Value(Scale(d * n, 0));
  }

  lemma FactorSwap(f: real, g: real, r: real, k: real, fb: real, gb: real, x: real, y: real, z: real)
    requires f * r == fb && g * k == gb
    requires x == f * g && y == r * k && z == fb * gb
    ensures x * y == z
  {
    Swap4(f, g, r, k);
  }

  lemma RescaleOverStep(a: Unit, b: Unit, ss: seq<Symbol>)
    requires ss != []
    ensures RescaleOver(a, b, ss) == SlotRescale(At(a, ss[0]), At(b, ss[0])) * RescaleOver(a, b, ss[1..])
  {
    hide SlotRescale, At;
  }

  lemma AlignAt(a: Unit, b: Unit, s: Symbol)
    ensures At(Align(a, b), s) == AlignEntry(At(a, s), At(b, s))
    ensures At(Align(a, b), s).power == At(b, s).power
  {
  }

  lemma {:induction false} AlignOver(a: Unit, b: Unit, syms: seq<Symbol>)
    ensures FactorOver(Align(a, b), syms) * RescaleOver(a, b, syms) == FactorOver(b, syms)
    ensures DimsOver(Align(a, b), syms) == DimsOver(b, syms)
  {
    hide *;
    var c := Align(a, b);
    if syms == [] {
      AlignNil(a, b, syms);
    } else {
      var s, rest := syms[0], syms[1..];
      FactorOverStep(c, syms);
      FactorOverStep(b, syms);
      RescaleOverStep(a, b, syms);
      DimsOverStep(c, syms);
      DimsOverStep(b, syms);
      AlignAt(a, b, s);
      AlignOver(a, b, rest);
      SlotFactor(s, At(a, s), At(b, s));
      SymbolDimsLinear(s, At(c, s));
      SymbolDimsLinear(s, At(b, s));
      FactorSwap(SymbolFactor(s, At(c, s)), FactorOver(c, rest),
                 SlotRescale(At(a, s), At(b, s)), RescaleOver(a, b, rest),
                 SymbolFactor(s, At(b, s)), FactorOver(b, rest),
                 FactorOver(c, syms), RescaleOver(a, b, syms), FactorOver(b, syms));
    }
  }

  lemma AlignNil(a: Unit, b: Unit, syms: seq<Symbol>)
    requires syms == []
    ensures FactorOver(Align(a, b), syms) * RescaleOver(a, b, syms) == FactorOver(b, syms)
    ensures DimsOver(Align(a, b), syms) == DimsOver(b, syms)
  {
  }

  /** Reconciliation keeps the quantity: the aligned unit's factor times the
      rescale is the original factor, and the dimensions do not change. */
  lemma AlignResolves(a: Unit, b: Unit)
    ensures Factor(Align(a, b)) * Rescale(a, b) == Factor(b)
    ensures BaseDims(Align(a, b)) == BaseDims(b)
  {
    hide FactorOver, RescaleOver, DimsOver, Align;
    AlignOver(a, b, KnownUnits);
  }
}

=== FILE: symbols.dfy ===
/** The fixed tables of the unit system: the known unit symbols, the metric
    prefixes, and the base-unit expansion of every derived symbol. */
module Symbols {
  import opened Wrappers

  /** Every unit symbol the library knows, declared in registration order:
      the derived units first, then the base units. */
  datatype Symbol =
    | Joule | Volt | Newton | Watt | Tesla | Pascal | Hertz | Celsius | ElectronVolt
    | Metre | Gram | Second | Ampere | Kelvin

  /** The iteration order of the symbol table: printing and resolving follow it. */
  const KnownUnits: seq<Symbol> :=
    [Joule, Volt, Newton, Watt, Tesla, Pascal, Hertz, Celsius, ElectronVolt,
     Metre, Gram, Second, Ampere, Kelvin]

  const BaseUnits: seq<Symbol> := [Metre, Gram, Second, Ampere, Kelvin]

  /** How many times `s` occurs in `syms`. */
  function Occurrences(s: Symbol, syms: seq<Symbol>): nat {
    if syms == [] then 0 else (if syms[0] == s then 1 else 0) + Occurrences(s, syms[1..])
  }

  /** The table lists each symbol exactly once. */
  lemma ListedOnce(s: Symbol)
    ensures Occurrences(s, KnownUnits) == 1
  {
    hide Occurrences;
    var t: seq<Symbol> := [];
    OccurrencesNil(s);
    OccurrencesCons(s, Kelvin, t);
    t := [Kelvin] + t;
    OccurrencesCons(s, Ampere, t);
    t := [Ampere] + t;
    OccurrencesCons(s, Second, t);
    t := [Second] + t;
    OccurrencesCons(s, Gram, t);
    t := [Gram] + t;
    OccurrencesCons(s, Metre, t);
    t := [Metre] + t;
    OccurrencesCons(s, ElectronVolt, t);
    t := [ElectronVolt] + t;
    OccurrencesCons(s, Celsius, t);
    t := [Celsius] + t;
    OccurrencesCons(s, Hertz, t);
    t := [Hertz] + t;
    OccurrencesCons(s, Pascal, t);
    t := [Pascal] + t;
    OccurrencesCons(s, Tesla, t);
    t := [Tesla] + t;
    OccurrencesCons(s, Watt, t);
    t := [Watt] + t;
    OccurrencesCons(s, Newton, t);
    t := [Newton] + t;
    OccurrencesCons(s, Volt, t);
    t := [Volt] + t;
    OccurrencesCons(s, Joule, t);
    t := [Joule] + t;
    assert t == KnownUnits;
  }

  lemma OccurrencesNil(s: Symbol)
    ensures Occurrences(s, []) == 0
  {
  }

  lemma OccurrencesCons(s: Symbol, x: Symbol, rest: seq<Symbol>)
    ensures Occurrences(s, [x] + rest) == (if x == s then 1 else 0) + Occurrences(s, rest)
  {
    assert ([x] + rest)[1..] == rest;
  }

  predicate IsBase(s: Symbol) {
    s.Metre? || s.Gram? || s.Second? || s.Ampere? || s.Kelvin?
  }

  function SymbolText(s: Symbol): string {
    match s
    case Joule => "J"
    case Volt => "V"
    case Newton => "N"
    case Watt => "W"
    case Tesla => "T"
    case Pascal => "Pa"
    case Hertz => "Hz"
    case Celsius => "C"
    case ElectronVolt => "eV"
    case Metre => "m"
    case Gram => "g"
    case Second => "s"
    case Ampere => "A"
    case Kelvin => "K"
  }

  /** The metric prefixes; `u` and `µ` are two spellings of micro. */
  datatype Prefix =
    | Pico | Nano | MicroU | MicroMu | Milli | Centi | NoPrefix | Kilo | Mega | Giga | Tera

  function PrefixText(p: Prefix): string {
    match p
    case Pico => "p"
    case Nano => "n"
    case MicroU => "u"
    case MicroMu => "µ"
    case Milli => "m"
    case Centi => "c"
    case NoPrefix => ""
    case Kilo => "k"
    case Mega => "M"
    case Giga => "G"
    case Tera => "T"
  }

  /** The multiplier of a prefix, as the prefix table writes it. */
  function PrefixValue(p: Prefix): (r: real)
    ensures r > 0.0
  {
    match p
    case Pico => 0.000000000001
    case Nano => 0.000000001
    case MicroU => 0.000001
    case MicroMu => 0.000001
    case Milli => 0.001
    case Centi => 0.01
    case NoPrefix => 1.0
    case Kilo => 1000.0
    case Mega => 1000000.0
    case Giga => 1000000000.0
    case Tera => 1000000000000.0
  }

  /** The decimal exponent of a prefix. */
  function PrefixExponent(p: Prefix): int {
    match p
    case Pico => -12
    case Nano => -9
    case MicroU => -6
    case MicroMu => -6
    case Milli => -3
    case Centi => -2
    case NoPrefix => 0
    case Kilo => 3
    case Mega => 6
    case Giga => 9
    case Tera => 12
  }

  /** The prefix a single character names, if any. */
  function PrefixOfChar(c: char): (r: Option<Prefix>)
    ensures r.Some? ==> PrefixText(r.value) == [c]
  {
    match c
    case 'p' => Some(Pico)
    case 'n' => Some(Nano)
    case 'u' => Some(MicroU)
    case 'µ' => Some(MicroMu)
    case 'm' => Some(Milli)
    case 'c' => Some(Centi)
    case 'k' => Some(Kilo)
    case 'M' => Some(Mega)
    case 'G' => Some(Giga)
    case 'T' => Some(Tera)
    case _ => None
  }

  /** The conversion constant the electronvolt carries on top of its expansion. */
  const ElectronVoltConstant: real := 0.0000000000000000001602176634

  /** The base-unit expansion of a derived symbol, as text. */
  function ExpansionText(s: Symbol): string
    requires !IsBase(s)
  {
    match s
    case Joule => "kg m^2 s^-2"
    case Volt => "kg m^2 s^-3 A^-1"
    case Newton => "kg m s^-2"
    case Watt => "kg m^2 s^-3"
    case Tesla => "kg s^-2 A^-1"
    case Pascal => "kg m^-1 s^-2"
    case Hertz => "s^-1"
    case Celsius => "K"
    case ElectronVolt => "kg m^2 s^-2"
  }

  lemma ElectronVoltPositive()
    ensures ElectronVoltConstant > 0.0
  {
  }

  /** The constant factor a derived symbol carries beyond its expansion. */
  function DerivedConstant(s: Symbol): Option<real> {
    if s == ElectronVolt then Some(ElectronVoltConstant) else None
  }
}

=== FILE: unit_algebra.dfy ===
/** How a unit resolves into a constant factor and base dimensions, and how
    that resolution behaves under the unit operations: products multiply
    factors and add dimensions, reciprocals invert them, powers raise them.
    The factor is computed slot by slot as the library does; `Exponents`
    gives an independent closed form, ten to one integer times the
    electronvolt constant to another. */
module UnitAlgebra {
  import opened Wrappers
  import opened Powers
  import opened Symbols
  import opened Errors
  import opened Units

  /** A factor `10^ten * e^ev`, where `e` is the electronvolt constant. */
  datatype Scale = Scale(ten: int, ev: int) {
    function Plus(o: Scale): Scale {
      Scale(ten + o.ten, ev + o.ev)
    }
    function Times(n: int): Scale {
      Scale(ten * n, ev * n)
    }
  }

  function Value(sc: Scale): (r: real)
    ensures r > 0.0
  {
    RealPow(10.0, sc.ten) * RealPow(ElectronVoltConstant, sc.ev)
  }

  /** The decimal exponent a derived symbol's expansion carries: three for
      every expansion that contains `kg`. */
  function ExpansionExponent(s: Symbol): int {
    match s
    case Joule => 3
    case Volt => 3
    case Newton => 3
    case Watt => 3
    case Tesla => 3
    case Pascal => 3
    case ElectronVolt => 3
    case _ => 0
  }

  /** The closed form of one slot's contribution to the factor. */
  function SymbolScale(s: Symbol, e: Entry): Scale {
    Scale((PrefixExponent(e.prefix) + ExpansionExponent(s)) * e.power,
          if s == ElectronVolt then e.power else 0)
  }

  function ExponentsOver(u: Unit, syms: seq<Symbol>): Scale {
    if syms == [] then Scale(0, 0) else SymbolScale(syms[0], At(u, syms[0])).Plus(ExponentsOver(u, syms[1..]))
  }

  function Exponents(u: Unit): Scale {
    ExponentsOver(u, KnownUnits)
  }

  /** The dimension vector one power of a symbol stands for. */
  function SymbolVector(s: Symbol): Dims {
    if IsBase(s) then BaseVector(s) else ExpansionDims(s)
  }

  // ---------------------------------------------------------------------------
  // The factor agrees with its closed form

  lemma PrefixValueIsPower(p: Prefix)
    ensures PrefixValue(p) == RealPow(10.0, PrefixExponent(p))
  {
    match p
    case Pico => assert NatPow(0.1, 12) == 0.000000000001;
    case Nano => assert NatPow(0.1, 9) == 0.000000001;
    case MicroU => assert NatPow(0.1, 6) == 0.000001;
    case MicroMu => assert NatPow(0.1, 6) == 0.000001;
    case Milli => assert NatPow(0.1, 3) == 0.001;
    case Centi => assert NatPow(0.1, 2) == 0.01;
    case NoPrefix =>
    case Kilo => assert NatPow(10.0, 3) == 1000.0;
    case Mega => assert NatPow(10.0, 6) == 1000000.0;
    case Giga => assert NatPow(10.0, 9) == 1000000000.0;
    case Tera => assert NatPow(10.0, 12) == 1000000000000.0;
  }

  /** A prefix multiplier raised to a power is a power of ten. */
  lemma PrefixPower(p: Prefix, n: int)
    ensures RealPow(PrefixValue(p), n) == RealPow(10.0, PrefixExponent(p) * n)
  {
    PrefixValueIsPower(p);
    RealPowMul(10.0, PrefixExponent(p), n);
  }

  /** The factor of a sum of scales is the product of their factors. */
  lemma ValuePlus(a: Scale, b: Scale)
    ensures Value(a.Plus(b)) == Value(a) * Value(b)
  {
    hide RealPow;
    RealPowAdd(10.0, a.ten, b.ten);
    RealPowAdd(ElectronVoltConstant, a.ev, b.ev);
    Swap4(RealPow(10.0, a.ten), RealPow(10.0, b.ten),
          RealPow(ElectronVoltConstant, a.ev), RealPow(ElectronVoltConstant, b.ev));
  }

  lemma ValueTen(t: int)
    ensures Value(Scale(t, 0)) == RealPow(10.0, t)
  {
  }

  lemma ValueZero()
    ensures Value(Scale(0, 0)) == 1.0
  {
  }

  function ExpansionSum(x: Unit, bases: seq<Symbol>): int {
    if bases == [] then 0
    else PrefixExponent(At(x, bases[0]).prefix) * At(x, bases[0]).power + ExpansionSum(x, bases[1..])
  }

  lemma {:induction false} ExpansionFactorIsPower(x: Unit, p: int, bases: seq<Symbol>)
    ensures ExpansionFactor(x, p, bases) == RealPow(10.0, ExpansionSum(x, bases) * p)
  {
    hide *;
    if bases == [] {
      ExpansionNil(x, p, bases);
      RealPowZero(10.0);
    } else {
      var e := At(x, bases[0]);
      var k, rest := PrefixExponent(e.prefix), ExpansionSum(x, bases[1..]);
      ExpansionStep(x, p, bases);
      ExpansionFactorIsPower(x, p, bases[1..]);
      PrefixPower(e.prefix, e.power * p);
      RealPowAdd(10.0, k * (e.power * p), rest * p);
      assert k * (e.power * p) + rest * p == (k * e.power + rest) * p;
    }
  }

  lemma ExpansionNil(x: Unit, p: int, bases: seq<Symbol>)
    requires bases == []
    ensures ExpansionFactor(x, p, bases) == 1.0 && ExpansionSum(x, bases) * p == 0
  {
  }

  lemma ExpansionStep(x: Unit, p: int, bases: seq<Symbol>)
    requires bases != []
    ensures ExpansionFactor(x, p, bases)
         == RealPow(PrefixValue(At(x, bases[0]).prefix), At(x, bases[0]).power * p) * ExpansionFactor(x, p, bases[1..])
    ensures ExpansionSum(x, bases)
         == PrefixExponent(At(x, bases[0]).prefix) * At(x, bases[0]).power + ExpansionSum(x, bases[1..])
  {
    hide *;
    ExpansionFactorStep(x, p, bases);
    ExpansionSumStep(x, bases);
  }

  lemma ExpansionFactorStep(x: Unit, p: int, bases: seq<Symbol>)
    requires bases != []
    ensures ExpansionFactor(x, p, bases)
         == RealPow(PrefixValue(At(x, bases[0]).prefix), At(x, bases[0]).power * p) * ExpansionFactor(x, p, bases[1..])
  {
    hide RealPow, At, ExpansionSum;
  }

  lemma ExpansionSumStep(x: Unit, bases: seq<Symbol>)
    requires bases != []
    ensures ExpansionSum(x, bases)
         == PrefixExponent(At(x, bases[0]).prefix) * At(x, bases[0]).power + ExpansionSum(x, bases[1..])
  {
    hide RealPow, At, ExpansionFactor;
  }

  lemma ExpansionSumFive(x: Unit)
    ensures ExpansionSum(x, BaseUnits)
         == PrefixExponent(At(x, Metre).prefix) * At(x, Metre).power
          + PrefixExponent(At(x, Gram).prefix) * At(x, Gram).power
          + PrefixExponent(At(x, Second).prefix) * At(x, Second).power
          + PrefixExponent(At(x, Ampere).prefix) * At(x, Ampere).power
          + PrefixExponent(At(x, Kelvin).prefix) * At(x, Kelvin).power
  {
    var bs := BaseUnits;
    assert bs[1..] == [Gram, Second, Ampere, Kelvin];
    assert bs[1..][1..] == [Second, Ampere, Kelvin];
    assert bs[1..][1..][1..] == [Ampere, Kelvin];
    assert bs[1..][1..][1..][1..] == [Kelvin];
    assert bs[1..][1..][1..][1..][1..] == [];
    var k := PrefixExponent(At(x, Kelvin).prefix) * At(x, Kelvin).power;
    var a := PrefixExponent(At(x, Ampere).prefix) * At(x, Ampere).power;
    var sec := PrefixExponent(At(x, Second).prefix) * At(x, Second).power;
    var g := PrefixExponent(At(x, Gram).prefix) * At(x, Gram).power;
    assert ExpansionSum(x, [Kelvin]) == k;
    assert ExpansionSum(x, [Ampere, Kelvin]) == a + k;
    assert ExpansionSum(x, [Second, Ampere, Kelvin]) == sec + a + k;
    assert ExpansionSum(x, [Gram, Second, Ampere, Kelvin]) == g + sec + a + k;
  }

  lemma ExpansionSumTable(s: Symbol)
    requires !IsBase(s)
    ensures ExpansionSum(Expansion(s), BaseUnits) == ExpansionExponent(s)
  {
    hide *;
    ExpansionSumFive(Expansion(s));
    ExpansionTerms(s);
    ExpansionExponentIsKilogram(s);
  }

  /** In an expansion only the kilogram carries a prefix. */
  lemma ExpansionTerms(s: Symbol)
    requires !IsBase(s)
    ensures var x := Expansion(s);
      && PrefixExponent(At(x, Metre).prefix) * At(x, Metre).power == 0
      && PrefixExponent(At(x, Gram).prefix) * At(x, Gram).power == 3 * ExpansionDims(s).gram
      && PrefixExponent(At(x, Second).prefix) * At(x, Second).power == 0
      && PrefixExponent(At(x, Ampere).prefix) * At(x, Ampere).power == 0
      && PrefixExponent(At(x, Kelvin).prefix) * At(x, Kelvin).power == 0
  {
  }

  lemma ExpansionExponentIsKilogram(s: Symbol)
    requires !IsBase(s)
    ensures ExpansionExponent(s) == 3 * ExpansionDims(s).gram
  {
  }

  lemma ValueForm(t: int, v: int)
    ensures Value(Scale(t, v)) == RealPow(10.0, t) * RealPow(ElectronVoltConstant, v)
  {
  }

  /** One slot's contribution to the factor agrees with its closed form. */
  lemma SymbolFactorIsValue(s: Symbol, e: Entry)
    ensures SymbolFactor(s, e) == Value(SymbolScale(s, e))
  {
    if IsBase(s) {
      hide RealPow;
      PrefixPower(e.prefix, e.power);
      assert SymbolScale(s, e) == Scale(PrefixExponent(e.prefix) * e.power, 0);
      ValueTen(PrefixExponent(e.prefix) * e.power);
    } else if e.power == 0 {
      assert SymbolScale(s, e) == Scale(0, 0);
      ValueZero();
    } else {
      DerivedFactorIsValue(s, e);
    }
  }

  /** The prefix and expansion of a derived slot together give a power of ten. */
  lemma DerivedTen(s: Symbol, e: Entry)
    requires !IsBase(s)
    ensures RealPow(PrefixValue(e.prefix), e.power) * ExpansionFactor(Expansion(s), e.power, BaseUnits)
         == RealPow(10.0, (PrefixExponent(e.prefix) + ExpansionExponent(s)) * e.power)
  {
    hide RealPow;
    var k, x := PrefixExponent(e.prefix), ExpansionExponent(s);
    PrefixPower(e.prefix, e.power);
    ExpansionFactorIsPower(Expansion(s), e.power, BaseUnits);
    ExpansionSumTable(s);
    RealPowAdd(10.0, k * e.power, x * e.power);
    assert k * e.power + x * e.power == (k + x) * e.power;
  }

  lemma DerivedFactorIsValue(s: Symbol, e: Entry)
    requires !IsBase(s) && e.power != 0
    ensures SymbolFactor(s, e) == Value(SymbolScale(s, e))
  {
    hide RealPow, Value, ExpansionFactor, Expansion;
    var t := (PrefixExponent(e.prefix) + ExpansionExponent(s)) * e.power;
    var a := RealPow(PrefixValue(e.prefix), e.power);
    var b := ExpansionFactor(Expansion(s), e.power, BaseUnits);
    DerivedTen(s, e);
    if s == ElectronVolt {
      var c := RealPow(ElectronVoltConstant, e.power);
      assert SymbolFactor(s, e) == c * a * b;
      assert SymbolScale(s, e) == Scale(t, e.power);
      ValueForm(t, e.power);
      Regroup3(c, a, b);
    } else {
      assert SymbolFactor(s, e) == 1.0 * a * b;
      assert SymbolScale(s, e) == Scale(t, 0);
      ValueTen(t);
    }
  }

  lemma Regroup3(c: real, a: real, b: real)
    ensures c * a * b == (a * b) * c
  {
  }

  lemma {:induction false} FactorOverIsValue(u: Unit, syms: seq<Symbol>)
    ensures FactorOver(u, syms) == Value(ExponentsOver(u, syms))
  {
    hide RealPow, Value, SymbolFactor;
    if syms == [] {
      ValueZero();
    } else {
      FactorOverIsValue(u, syms[1..]);
      SymbolFactorIsValue(syms[0], At(u, syms[0]));
      ValuePlus(SymbolScale(syms[0], At(u, syms[0])), ExponentsOver(u, syms[1..]));
    }
  }

  /** The library's factor equals `10^ten * e^ev` for the unit's exponents. */
  lemma FactorIsValue(u: Unit)
    ensures Factor(u) == Value(Exponents(u))
  {
    FactorOverIsValue(u, KnownUnits);
  }

  lemma FactorPositive(u: Unit)
    ensures Factor(u) > 0.0
  {
    FactorIsValue(u);
  }
}

=== FILE: unit_examples.dfy ===
/** Worked instances of unit equality: a derived symbol equals its expansion
    in base units, and a prefix changes the unit. Both follow from the
    resolution into a constant factor and base dimensions, computed slot by
    slot. */
module UnitExamples {
  import opened Wrappers
  import opened Powers
  import opened Symbols
  import opened Errors
  import opened Units
  import opened UnitAlgebra
  import opened UnitLaws
  import opened UnitParse
  import opened ParseSteps
  import opened ExpansionParse
  import opened UnitPrint

  /** The unit with one slot filled and every other slot blank. */
  function Single(s: Symbol, e: Entry): Unit {
    With(Dimensionless, s, e)
  }

  // ---------------------------------------------------------------------------
  // Sums over part of the symbol table

  lemma OverNil(u: Unit, syms: seq<Symbol>)
    requires syms == []
    ensures ExponentsOver(u, syms) == Scale(0, 0) && DimsOver(u, syms) == NoDims
  {
  }

  lemma PlusZeros(a: Scale, d: Dims)
    ensures a.Plus(Scale(0, 0)) == a && d.Plus(NoDims) == d
  {
  }

  lemma PlusAssoc(a: Scale, b: Scale, c: Scale, x: Dims, y: Dims, z: Dims)
    ensures a.Plus(b).Plus(c) == a.Plus(b.Plus(c)) && x.Plus(y).Plus(z) == x.Plus(y.Plus(z))
  {
  }

  /** Slots of power zero add nothing to the sums. */
  lemma {:induction false} ZeroSlotsOver(u: Unit, syms: seq<Symbol>)
    requires forall i :: 0 <= i < |syms| ==> At(u, syms[i]).power == 0
    ensures ExponentsOver(u, syms) == Scale(0, 0)
    ensures DimsOver(u, syms) == NoDims
    decreases |syms|
  {
    hide *;
    if syms == [] {
      OverNil(u, syms);
    } else {
      assert forall i :: 0 <= i < |syms[1..]| ==> At(u, syms[1..][i]).power == 0 by {
        forall i | 0 <= i < |syms[1..]| ensures At(u, syms[1..][i]).power == 0 {
          assert syms[1..][i] == syms[i + 1];
        }
      }
      ExpStep(u, syms);
      ZeroSlotsOver(u, syms[1..]);
      assert At(u, syms[0]).power == 0;
      ScaleZero(syms[0], At(u, syms[0]));
      ZeroSlot(syms[0], At(u, syms[0]));
      PlusZeros(Scale(0, 0), NoDims);
    }
  }

  /** The sums over a concatenation add the sums over the parts. */
  lemma {:induction false} OverConcat(u: Unit, a: seq<Symbol>, b: seq<Symbol>)
    ensures ExponentsOver(u, a + b) == ExponentsOver(u, a).Plus(ExponentsOver(u, b))
    ensures DimsOver(u, a + b) == DimsOver(u, a).Plus(DimsOver(u, b))
    decreases |a|
  {
    hide *;
    if a == [] {
      assert a + b == b;
      OverNil(u, a);
      ZeroPlus(ExponentsOver(u, b), DimsOver(u, b));
    } else {
      assert (a + b)[0] == a[0] && (a + b)[1..] == a[1..] + b;
      ExpStep(u, a + b);
      ExpStep(u, a);
      OverConcat(u, a[1..], b);
      PlusAssoc(SymbolScale(a[0], At(u, a[0])), ExponentsOver(u, a[1..]), ExponentsOver(u, b),
                SymbolDims(a[0], At(u, a[0])), DimsOver(u, a[1..]), DimsOver(u, b));
    }
  }

  lemma ZeroPlus(a: Scale, d: Dims)
    ensures Scale(0, 0).Plus(a) == a && NoDims.Plus(d) == d
  {
  }

  /** Over any list of symbols, a unit whose only used slot is `s` sums that
      slot's contribution once per occurrence of `s`. */
  lemma {:induction false} OneSlotOver(u: Unit, s: Symbol, syms: seq<Symbol>)
    requires forall x: Symbol :: x != s ==> At(u, x).power == 0
    ensures ExponentsOver(u, syms) == SymbolScale(s, At(u, s)).Times(Occurrences(s, syms))
    ensures DimsOver(u, syms) == SymbolDims(s, At(u, s)).Times(Occurrences(s, syms))
    decreases |syms|
  {
    hide ExponentsOver, DimsOver, SymbolScale, SymbolDims, At;
    var sc, d := SymbolScale(s, At(u, s)), SymbolDims(s, At(u, s));
    if syms == [] {
      OverNil(u, syms);
      TimesNone(sc, d);
    } else {
      var n := Occurrences(s, syms[1..]);
      ExpStep(u, syms);
      OneSlotOver(u, s, syms[1..]);
      if syms[0] == s {
        ScaleTimesAdd(sc, 1, n);
        TimesAdd(d, 1, n);
        TimesOnce(sc, d);
      } else {
        ScaleZero(syms[0], At(u, syms[0]));
        ZeroSlot(syms[0], At(u, syms[0]));
        ZeroPlus(sc.Times(n), d.Times(n));
      }
    }
  }

  lemma TimesNone(sc: Scale, d: Dims)
    ensures sc.Times(0) == Scale(0, 0) && d.Times(0) == NoDims
  {
  }

  lemma TimesOnce(sc: Scale, d: Dims)
    ensures sc.Times(1) == sc && d.Times(1) == d
  {
  }

  /** A unit with one slot filled resolves to that slot's contribution. */
  lemma SingleResolves(s: Symbol, e: Entry)
    ensures Exponents(Single(s, e)) == SymbolScale(s, e)
    ensures BaseDims(Single(s, e)) == SymbolDims(s, e)
  {
    hide ExponentsOver, DimsOver, SymbolScale, SymbolDims;
    var u := Single(s, e);
    forall x: Symbol | x != s ensures At(u, x).power == 0 {
      SingleAt(s, e, x);
    }
    SingleAt(s, e, s);
    OneSlotOver(u, s, KnownUnits);
    ListedOnce(s);
    TimesOnce(SymbolScale(s, e), SymbolDims(s, e));
  }

  lemma SingleAt(s: Symbol, e: Entry, x: Symbol)
    ensures At(Single(s, e), x) == if x == s then e else Blank
  {
  }

  /** The sums over the five base slots, written out. */
  lemma BaseOver(u: Unit)
    ensures ExponentsOver(u, BaseUnits)
         == SymbolScale(Metre, At(u, Metre)).Plus(SymbolScale(Gram, At(u, Gram)).Plus(SymbolScale(Second, At(u, Second))
              .Plus(SymbolScale(Ampere, At(u, Ampere)).Plus(SymbolScale(Kelvin, At(u, Kelvin)).Plus(Scale(0, 0))))))
    ensures DimsOver(u, BaseUnits)
         == SymbolDims(Metre, At(u, Metre)).Plus(SymbolDims(Gram, At(u, Gram)).Plus(SymbolDims(Second, At(u, Second))
              .Plus(SymbolDims(Ampere, At(u, Ampere)).Plus(SymbolDims(Kelvin, At(u, Kelvin)).Plus(NoDims)))))
  {
    hide ExponentsOver, DimsOver, SymbolScale, SymbolDims, At;
    var b := BaseUnits;
    ExpStep(u, b);
    assert b[1..] == [Gram, Second, Ampere, Kelvin];
    ExpStep(u, b[1..]);
    assert b[1..][1..] == [Second, Ampere, Kelvin];
    ExpStep(u, b[1..][1..]);
    assert b[1..][1..][1..] == [Ampere, Kelvin];
    ExpStep(u, b[1..][1..][1..]);
    assert b[1..][1..][1..][1..] == [Kelvin];
    ExpStep(u, b[1..][1..][1..][1..]);
    assert b[1..][1..][1..][1..][1..] == [];
    OverNil(u, b[1..][1..][1..][1..][1..]);
  }

  /** An expansion resolves to its base dimensions, with a factor of one
      thousand for each power of `kg`. */
  lemma ExpansionResolves(s: Symbol)
    requires !IsBase(s)
    ensures Exponents(Expansion(s)) == Scale(ExpansionExponent(s), 0)
    ensures BaseDims(Expansion(s)) == ExpansionDims(s)
  {
    hide ExponentsOver, DimsOver, SymbolScale, SymbolDims, At, Expansion, ExpansionDims, ExpansionExponent, PrefixExponent;
    var x := Expansion(s);
    var front := KnownUnits[..9];
    ExpansionBaseSlots(s);
    FrontIsDerived(x, front);
    ZeroSlotsOver(x, front);
    OverConcat(x, front, BaseUnits);
    BaseOver(x);
    ExpansionTerms(s);
    ExpansionExponentIsKilogram(s);
    BaseScales(x);
    ZeroPlus(ExponentsOver(x, BaseUnits), DimsOver(x, BaseUnits));
  }

  lemma FrontIsDerived(x: Unit, front: seq<Symbol>)
    requires front == KnownUnits[..9]
    requires forall d: Symbol :: !IsBase(d) ==> At(x, d).power == 0
    ensures KnownUnits == front + BaseUnits
    ensures forall j :: 0 <= j < |front| ==> At(x, front[j]).power == 0
  {
    assert front == [Joule, Volt, Newton, Watt, Tesla, Pascal, Hertz, Celsius, ElectronVolt];
    forall j | 0 <= j < |front| ensures At(x, front[j]).power == 0 {
      assert !IsBase(front[j]);
    }
  }

  /** The slots of an expansion hold the powers of its dimension vector. */
  lemma ExpansionBaseSlots(s: Symbol)
    requires !IsBase(s)
    ensures forall d: Symbol :: !IsBase(d) ==> At(Expansion(s), d).power == 0
    ensures var x, v := Expansion(s), ExpansionDims(s);
      && At(x, Metre).power == v.metre && At(x, Gram).power == v.gram && At(x, Second).power == v.second
      && At(x, Ampere).power == v.ampere && At(x, Kelvin).power == v.kelvin
  {
  }

  /** Each base slot contributes its prefix exponent times its power, and its
      power along its own dimension. */
  lemma BaseScales(x: Unit)
    ensures SymbolScale(Metre, At(x, Metre)).Plus(SymbolScale(Gram, At(x, Gram)).Plus(SymbolScale(Second, At(x, Second))
              .Plus(SymbolScale(Ampere, At(x, Ampere)).Plus(SymbolScale(Kelvin, At(x, Kelvin)).Plus(Scale(0, 0))))))
         == Scale(PrefixExponent(At(x, Metre).prefix) * At(x, Metre).power
                + PrefixExponent(At(x, Gram).prefix) * At(x, Gram).power
                + PrefixExponent(At(x, Second).prefix) * At(x, Second).power
                + PrefixExponent(At(x, Ampere).prefix) * At(x, Ampere).power
                + PrefixExponent(At(x, Kelvin).prefix) * At(x, Kelvin).power, 0)
    ensures SymbolDims(Metre, At(x, Metre)).Plus(SymbolDims(Gram, At(x, Gram)).Plus(SymbolDims(Second, At(x, Second))
              .Plus(SymbolDims(Ampere, At(x, Ampere)).Plus(SymbolDims(Kelvin, At(x, Kelvin)).Plus(NoDims)))))
         == Dims(At(x, Metre).power, At(x, Gram).power, At(x, Second).power, At(x, Ampere).power, At(x, Kelvin).power)
  {
  }

  // ---------------------------------------------------------------------------
  // Derived symbols against their expansions

  /** One power of a derived symbol resolves to its expansion's dimensions
      and to the expansion's exponent, plus the electronvolt's constant. */
  lemma DerivedSlot(s: Symbol)
    requires !IsBase(s)
    ensures SymbolScale(s, Entry(NoPrefix, 1)) == Scale(ExpansionExponent(s), if s == ElectronVolt then 1 else 0)
    ensures SymbolDims(s, Entry(NoPrefix, 1)) == ExpansionDims(s)
  {
    hide Expansion, ExpansionDims, At;
    ExpansionBaseSlots(s);
  }

  /** One power of a derived symbol has the dimensions of its expansion,
      and its factor is the expansion's times the symbol's own constant. */
  lemma DerivedScaled(s: Symbol)
    requires !IsBase(s)
    ensures SameDims(Single(s, Entry(NoPrefix, 1)), Expansion(s))
    ensures Factor(Single(s, Entry(NoPrefix, 1)))
         == Factor(Expansion(s)) * (if s == ElectronVolt then ElectronVoltConstant else 1.0)
  {
    hide FactorOver, ExponentsOver, DimsOver, SymbolScale, SymbolDims, Value, RealPow, At, With, Single, Expansion, ExpansionDims;
    var e := Entry(NoPrefix, 1);
    SingleResolves(s, e);
    ExpansionResolves(s);
    DerivedSlot(s);
    FactorIsValue(Single(s, e));
    FactorIsValue(Expansion(s));
    if s == ElectronVolt {
      ValueSplit(ExpansionExponent(s));
    }
  }

  /** One power of a derived symbol with no constant of its own has the same
      factor and dimensions as its expansion. */
  lemma DerivedIsExpansion(s: Symbol)
    requires !IsBase(s) && DerivedConstant(s).None?
    ensures Equal(Single(s, Entry(NoPrefix, 1)), Expansion(s))
  {
    hide Factor, BaseDims, Single, Expansion, ElectronVoltConstant;
    DerivedScaled(s);
    assert s != ElectronVolt;
  }

  lemma ValueSplit(t: int)
    ensures Value(Scale(t, 1)) == Value(Scale(t, 0)) * ElectronVoltConstant
  {
    hide RealPow;
    ValuePlus(Scale(t, 0), Scale(0, 1));
    ValueForm(0, 1);
    RealPowFirst(ElectronVoltConstant);
    RealPowZero(10.0);
  }

  /** A bare symbol reads as one power of that symbol. */
  lemma ParseSymbol(s: Symbol)
    ensures Parse(SymbolText(s)) == Ok(Single(s, Entry(NoPrefix, 1)))
  {
    var tok := Token(NoPrefix, s, None);
    assert TokenText(tok) == SymbolText(s);
    ParsesAs1(tok, SymbolText(s));
    Apply1(Dimensionless, tok);
  }

  /** Comparing a derived symbol with its expansion text gives true, except
      for the electronvolt, which carries a constant. */
  lemma DerivedEqualsExpansionText(s: Symbol)
    requires !IsBase(s)
    ensures Parse(SymbolText(s)).Ok?
    ensures EqualsText(Parse(SymbolText(s)).value, ExpansionText(s)) == Ok(DerivedConstant(s).None?)
  {
    hide Parse, EqualsText, Factor, BaseDims, FactorOver, DimsOver, Single, Expansion, ExpansionText, SymbolText;
    ParseSymbol(s);
    ExpansionParses(s);
    DerivedScaled(s);
    EqualsTextOk(Single(s, Entry(NoPrefix, 1)), ExpansionText(s));
    if s == ElectronVolt {
      ElectronVoltConstantNotOne();
    }
  }

  lemma ElectronVoltConstantNotOne()
    ensures Factor(Expansion(ElectronVolt)) * ElectronVoltConstant != Factor(Expansion(ElectronVolt))
  {
    FactorPositive(Expansion(ElectronVolt));
  }

  /** `Unit("J") == "kg m^2 s^-2"`. */
  lemma JouleEqualsBaseUnits()
    ensures Parse("J").Ok? && EqualsText(Parse("J").value, "kg m^2 s^-2") == Ok(true)
  {
    DerivedEqualsExpansionText(Joule);
  }

  /** `Unit("km") == "m"` is false: the prefix scales the factor by a thousand. */
  lemma KilometreIsNotMetre()
    ensures Parse("km").Ok? && EqualsText(Parse("km").value, "m") == Ok(false)
    ensures Factor(Parse("km").value) == 1000.0 * Factor(Parse("m").value)
  {
    hide *;
    ParseKilometre();
    ParseSymbol(Metre);
    MetreText();
    KilometreFactor();
    FactorPositive(Single(Metre, Entry(NoPrefix, 1)));
    NotEqualIntro(Single(Metre, Entry(Kilo, 1)), Single(Metre, Entry(NoPrefix, 1)));
    EqualsTextOk(Single(Metre, Entry(Kilo, 1)), "m");
  }

  lemma MetreText()
    ensures SymbolText(Metre) == "m"
  {
  }

  lemma ParseKilometre()
    ensures Parse("km") == Ok(Single(Metre, Entry(Kilo, 1)))
  {
    var km := Token(Kilo, Metre, None);
    assert TokenText(km) == "km";
    ParsesAs1(km, "km");
    Apply1(Dimensionless, km);
  }

  lemma KilometreFactor()
    ensures Factor(Single(Metre, Entry(Kilo, 1))) == 1000.0 * Factor(Single(Metre, Entry(NoPrefix, 1)))
  {
    hide Factor, FactorOver, Single, RealPow, PrefixExponent;
    PrefixedBase(Metre, Kilo);
    PrefixedBase(Metre, NoPrefix);
    KiloNoPrefix();
    ThousandIsPower();
    RealPowZero(10.0);
  }

  lemma KiloNoPrefix()
    ensures PrefixExponent(Kilo) == 3 && PrefixExponent(NoPrefix) == 0
  {
  }

  /** A prefix on one power of a base unit makes the factor its power of ten. */
  lemma PrefixedBase(s: Symbol, p: Prefix)
    requires IsBase(s)
    ensures Factor(Single(s, Entry(p, 1))) == RealPow(10.0, PrefixExponent(p))
  {
    hide FactorOver, ExponentsOver, DimsOver, Value, RealPow, At, With, Single, Exponents;
    SingleResolves(s, Entry(p, 1));
    FactorIsValue(Single(s, Entry(p, 1)));
    ValueTen(PrefixExponent(p));
  }

  lemma ThousandIsPower()
    ensures RealPow(10.0, 3) == 1000.0
  {
  }

  lemma NotEqualIntro(a: Unit, b: Unit)
    requires Factor(b) > 0.0 && Factor(a) == 1000.0 * Factor(b)
    ensures !Equal(a, b)
  {
  }

  lemma EqualsTextOk(u: Unit, text: string)
    requires Parse(text).Ok?
    ensures EqualsText(u, text) == Ok(Equal(u, Parse(text).value))
  {
  }

  // ---------------------------------------------------------------------------
  // Prefixes with no symbol after them

  /** `Unit("m2")`: the `m` is read as milli since a word character follows,
      and no symbol starts at `2`. */
  lemma MilliTwoFails()
    ensures Parse("m2") == Err(BadUnit(UnknownCharacter('m')))
  {
    assert "m2" == ['m'] + "2";
    assert SymbolAt("2").None?;
    PrefixWithoutSymbolStep('m', "2", false, Dimensionless);
    ParseNoBraces("m2");
  }

  /** `Unit("u")`: a prefix on its own is an unknown character. */
  lemma LoneMicroFails()
    ensures Parse("u") == Err(BadUnit(UnknownCharacter('u')))
  {
    assert "u" == ['u'] + [];
    LonePrefixStep('u', [], false, Dimensionless);
    ParseNoBraces("u");
  }
}

=== FILE: unit_laws.dfy ===
/** Laws of the unit operations: resolution is a homomorphism (products
    multiply factors and add dimensions, reciprocals and powers act on both),
    the product commutes, a quotient is a product with the reciprocal, and
    unit equality is preserved by products. */
module UnitLaws {
  import opened Wrappers
  import opened Powers
  import opened Symbols
  import opened Errors
  import opened Units
  import opened UnitAlgebra

  // ---------------------------------------------------------------------------
  // Slot-level facts

  lemma MulAt(a: Unit, b: Unit, r: Unit, s: Symbol)
    requires Mul(a, b) == Ok(r)
    ensures !Clash(At(a, s), At(b, s))
    ensures At(r, s) == Combine(At(a, s), At(b, s), At(a, s).power + At(b, s).power)
  {
  }

  lemma DivAt(a: Unit, b: Unit, r: Unit, s: Symbol)
    requires Div(a, b) == Ok(r)
    ensures !Clash(At(a, s), At(b, s))
    ensures At(r, s) == Combine(At(a, s), At(b, s), At(a, s).power - At(b, s).power)
  {
  }

  /** The dimensions of a slot depend only on its power. */
  lemma SymbolDimsLinear(s: Symbol, e: Entry)
    ensures SymbolDims(s, e) == SymbolVector(s).Times(e.power)
  {
    if !IsBase(s) {
      var x := Expansion(s);
      var d := ExpansionDims(s);
      assert At(x, Metre).power == d.metre;
      assert At(x, Gram).power == d.gram;
      assert At(x, Second).power == d.second;
      assert At(x, Ampere).power == d.ampere;
      assert At(x, Kelvin).power == d.kelvin;
    }
  }

  lemma TimesAdd(d: Dims, m: int, n: int)
    ensures d.Times(m + n) == d.Times(m).Plus(d.Times(n))
  {
    assert d.metre * (m + n) == d.metre * m + d.metre * n;
    assert d.gram * (m + n) == d.gram * m + d.gram * n;
    assert d.second * (m + n) == d.second * m + d.second * n;
    assert d.ampere * (m + n) == d.ampere * m + d.ampere * n;
    assert d.kelvin * (m + n) == d.kelvin * m + d.kelvin * n;
  }

  /** A combined slot contributes the sum of its two sides' contributions. */
  lemma CombineResolves(s: Symbol, x: Entry, y: Entry, q: int)
    requires !Clash(x, y)
    requires q == x.power + y.power
    ensures SymbolScale(s, Combine(x, y, q)) == SymbolScale(s, x).Plus(SymbolScale(s, y))
    ensures SymbolDims(s, Combine(x, y, q)) == SymbolDims(s, x).Plus(SymbolDims(s, y))
  {
    CombineScale(s, x, y, q);
    CombineDims(s, x, y, q);
  }

  lemma CombineDims(s: Symbol, x: Entry, y: Entry, q: int)
    requires !Clash(x, y)
    requires q == x.power + y.power
    ensures SymbolDims(s, Combine(x, y, q)) == SymbolDims(s, x).Plus(SymbolDims(s, y))
  {
    var c := Combine(x, y, q);
    assert c.power == q;
    SymbolDimsLinear(s, c);
    SymbolDimsLinear(s, x);
    SymbolDimsLinear(s, y);
    TimesAdd(SymbolVector(s), x.power, y.power);
  }

  lemma CombineScale(s: Symbol, x: Entry, y: Entry, q: int)
    requires !Clash(x, y)
    requires q == x.power + y.power
    ensures SymbolScale(s, Combine(x, y, q)) == SymbolScale(s, x).Plus(SymbolScale(s, y))
  {
    var c := Combine(x, y, q);
    if x.power == 0 {
      ScaleZero(s, x);
      assert c == y || (c == Blank && y.power == 0);
      ScaleZero(s, Blank);
    } else if y.power == 0 {
      ScaleZero(s, y);
      assert c == x;
    } else {
      var one := Entry(x.prefix, 1);
      ScaleLinear(s, x);
      ScaleLinear(s, Entry(x.prefix, q));
      assert y == Entry(x.prefix, y.power);
      ScaleLinear(s, y);
      ScaleTimesAdd(SymbolScale(s, one), x.power, y.power);
      if q == 0 {
        ScaleZero(s, Blank);
        ScaleZero(s, Entry(x.prefix, q));
      } else {
        assert c == Entry(x.prefix, q);
      }
    }
  }

  lemma ScaleZero(s: Symbol, e: Entry)
    requires e.power == 0
    ensures SymbolScale(s, e) == Scale(0, 0)
  {
  }

  /** A slot's scale is linear in its power. */
  lemma ScaleLinear(s: Symbol, e: Entry)
    ensures SymbolScale(s, e) == SymbolScale(s, Entry(e.prefix, 1)).Times(e.power)
  {
  }

  lemma ScaleTimesAdd(sc: Scale, m: int, n: int)
    ensures sc.Times(m + n) == sc.Times(m).Plus(sc.Times(n))
  {
    assert sc.ten * (m + n) == sc.ten * m + sc.ten * n;
    assert sc.ev * (m + n) == sc.ev * m + sc.ev * n;
  }

  // ---------------------------------------------------------------------------
  // Sums over the symbol table, one step at a time

  lemma ExpStep(u: Unit, syms: seq<Symbol>)
    requires syms != []
    ensures ExponentsOver(u, syms) == SymbolScale(syms[0], At(u, syms[0])).Plus(ExponentsOver(u, syms[1..]))
    ensures DimsOver(u, syms) == SymbolDims(syms[0], At(u, syms[0])).Plus(DimsOver(u, syms[1..]))
  {
  }

  lemma ScaleSwap(x: Scale, y: Scale, z: Scale, w: Scale)
    ensures x.Plus(y).Plus(z.Plus(w)) == x.Plus(z).Plus(y.Plus(w))
  {
  }

  lemma DimsSwap(x: Dims, y: Dims, z: Dims, w: Dims)
    ensures x.Plus(y).Plus(z.Plus(w)) == x.Plus(z).Plus(y.Plus(w))
  {
  }

  lemma SumNil(a: Unit, b: Unit, r: Unit, syms: seq<Symbol>)
    requires syms == []
    ensures ExponentsOver(r, syms) == ExponentsOver(a, syms).Plus(ExponentsOver(b, syms))
    ensures DimsOver(r, syms) == DimsOver(a, syms).Plus(DimsOver(b, syms))
  {
    ScaleNil(a, b, r, syms);
    DimsNil(a, b, r, syms);
  }

  lemma ScaleNil(a: Unit, b: Unit, r: Unit, syms: seq<Symbol>)
    requires syms == []
    ensures ExponentsOver(r, syms) == ExponentsOver(a, syms).Plus(ExponentsOver(b, syms))
  {
  }

  lemma DimsNil(a: Unit, b: Unit, r: Unit, syms: seq<Symbol>)
    requires syms == []
    ensures DimsOver(r, syms) == DimsOver(a, syms).Plus(DimsOver(b, syms))
  {
  }

  lemma TimesNil(u: Unit, v: Unit, n: int, syms: seq<Symbol>)
    requires syms == []
    ensures ExponentsOver(v, syms) == ExponentsOver(u, syms).Times(n)
    ensures DimsOver(v, syms) == DimsOver(u, syms).Times(n)
  {
  }

  lemma ScaleTimesPlus(x: Scale, y: Scale, n: int)
    ensures x.Plus(y).Times(n) == x.Times(n).Plus(y.Times(n))
  {
    assert (x.ten + y.ten) * n == x.ten * n + y.ten * n;
    assert (x.ev + y.ev) * n == x.ev * n + y.ev * n;
  }

  lemma TimesPlus(d: Dims, e: Dims, n: int)
    ensures d.Plus(e).Times(n) == d.Times(n).Plus(e.Times(n))
  {
    assert (d.metre + e.metre) * n == d.metre * n + e.metre * n;
    assert (d.gram + e.gram) * n == d.gram * n + e.gram * n;
    assert (d.second + e.second) * n == d.second * n + e.second * n;
    assert (d.ampere + e.ampere) * n == d.ampere * n + e.ampere * n;
    assert (d.kelvin + e.kelvin) * n == d.kelvin * n + e.kelvin * n;
  }

  lemma TimesScale(d: Dims, m: int, n: int)
    ensures d.Times(m * n) == d.Times(m).Times(n)
  {
    assert d.metre * (m * n) == (d.metre * m) * n;
    assert d.gram * (m * n) == (d.gram * m) * n;
    assert d.second * (m * n) == (d.second * m) * n;
    assert d.ampere * (m * n) == (d.ampere * m) * n;
    assert d.kelvin * (m * n) == (d.kelvin * m) * n;
  }

  // ---------------------------------------------------------------------------
  // Products

  /** One slot of a product resolves to the sum of the two slots. */
  lemma MulStep(a: Unit, b: Unit, r: Unit, s: Symbol)
    requires Mul(a, b) == Ok(r)
    ensures SymbolScale(s, At(r, s)) == SymbolScale(s, At(a, s)).Plus(SymbolScale(s, At(b, s)))
    ensures SymbolDims(s, At(r, s)) == SymbolDims(s, At(a, s)).Plus(SymbolDims(s, At(b, s)))
  {
    hide *;
    MulAt(a, b, r, s);
    CombineResolves(s, At(a, s), At(b, s), At(a, s).power + At(b, s).power);
  }

  lemma {:induction false} MulOver(a: Unit, b: Unit, r: Unit, syms: seq<Symbol>)
    requires Mul(a, b) == Ok(r)
    ensures ExponentsOver(r, syms) == ExponentsOver(a, syms).Plus(ExponentsOver(b, syms))
    ensures DimsOver(r, syms) == DimsOver(a, syms).Plus(DimsOver(b, syms))
  {
    hide *;
    if syms == [] {
      SumNil(a, b, r, syms);
    } else {
      var s, rest := syms[0], syms[1..];
      MulOver(a, b, r, rest);
      MulStep(a, b, r, s);
      ExpStep(r, syms);
      ExpStep(a, syms);
      ExpStep(b, syms);
      ScaleSwap(SymbolScale(s, At(a, s)), SymbolScale(s, At(b, s)), ExponentsOver(a, rest), ExponentsOver(b, rest));
      DimsSwap(SymbolDims(s, At(a, s)), SymbolDims(s, At(b, s)), DimsOver(a, rest), DimsOver(b, rest));
    }
  }

  /** Multiplying units multiplies their factors and adds their dimensions. */
  lemma MulResolves(a: Unit, b: Unit, r: Unit)
    requires Mul(a, b) == Ok(r)
    ensures Factor(r) == Factor(a) * Factor(b)
    ensures BaseDims(r) == BaseDims(a).Plus(BaseDims(b))
  {
    hide ExponentsOver, DimsOver, FactorOver, Value, RealPow, Mul;
    MulOver(a, b, r, KnownUnits);
    FactorIsValue(a);
    FactorIsValue(b);
    FactorIsValue(r);
    ValuePlus(Exponents(a), Exponents(b));
  }

  // ---------------------------------------------------------------------------
  // Integer powers and reciprocals

  /** One slot of a power resolves to the slot's resolution times the exponent. */
  lemma PowStep(u: Unit, n: int, s: Symbol)
    ensures SymbolScale(s, At(Pow(u, n), s)) == SymbolScale(s, At(u, s)).Times(n)
    ensures SymbolDims(s, At(Pow(u, n), s)) == SymbolDims(s, At(u, s)).Times(n)
  {
    hide *;
    var e := At(u, s);
    var p := At(Pow(u, n), s);
    PowAt(u, n, s);
    ScaleLinear(s, e);
    ScaleLinear(s, p);
    ScaleTimesMul(SymbolScale(s, Entry(e.prefix, 1)), e.power, n);
    SymbolDimsLinear(s, e);
    SymbolDimsLinear(s, p);
    TimesScale(SymbolVector(s), e.power, n);
  }

  lemma PowAt(u: Unit, n: int, s: Symbol)
    ensures At(Pow(u, n), s) == Entry(At(u, s).prefix, At(u, s).power * n)
  {
  }

  lemma ScaleTimesMul(sc: Scale, m: int, n: int)
    ensures sc.Times(m * n) == sc.Times(m).Times(n)
  {
    assert sc.ten * (m * n) == (sc.ten * m) * n;
    assert sc.ev * (m * n) == (sc.ev * m) * n;
  }

  lemma {:induction false} PowOver(u: Unit, n: int, syms: seq<Symbol>)
    ensures ExponentsOver(Pow(u, n), syms) == ExponentsOver(u, syms).Times(n)
    ensures DimsOver(Pow(u, n), syms) == DimsOver(u, syms).Times(n)
  {
    hide *;
    if syms == [] {
      TimesNil(u, Pow(u, n), n, syms);
    } else {
      var s, rest := syms[0], syms[1..];
      PowOver(u, n, rest);
      PowStep(u, n, s);
      ExpStep(u, syms);
      ExpStep(Pow(u, n), syms);
      ScaleTimesPlus(SymbolScale(s, At(u, s)), ExponentsOver(u, rest), n);
      TimesPlus(SymbolDims(s, At(u, s)), DimsOver(u, rest), n);
    }
  }

  /** The factor of `n` times a scale is the factor raised to `n`. */
  lemma ValueTimes(sc: Scale, n: int)
    ensures Value(sc.Times(n)) == RealPow(Value(sc), n)
  {
    hide *;
    ElectronVoltPositive();
    var a, b := RealPow(10.0, sc.ten), RealPow(ElectronVoltConstant, sc.ev);
    RealPowMul(10.0, sc.ten, n);
    RealPowMul(ElectronVoltConstant, sc.ev, n);
    ValueForm(sc.ten, sc.ev);
    ScaleTimes(sc, n);
    ValueForm(sc.ten * n, sc.ev * n);
    RealPowProduct(a, b, n);
    assert Value(sc) == a * b;
    assert RealPow(Value(sc), n) == RealPow(a, n) * RealPow(b, n);
    assert RealPow(a, n) == RealPow(10.0, sc.ten * n);
    assert RealPow(b, n) == RealPow(ElectronVoltConstant, sc.ev * n);
    assert Value(sc.Times(n)) == RealPow(10.0, sc.ten * n) * RealPow(ElectronVoltConstant, sc.ev * n);
  }

  lemma ScaleTimes(sc: Scale, n: int)
    ensures sc.Times(n) == Scale(sc.ten * n, sc.ev * n)
    ensures sc == Scale(sc.ten, sc.ev)
  {
  }

  /** Raising a unit to an integer power raises its factor and scales its dimensions. */
  lemma PowResolves(u: Unit, n: int)
    ensures Factor(u) != 0.0 && Factor(Pow(u, n)) == RealPow(Factor(u), n)
    ensures BaseDims(Pow(u, n)) == BaseDims(u).Times(n)
  {
    hide ExponentsOver, DimsOver, FactorOver, Value, RealPow, Pow;
    PowOver(u, n, KnownUnits);
    FactorIsValue(u);
    FactorIsValue(Pow(u, n));
    ValueTimes(Exponents(u), n);
  }

  /** The reciprocal of a unit is its power `-1`. */
  lemma InvIsPow(u: Unit)
    ensures Inv(u) == Pow(u, -1)
  {
    Ext(Inv(u), Pow(u, -1));
  }

  /** The reciprocal unit has the reciprocal factor and negated dimensions. */
  lemma InvResolves(u: Unit)
    ensures Factor(Inv(u)) * Factor(u) == 1.0
    ensures BaseDims(Inv(u)).Plus(BaseDims(u)) == NoDims
  {
    hide ExponentsOver, DimsOver, FactorOver, RealPow;
    InvIsPow(u);
    PowResolves(u, -1);
    RealPowAdd(Factor(u), -1, 1);
    RealPowZero(Factor(u));
    RealPowFirst(Factor(u));
    var d := BaseDims(u);
    assert d.Times(-1).Plus(d) == NoDims;
  }

  /** `c / u` for a number `c` has the reciprocal factor and the negated
      dimensions of `u`, whatever `c` is. */
  lemma NumberOverResolves(c: real, u: Unit)
    ensures Factor(NumberOver(c, u)) * Factor(u) == 1.0
    ensures BaseDims(NumberOver(c, u)).Plus(BaseDims(u)) == NoDims
  {
    hide Factor, BaseDims, ExponentsOver, DimsOver, FactorOver, RealPow;
    assert NumberOver(c, u) == Inv(u);
    InvResolves(u);
  }

  /** Multiplying by a number agrees with multiplying by the empty unit. */
  lemma MulNumberIsMulDimensionless(u: Unit, c: real)
    ensures Mul(u, Dimensionless).Ok?
    ensures Equal(Mul(u, Dimensionless).value, MulNumber(u, c))
  {
    MulDimensionless(u);
  }

  lemma InvInvolution(u: Unit)
    ensures Inv(Inv(u)) == u
  {
    Ext(Inv(Inv(u)), u);
  }

  // ---------------------------------------------------------------------------
  // Quotients

  /** Dividing by a unit is multiplying by its reciprocal. */
  lemma DivIsMulInv(a: Unit, b: Unit)
    ensures Div(a, b) == Mul(a, Inv(b))
  {
    var ib := Inv(b);
    assert forall s: Symbol :: Clash(At(a, s), At(ib, s)) == Clash(At(a, s), At(b, s));
    if Div(a, b).Ok? {
      var d := Div(a, b).value;
      var m := Mul(a, ib).value;
      forall s: Symbol
        ensures At(d, s) == At(m, s)
      {
        DivAt(a, b, d, s);
        MulAt(a, ib, m, s);
      }
      Ext(d, m);
    }
  }

  /** Dividing units divides their factors and subtracts their dimensions. */
  lemma DivResolves(a: Unit, b: Unit, r: Unit)
    requires Div(a, b) == Ok(r)
    ensures Factor(r) * Factor(b) == Factor(a)
    ensures BaseDims(r).Plus(BaseDims(b)) == BaseDims(a)
  {
    hide *;
    DivIsMulInv(a, b);
    MulResolves(a, Inv(b), r);
    InvResolves(b);
    DivAlgebra(Factor(r), Factor(a), Factor(Inv(b)), Factor(b));
    DimsCancel(BaseDims(r), BaseDims(a), BaseDims(Inv(b)), BaseDims(b));
  }

  lemma DivAlgebra(r: real, a: real, i: real, b: real)
    requires r == a * i && i * b == 1.0
    ensures r * b == a
  {
    assert r * b == a * (i * b);
  }

  lemma DimsCancel(r: Dims, a: Dims, i: Dims, b: Dims)
    requires r == a.Plus(i) && i.Plus(b) == NoDims
    ensures r.Plus(b) == a
  {
  }

  // ---------------------------------------------------------------------------
  // Real exponents

  /** A whole-number real exponent behaves as the integer power. */
  lemma PowRealIntegral(u: Unit, n: int)
    ensures PowReal(u, n as real) == Ok(Pow(u, n))
  {
    forall s: Symbol
      ensures Scaled(At(u, s).power, n as real) == (At(u, s).power * n) as real
    {
      CastProduct(At(u, s).power, n);
    }
    var r := PowReal(u, n as real).value;
    Ext(r, Pow(u, n));
  }

  lemma CastProduct(p: int, n: int)
    ensures Scaled(p, n as real) == (p * n) as real
  {
  }

  // ---------------------------------------------------------------------------
  // Algebraic laws

  /** The product of units does not depend on the order of its operands. */
  lemma MulCommutes(a: Unit, b: Unit)
    ensures Mul(a, b) == Mul(b, a)
  {
    if Mul(a, b).Ok? {
      var r := Mul(a, b).value;
      var q := Mul(b, a).value;
      forall s: Symbol
        ensures At(r, s) == At(q, s)
      {
        MulAt(a, b, r, s);
        MulAt(b, a, q, s);
      }
      Ext(r, q);
    }
  }

  /** Multiplying a unit by itself always succeeds and gives its square. */
  lemma MulSelf(u: Unit)
    ensures Mul(u, u).Ok?
    ensures Equal(Mul(u, u).value, Pow(u, 2))
  {
    MulSelfOk(u);
    var r := Mul(u, u).value;
    hide *;
    MulResolves(u, u, r);
    SquareResolves(u);
    EqualIntro(r, Pow(u, 2));
  }

  lemma SquareResolves(u: Unit)
    ensures Factor(Pow(u, 2)) == Factor(u) * Factor(u)
    ensures BaseDims(Pow(u, 2)) == BaseDims(u).Plus(BaseDims(u))
  {
    hide *;
    PowResolves(u, 2);
    var f := Factor(u);
    RealPowAdd(f, 1, 1);
    RealPowFirst(f);
    TimesAdd(BaseDims(u), 1, 1);
    TimesOne(BaseDims(u));
  }

  lemma EqualIntro(a: Unit, b: Unit)
    requires Factor(a) == Factor(b) && BaseDims(a) == BaseDims(b)
    ensures Equal(a, b)
  {
  }

  lemma MulSelfOk(u: Unit)
    ensures Mul(u, u).Ok?
  {
    assert forall s: Symbol :: !Clash(At(u, s), At(u, s));
  }

  lemma TimesOne(d: Dims)
    ensures d.Times(1) == d
  {
  }

  /** Products respect unit equality. */
  lemma MulRespectsEqual(a: Unit, a': Unit, b: Unit, b': Unit, r: Unit, r': Unit)
    requires Equal(a, a') && Equal(b, b')
    requires Mul(a, b) == Ok(r) && Mul(a', b') == Ok(r')
    ensures Equal(r, r')
  {
    hide Factor, BaseDims, Mul;
    MulResolves(a, b, r);
    MulResolves(a', b', r');
  }

  /** The dimensionless unit resolves to factor one and no dimensions. */
  lemma DimensionlessResolves()
    ensures Factor(Dimensionless) == 1.0 && BaseDims(Dimensionless) == NoDims
  {
    hide ExponentsOver, DimsOver, FactorOver, RealPow, Factor, BaseDims;
    assert Pow(Dimensionless, 0) == Dimensionless by {
      Ext(Pow(Dimensionless, 0), Dimensionless);
    }
    PowResolves(Dimensionless, 0);
    RealPowZero(Factor(Dimensionless));
    TimesZero(BaseDims(Dimensionless));
  }

  lemma TimesZero(d: Dims)
    ensures d.Times(0) == NoDims
  {
  }

  /** Multiplying by the dimensionless unit changes nothing a unit resolves to. */
  lemma MulDimensionless(u: Unit)
    ensures Mul(u, Dimensionless).Ok?
    ensures Equal(Mul(u, Dimensionless).value, u)
  {
    assert forall s: Symbol :: At(Dimensionless, s) == Blank;
    var r := Mul(u, Dimensionless).value;
    hide *;
    MulResolves(u, Dimensionless, r);
    DimensionlessResolves();
    PlusNoDims(BaseDims(u));
  }

  lemma PlusNoDims(d: Dims)
    ensures d.Plus(NoDims) == d
  {
  }
}

=== FILE: unit_parse.dfy ===
/** The unit-string parser. It scans the string left to right; at each
    position it takes an optional `/` (every later power is negated; a second
    one is an error), an optional one-character prefix that must be followed
    by a word character, a known symbol, and an optional `^`, `-` and digits.
    Spaces and the digit `1` are skipped; anything else is an error. A symbol
    that appears twice keeps its last occurrence. Braces are rewritten to
    parentheses before scanning, so they are rejected like parentheses. */
module UnitParse {
  import opened Wrappers
  import opened Symbols
  import opened Errors
  import opened Units
  import opened Numerals

  /** The characters `\w` matches, restricted to ASCII and the micro sign. */
  predicate IsWordChar(c: char) {
    'a' <= c <= 'z' || 'A' <= c <= 'Z' || IsDigit(c) || c == '_' || c == 'µ'
  }

  /** The prefix pattern: a prefix character followed by a word character. */
  function PrefixAt(t: string): (r: Option<Prefix>)
    ensures r.Some? ==> |t| >= 2 && IsWordChar(t[1]) && PrefixText(r.value) == [t[0]]
    ensures r.Some? <==> |t| >= 2 && IsWordChar(t[1]) && PrefixOfChar(t[0]).Some?
  {
    if |t| >= 2 && IsWordChar(t[1]) then PrefixOfChar(t[0]) else None
  }

  /** The single-character symbols, which the symbol pattern tries first. */
  function SymbolOfChar(c: char): (r: Option<Symbol>)
    ensures r.Some? ==> SymbolText(r.value) == [c]
  {
    match c
    case 'J' => Some(Joule)
    case 'V' => Some(Volt)
    case 'N' => Some(Newton)
    case 'W' => Some(Watt)
    case 'T' => Some(Tesla)
    case 'C' => Some(Celsius)
    case 'm' => Some(Metre)
    case 'g' => Some(Gram)
    case 's' => Some(Second)
    case 'A' => Some(Ampere)
    case 'K' => Some(Kelvin)
    case _ => None
  }

  /** The symbol pattern: a single-character symbol, else `Pa`, `Hz` or `eV`. */
  function SymbolAt(t: string): (r: Option<Symbol>)
    ensures r.Some? ==> SymbolText(r.value) <= t
  {
    if t == [] then None
    else if SymbolOfChar(t[0]).Some? then SymbolOfChar(t[0])
    else if "Pa" <= t then Some(Pascal)
    else if "Hz" <= t then Some(Hertz)
    else if "eV" <= t then Some(ElectronVolt)
    else None
  }

  /** A match of the power pattern: the signed value and the characters consumed. */
  datatype PowerMatch = PowerMatch(value: int, length: nat)

  /** The power pattern `^`, optional `-`, one or more digits. */
  function PowerAt(t: string): (r: Option<PowerMatch>)
    ensures r.Some? ==> 2 <= r.value.length <= |t| && t[0] == '^'
  {
    if |t| >= 2 && t[0] == '^' then
      if t[1] == '-' && DigitRun(t[2..]) > 0 then
        var k := DigitRun(t[2..]);
        Some(PowerMatch(-(DigitsValue(t[2..][..k]) as int), 2 + k))
      else if DigitRun(t[1..]) > 0 then
        var k := DigitRun(t[1..]);
        Some(PowerMatch(DigitsValue(t[1..][..k]), 1 + k))
      else
        None
    else
      None
  }

  /** A symbol with its power, and the characters they take up. */
  datatype SymbolMatch = SymbolMatch(sym: Symbol, power: int, length: nat)

  /** A symbol at the start of `t` and the power pattern right after it; the
      power is 1 when no power pattern follows. */
  function SymbolPowerAt(t: string): (r: Option<SymbolMatch>)
    ensures r.Some? ==> 1 <= r.value.length <= |t|
  {
    match SymbolAt(t)
    case None => None
    case Some(s) =>
      var after := t[|SymbolText(s)|..];
      match PowerAt(after)
      case None => Some(SymbolMatch(s, 1, |SymbolText(s)|))
      case Some(pm) => Some(SymbolMatch(s, pm.value, |SymbolText(s)| + pm.length))
  }

  /** A prefixed symbol with its power, as one pass of the scanning loop
      reads it from the start of the text. */
  datatype TokenMatch = TokenMatch(prefix: Prefix, sym: Symbol, power: int, length: nat)

  /** The token at the start of `t`: an optional prefix, then a symbol and its
      power. */
  function TokenAt(t: string): (r: Option<TokenMatch>)
    ensures r.Some? ==> 1 <= r.value.length <= |t|
  {
    var p := PrefixAt(t);
    var k := if p.Some? then 1 else 0;
    match SymbolPowerAt(t[k..])
    case None => None
    case Some(m) => Some(TokenMatch(if p.Some? then p.value else NoPrefix, m.sym, m.power, k + m.length))
  }

  /** What one pass of the scanning loop does. */
  datatype Scan =
    | Fail(error: ParseError)
    | Skip(rest: string, flip: bool)
    | Assign(rest: string, flip: bool, sym: Symbol, entry: Entry)

  /** One pass after the optional `/`: read a token, or skip a space or `1`,
      or fail on anything else. */
  function StepBody(body: string, flipped: bool): (r: Scan)
    ensures !r.Fail? ==> |r.rest| < |body|
  {
    match TokenAt(body)
    case Some(m) =>
      Assign(body[m.length..], flipped, m.sym, Entry(m.prefix, if flipped then -m.power else m.power))
    case None =>
      if body == [] then Fail(NothingAfterSlash)
      else if body[0] == '(' || body[0] == ')' then Fail(Parentheses)
      else if body[0] != ' ' && body[0] != '1' then Fail(UnknownCharacter(body[0]))
      else Skip(body[1..], flipped)
  }

  /** One pass of the loop on a nonempty rest `t`; `flip` records a `/`
      already seen. */
  function Step(t: string, flip: bool): (r: Scan)
    requires t != []
    ensures !r.Fail? ==> |r.rest| < |t|
  {
    if t[0] == '/' then
      if flip then Fail(TwoSlashes) else StepBody(t[1..], true)
    else
      StepBody(t, flip)
  }

  /** Scans the rest `t` of the string; `flip` records a `/` already seen and
      `acc` the slots assigned so far. */
  function ParseFrom(t: string, flip: bool, acc: Unit): Result<Unit, ParseError>
    decreases |t|
  {
    if t == [] then Ok(acc)
    else
      match Step(t, flip)
      case Fail(e) => Err(e)
      case Skip(rest, f) => ParseFrom(rest, f, acc)
      case Assign(rest, f, s, e) => ParseFrom(rest, f, With(acc, s, e))
  }

  function SwapBrace(c: char): char {
    if c == '{' then '(' else if c == '}' then ')' else c
  }

  /** The rewrite of `{` to `(` and `}` to `)` applied before scanning. */
  function Braces(t: string): (r: string)
    ensures |r| == |t|
  {
    if t == [] then [] else [SwapBrace(t[0])] + Braces(t[1..])
  }

  /** The rewrite leaves no brace behind, turns each one into the matching
      parenthesis, and keeps every other character in place. */
  lemma {:induction false} BracesRewrite(t: string)
    ensures forall i :: 0 <= i < |t| ==> Braces(t)[i] != '{' && Braces(t)[i] != '}'
    ensures forall i :: 0 <= i < |t| ==> (t[i] == '{' ==> Braces(t)[i] == '(') && (t[i] == '}' ==> Braces(t)[i] == ')')
    ensures forall i :: 0 <= i < |t| && t[i] != '{' && t[i] != '}' ==> Braces(t)[i] == t[i]
  {
    if t != [] {
      BracesRewrite(t[1..]);
      assert forall i :: 1 <= i < |t| ==> Braces(t)[i] == Braces(t[1..])[i - 1] && t[i] == t[1..][i - 1];
    }
  }

  /** `Unit(text)` for a string. */
  function Parse(text: string): Result<Unit, Error> {
    match ParseFrom(Braces(text), false, Dimensionless)
    case Ok(u) => Ok(u)
    case Err(e) => Err(BadUnit(e))
  }
}

=== FILE: unit_print.dfy ===
/** Printing a unit (`repr`) and comparing a unit with a unit string. The
    printed form lists, in symbol-table order, every symbol whose power is not
    zero, as prefix, symbol and power, separated by single spaces: no power is
    written for 1, a positive power as `^n`, a negative one as `^{-n}`. The
    parser rewrites those braces to parentheses and stops at the `^`, so the
    printed form reads back exactly when no power is negative. */
module UnitPrint {
  import opened Wrappers
  import opened Symbols
  import opened Errors
  import opened Units
  import opened Numerals
  import opened UnitParse
  import opened ParseSteps

  function PowerSuffix(n: int): string {
    if n == 1 then "" else if n > 0 then "^" + IntToString(n) else "^{" + IntToString(n) + "}"
  }

  /** One printed slot. */
  function Word(s: Symbol, e: Entry): string {
    PrefixText(e.prefix) + SymbolText(s) + PowerSuffix(e.power)
  }

  /** The printed slots of `u` among `ss`, in order, skipping power zero. */
  function Words(u: Unit, ss: seq<Symbol>): seq<string> {
    if ss == [] then []
    else if At(u, ss[0]).power != 0 then [Word(ss[0], At(u, ss[0]))] + Words(u, ss[1..])
    else Words(u, ss[1..])
  }

  /** `" ".join(ws)`. */
  function JoinSpaces(ws: seq<string>): string {
    if ws == [] then "" else if |ws| == 1 then ws[0] else ws[0] + " " + JoinSpaces(ws[1..])
  }

  /** `repr(u)`: empty exactly for a unit with no used slot. */
  function Repr(u: Unit): (r: string)
    ensures r == "" <==> forall s: Symbol :: At(u, s).power == 0
  {
    PrintsNothing(u);
    JoinSpaces(Words(u, KnownUnits))
  }

  lemma PrintsNothing(u: Unit)
    ensures JoinSpaces(Words(u, KnownUnits)) == "" <==> forall s: Symbol :: At(u, s).power == 0
  {
    WordsEmpty(u, KnownUnits);
    JoinSpacesEmpty(Words(u, KnownUnits));
    if Words(u, KnownUnits) == [] {
      forall s: Symbol ensures At(u, s).power == 0 {
        KnownUnitsComplete(s);
        var i :| 0 <= i < |KnownUnits| && KnownUnits[i] == s;
      }
    }
  }

  /** No slot among `ss` is printed exactly when none is used; a printed slot
      is never empty. */
  lemma {:induction false} WordsEmpty(u: Unit, ss: seq<Symbol>)
    ensures Words(u, ss) == [] <==> forall i :: 0 <= i < |ss| ==> At(u, ss[i]).power == 0
    ensures forall i :: 0 <= i < |Words(u, ss)| ==> Words(u, ss)[i] != []
  {
    if ss != [] {
      WordsEmpty(u, ss[1..]);
      assert forall i :: 1 <= i < |ss| ==> ss[i] == ss[1..][i - 1];
      if At(u, ss[0]).power != 0 {
        assert |SymbolText(ss[0])| > 0;
        assert Words(u, ss)[0] == Word(ss[0], At(u, ss[0]));
      }
    }
  }

  /** Joining non-empty words gives the empty text only for no words. */
  lemma JoinSpacesEmpty(ws: seq<string>)
    requires forall i :: 0 <= i < |ws| ==> ws[i] != []
    ensures JoinSpaces(ws) == [] <==> ws == []
  {
    if ws != [] {
      assert |JoinSpaces(ws)| >= |ws[0]|;
    }
  }

  /** `u` with every slot of power zero reset to no prefix: a parse of the
      printed form cannot recover the prefix of a power-zero slot. */
  function Normal(u: Unit): (r: Unit)
    ensures forall s: Symbol :: At(r, s) == if At(u, s).power == 0 then Blank else At(u, s)
  {
    Tabulate(s => if At(u, s).power == 0 then Blank else At(u, s))
  }

  predicate NoNegative(u: Unit) {
    forall s: Symbol :: At(u, s).power >= 0
  }

  predicate NoNegativeOver(u: Unit, ss: seq<Symbol>) {
    forall i | 0 <= i < |ss| :: At(u, ss[i]).power >= 0
  }

  /** The slots a left-to-right scan of the printed slots of `u` among `ss`
      assigns on top of `acc`. */
  function Assigned(acc: Unit, u: Unit, ss: seq<Symbol>): Unit
    decreases |ss|
  {
    if ss == [] then acc
    else Assigned(if At(u, ss[0]).power != 0 then With(acc, ss[0], At(u, ss[0])) else acc, u, ss[1..])
  }

  // ---------------------------------------------------------------------------
  // Brace rewriting

  predicate NoBraces(t: string) {
    forall i | 0 <= i < |t| :: t[i] != '{' && t[i] != '}'
  }

  lemma {:induction false} BracesConcat(a: string, b: string)
    ensures Braces(a + b) == Braces(a) + Braces(b)
  {
    if a != [] {
      BracesConcat(a[1..], b);
      assert (a + b)[1..] == a[1..] + b;
    } else {
      assert a + b == b;
    }
  }

  lemma NoBracesConcat(a: string, b: string)
    requires NoBraces(a) && NoBraces(b)
    ensures NoBraces(a + b)
  {
    forall i | 0 <= i < |a + b|
      ensures (a + b)[i] != '{' && (a + b)[i] != '}'
    {
      if i < |a| {
        assert (a + b)[i] == a[i];
      } else {
        assert (a + b)[i] == b[i - |a|];
      }
    }
  }

  lemma NumeralNoBraces(n: int)
    ensures NoBraces(IntToString(n))
  {
    var ds := NatToString(if n < 0 then -n else n);
    if n < 0 {
      NoBracesConcat("-", ds);
    }
  }

  /** A token's text has no braces, so the rewrite leaves it alone. */
  lemma TokenNoBraces(tok: Token)
    ensures Braces(TokenText(tok)) == TokenText(tok)
  {
    var pt, st := PrefixText(tok.prefix), SymbolText(tok.sym);
    assert NoBraces(pt);
    assert NoBraces(st);
    NoBracesConcat(pt, st);
    match tok.power {
      case None =>
        assert TokenText(tok) == pt + st;
      case Some(n) =>
        NumeralNoBraces(n);
        NoBracesConcat("^", IntToString(n));
        NoBracesConcat(pt + st, "^" + IntToString(n));
        assert TokenText(tok) == pt + st + ("^" + IntToString(n));
    }
    BracesFree(TokenText(tok));
  }

  // ---------------------------------------------------------------------------
  // Reading the printed form back

  /** The token a printed slot of positive power is read as. */
  function WordToken(s: Symbol, e: Entry): Token {
    Token(e.prefix, s, if e.power == 1 then None else Some(e.power))
  }

  lemma PositiveWord(s: Symbol, e: Entry)
    requires e.power > 0
    ensures Word(s, e) == TokenText(WordToken(s, e))
    ensures TokenEntry(WordToken(s, e), false) == e
  {
  }

  lemma BracesLiterals()
    ensures Braces("^{") == "^(" && Braces("}") == ")" && Braces(" ") == " " && Braces("") == ""
  {
    assert Braces("}"[1..]) == [];
    assert "^{"[1..] == "{";
    assert Braces("{"[1..]) == [];
  }

  /** After the brace rewrite, a printed negative power reads as `^(`. */
  lemma NegativeWord(s: Symbol, e: Entry)
    requires e.power < 0
    ensures Braces(Word(s, e)) == TokenText(Token(e.prefix, s, None)) + ("^(" + IntToString(e.power) + ")")
  {
    var t := TokenText(Token(e.prefix, s, None));
    var n := IntToString(e.power);
    assert Word(s, e) == t + ("^{" + (n + "}"));
    TokenNoBraces(Token(e.prefix, s, None));
    NumeralNoBraces(e.power);
    BracesFree(n);
    BracesLiterals();
    hide *;
    BracesConcat(t, "^{" + (n + "}"));
    BracesConcat("^{", n + "}");
    BracesConcat(n, "}");
    assert "^(" + (n + ")") == "^(" + n + ")";
  }

  /** A `^` followed by `(` is no power. */
  lemma CaretParen(tail: string)
    ensures PowerAt("^(" + tail).None?
  {
    var t := "^(" + tail;
    assert t[1] == '(';
    assert t[1..][0] == '(';
  }

  /** A bare token followed by `^(` is read as power 1. */
  lemma FitsCaret(tok: Token, tail: string)
    requires tok.power.None?
    ensures Fits(tok, "^(" + tail)
  {
    CaretParen(tail);
  }

  lemma NegativeShape(s: Symbol, e: Entry, rest: string)
    requires e.power < 0
    ensures Braces(Word(s, e) + rest)
         == TokenText(Token(e.prefix, s, None)) + ("^(" + (IntToString(e.power) + ")" + Braces(rest)))
  {
    NegativeWord(s, e);
    BracesConcat(Word(s, e), rest);
  }

  /** The scan stops at the `^` of a printed negative power. */
  lemma NegativeWordFails(s: Symbol, e: Entry, rest: string, acc: Unit)
    requires e.power < 0
    ensures ParseFrom(Braces(Word(s, e) + rest), false, acc) == Err(UnknownCharacter('^'))
  {
    hide *;
    var tok := Token(e.prefix, s, None);
    var tail := IntToString(e.power) + ")" + Braces(rest);
    NegativeShape(s, e, rest);
    FitsCaret(tok, tail);
    TokenStep(tok, "^(" + tail, false, acc);
    CaretStep("(" + tail, false, With(acc, s, TokenEntry(tok, false)));
    assert "^" + ("(" + tail) == "^(" + tail;
  }

  /** A printed slot of positive power that ends the text. */
  lemma PositiveLast(s: Symbol, e: Entry, acc: Unit)
    requires e.power > 0
    ensures ParseFrom(Braces(Word(s, e)), false, acc) == Ok(With(acc, s, e))
  {
    var tok := WordToken(s, e);
    PositiveWord(s, e);
    TokenNoBraces(tok);
    TokenStep(tok, "", false, acc);
    EndStep(false, With(acc, s, e));
    hide *;
    assert TokenText(tok) + "" == TokenText(tok);
  }

  /** A printed slot of positive power followed by a space and more text. */
  lemma PositiveThen(s: Symbol, e: Entry, j: string, acc: Unit)
    requires e.power > 0
    ensures ParseFrom(Braces(Word(s, e) + (" " + j)), false, acc) == ParseFrom(Braces(j), false, With(acc, s, e))
  {
    var tok := WordToken(s, e);
    PositiveWord(s, e);
    TokenNoBraces(tok);
    BracesLiterals();
    hide *;
    BracesConcat(TokenText(tok), " " + j);
    BracesConcat(" ", j);
    TokenStep(tok, " " + Braces(j), false, acc);
    SkipStep(' ', Braces(j), false, With(acc, s, e));
    assert [' '] + Braces(j) == " " + Braces(j);
  }

  lemma WordsStep(u: Unit, ss: seq<Symbol>)
    requires ss != []
    ensures Words(u, ss) == (if At(u, ss[0]).power != 0 then [Word(ss[0], At(u, ss[0]))] else []) + Words(u, ss[1..])
  {
  }

  lemma AssignedStep(acc: Unit, u: Unit, ss: seq<Symbol>)
    requires ss != []
    ensures Assigned(acc, u, ss)
         == Assigned(if At(u, ss[0]).power != 0 then With(acc, ss[0], At(u, ss[0])) else acc, u, ss[1..])
  {
  }

  lemma NoNegativeStep(u: Unit, ss: seq<Symbol>)
    requires ss != []
    ensures NoNegativeOver(u, ss) <==> At(u, ss[0]).power >= 0 && NoNegativeOver(u, ss[1..])
  {
    assert forall i | 1 <= i < |ss| :: ss[i] == ss[1..][i - 1];
  }

  lemma JoinStep(w: string, ws: seq<string>)
    ensures JoinSpaces([w] + ws) == if ws == [] then w else w + (" " + JoinSpaces(ws))
  {
    assert ([w] + ws)[1..] == ws;
  }

  /** Scanning the printed slots of `u` among `ss` from `acc` either assigns
      exactly those slots or stops at the first negative power. */
  lemma {:induction false} ScanWords(u: Unit, ss: seq<Symbol>, acc: Unit)
    ensures ParseFrom(Braces(JoinSpaces(Words(u, ss))), false, acc)
         == if NoNegativeOver(u, ss) then Ok(Assigned(acc, u, ss)) else Err(UnknownCharacter('^'))
    decreases |ss|
  {
    if ss == [] {
      BracesLiterals();
    } else {
      var h, e, tl := ss[0], At(u, ss[0]), ss[1..];
      var ws := Words(u, tl);
      WordsStep(u, ss);
      AssignedStep(acc, u, ss);
      NoNegativeStep(u, ss);
      hide *;
      if e.power == 0 {
        ScanWords(u, tl, acc);
        assert [] + ws == ws;
      } else {
        JoinStep(Word(h, e), ws);
        if e.power > 0 {
          ScanWords(u, tl, With(acc, h, e));
          if ws == [] {
            PositiveLast(h, e, acc);
            BracesLiterals();
            EndStep(false, With(acc, h, e));
          } else {
            PositiveThen(h, e, JoinSpaces(ws), acc);
          }
        } else if ws == [] {
          NegativeWordFails(h, e, "", acc);
          assert Word(h, e) + "" == Word(h, e);
        } else {
          NegativeWordFails(h, e, " " + JoinSpaces(ws), acc);
        }
      }
    }
  }

  // ---------------------------------------------------------------------------
  // The round trip

  lemma KnownUnitsComplete(s: Symbol)
    ensures s in KnownUnits
  {
  }

  /** The scan assigns each printed slot its own entry and leaves the rest. */
  lemma {:induction false} AssignedAt(acc: Unit, u: Unit, ss: seq<Symbol>, s: Symbol)
    ensures At(Assigned(acc, u, ss), s) == if s in ss && At(u, s).power != 0 then At(u, s) else At(acc, s)
    decreases |ss|
  {
    if ss != [] {
      var h := ss[0];
      var acc' := if At(u, h).power != 0 then With(acc, h, At(u, h)) else acc;
      AssignedStep(acc, u, ss);
      AssignedAt(acc', u, ss[1..], s);
      assert s in ss <==> s == h || s in ss[1..] by {
        assert ss == [h] + ss[1..];
      }
    }
  }

  lemma NormalIsAssigned(u: Unit)
    ensures Assigned(Dimensionless, u, KnownUnits) == Normal(u)
  {
    var r := Assigned(Dimensionless, u, KnownUnits);
    forall s: Symbol
      ensures At(r, s) == At(Normal(u), s)
    {
      KnownUnitsComplete(s);
      AssignedAt(Dimensionless, u, KnownUnits, s);
    }
    Ext(r, Normal(u));
  }

  lemma NoNegativeAll(u: Unit)
    ensures NoNegative(u) <==> NoNegativeOver(u, KnownUnits)
  {
    if NoNegativeOver(u, KnownUnits) {
      forall s: Symbol
        ensures At(u, s).power >= 0
      {
        KnownUnitsComplete(s);
        var i :| 0 <= i < |KnownUnits| && KnownUnits[i] == s;
      }
    }
  }

  /** Reading back the printed form of a unit: with no negative power it
      gives the unit back, up to the prefixes of its power-zero slots; with a
      negative power the parser stops at the `^` of the first one. */
  lemma ReprRoundTrip(u: Unit)
    ensures NoNegative(u) ==> Parse(Repr(u)) == Ok(Normal(u))
    ensures !NoNegative(u) ==> Parse(Repr(u)) == Err(BadUnit(UnknownCharacter('^')))
  {
    ScanWords(u, KnownUnits, Dimensionless);
    NormalIsAssigned(u);
    NoNegativeAll(u);
  }

  // ---------------------------------------------------------------------------
  // Power-zero slots

  /** A slot of power zero contributes nothing, whatever its prefix. */
  lemma ZeroSlot(s: Symbol, e: Entry)
    requires e.power == 0
    ensures SymbolFactor(s, e) == 1.0 && SymbolDims(s, e) == NoDims
  {
  }

  lemma {:induction false} FactorOverSlots(u: Unit, v: Unit, ss: seq<Symbol>)
    requires forall s: Symbol :: SymbolFactor(s, At(u, s)) == SymbolFactor(s, At(v, s))
    ensures FactorOver(u, ss) == FactorOver(v, ss)
    decreases |ss|
  {
    hide SymbolFactor;
    if ss == [] {
      assert FactorOver(u, ss) == 1.0 == FactorOver(v, ss);
    } else {
      FactorOverStep(u, ss);
      FactorOverStep(v, ss);
      FactorOverSlots(u, v, ss[1..]);
      hide *;
      assert SymbolFactor(ss[0], At(u, ss[0])) == SymbolFactor(ss[0], At(v, ss[0]));
    }
  }

  lemma {:induction false} DimsOverSlots(u: Unit, v: Unit, ss: seq<Symbol>)
    requires forall s: Symbol :: SymbolDims(s, At(u, s)) == SymbolDims(s, At(v, s))
    ensures DimsOver(u, ss) == DimsOver(v, ss)
    decreases |ss|
  {
    hide SymbolDims;
    if ss == [] {
      assert DimsOver(u, ss) == NoDims == DimsOver(v, ss);
    } else {
      DimsOverStep(u, ss);
      DimsOverStep(v, ss);
      DimsOverSlots(u, v, ss[1..]);
      hide *;
      assert SymbolDims(ss[0], At(u, ss[0])) == SymbolDims(ss[0], At(v, ss[0]));
    }
  }

  /** Dropping the prefixes of power-zero slots changes neither the factor
      nor the dimensions. */
  lemma NormalEqual(u: Unit)
    ensures Equal(Normal(u), u)
  {
    var v := Normal(u);
    forall s: Symbol
      ensures SymbolFactor(s, At(v, s)) == SymbolFactor(s, At(u, s))
      ensures SymbolDims(s, At(v, s)) == SymbolDims(s, At(u, s))
    {
      if At(u, s).power == 0 {
        ZeroSlot(s, At(u, s));
        ZeroSlot(s, At(v, s));
      }
    }
    FactorOverSlots(v, u, KnownUnits);
    DimsOverSlots(v, u, KnownUnits);
  }

  // ---------------------------------------------------------------------------
  // Comparing with a unit string

  /** `u == text`: the text is parsed first, so a malformed text raises
      instead of comparing unequal. */
  function EqualsText(u: Unit, text: string): (r: Result<bool, Error>)
    ensures r.Err? <==> Parse(text).Err?
    ensures r.Err? ==> r.error == Parse(text).error
    ensures r.Ok? ==> r.value == Equal(u, Parse(text).value)
  {
    match Parse(text)
    case Ok(v) => Ok(Equal(u, v))
    case Err(e) => Err(e)
  }

  /** A unit equals its own printed form whenever that form can be read back. */
  lemma EqualsOwnRepr(u: Unit)
    ensures NoNegative(u) ==> EqualsText(u, Repr(u)) == Ok(true)
    ensures !NoNegative(u) ==> EqualsText(u, Repr(u)).Err?
  {
    ReprRoundTrip(u);
    NormalEqual(u);
  }
}

=== FILE: units.dfy ===
/** SI units as the library represents them: every known symbol carries a
    prefix and an integer power. Products, quotients, reciprocals and powers
    act symbol by symbol; equality compares the resolved constant factor and
    base dimensions. */
module Units {
  import opened Wrappers
  import opened Powers
  import opened Symbols
  import opened Errors

  /** One symbol's slot in a unit. */
  datatype Entry = Entry(prefix: Prefix, power: int)

  /** The slot of a symbol the unit does not mention. */
  const Blank: Entry := Entry(NoPrefix, 0)

  /** A unit: one slot for every known symbol, as the library's table of
      known units keys its dictionary. */
  datatype Unit = Unit(
    joule: Entry, volt: Entry, newton: Entry, watt: Entry, tesla: Entry,
    pascal: Entry, hertz: Entry, celsius: Entry, electronVolt: Entry,
    metre: Entry, gram: Entry, second: Entry, ampere: Entry, kelvin: Entry)

  /** The slot of symbol `s` in unit `u`. */
  function At(u: Unit, s: Symbol): Entry {
    match s
    case Joule => u.joule
    case Volt => u.volt
    case Newton => u.newton
    case Watt => u.watt
    case Tesla => u.tesla
    case Pascal => u.pascal
    case Hertz => u.hertz
    case Celsius => u.celsius
    case ElectronVolt => u.electronVolt
    case Metre => u.metre
    case Gram => u.gram
    case Second => u.second
    case Ampere => u.ampere
    case Kelvin => u.kelvin
  }

  /** The unit whose slot for each symbol is `f` of that symbol. */
  function Tabulate(f: Symbol -> Entry): (u: Unit)
    ensures forall s: Symbol :: At(u, s) == f(s)
  {
    Unit(f(Joule), f(Volt), f(Newton), f(Watt), f(Tesla), f(Pascal), f(Hertz), f(Celsius),
         f(ElectronVolt), f(Metre), f(Gram), f(Second), f(Ampere), f(Kelvin))
  }

  /** Two units with the same slots are the same unit. */
  lemma Ext(r: Unit, q: Unit)
    requires forall s: Symbol :: At(r, s) == At(q, s)
    ensures r == q
  {
    assert At(r, Joule) == At(q, Joule) && At(r, Volt) == At(q, Volt);
    assert At(r, Newton) == At(q, Newton) && At(r, Watt) == At(q, Watt);
    assert At(r, Tesla) == At(q, Tesla) && At(r, Pascal) == At(q, Pascal);
    assert At(r, Hertz) == At(q, Hertz) && At(r, Celsius) == At(q, Celsius);
    assert At(r, ElectronVolt) == At(q, ElectronVolt) && At(r, Metre) == At(q, Metre);
    assert At(r, Gram) == At(q, Gram) && At(r, Second) == At(q, Second);
    assert At(r, Ampere) == At(q, Ampere) && At(r, Kelvin) == At(q, Kelvin);
  }

  /** `u` with the slot of `s` replaced by `e`: what the parser does when it
      records a prefix and power for a symbol. */
  function With(u: Unit, s: Symbol, e: Entry): (r: Unit)
    ensures At(r, s) == e
    ensures forall x: Symbol :: x != s ==> At(r, x) == At(u, x)
  {
    match s
    case Joule => u.(joule := e)
    case Volt => u.(volt := e)
    case Newton => u.(newton := e)
    case Watt => u.(watt := e)
    case Tesla => u.(tesla := e)
    case Pascal => u.(pascal := e)
    case Hertz => u.(hertz := e)
    case Celsius => u.(celsius := e)
    case ElectronVolt => u.(electronVolt := e)
    case Metre => u.(metre := e)
    case Gram => u.(gram := e)
    case Second => u.(second := e)
    case Ampere => u.(ampere := e)
    case Kelvin => u.(kelvin := e)
  }

  /** The unit of the empty string. */
  const Dimensionless: Unit :=
    Unit(Blank, Blank, Blank, Blank, Blank, Blank, Blank, Blank, Blank, Blank, Blank, Blank, Blank, Blank)

  // ---------------------------------------------------------------------------
  // Unit algebra

  /** Both symbols are present with different prefixes: the library refuses to
      combine them because a constant factor would arise. */
  predicate Clash(x: Entry, y: Entry) {
    x.power != 0 && y.power != 0 && x.prefix != y.prefix
  }

  /** The slot of a product or quotient whose new power is `power`: the prefix
      of whichever side is present, and no prefix once the power cancels.
      Only used when the two slots do not clash. */
  function Combine(x: Entry, y: Entry, power: int): Entry {
    if x.power != 0 && y.power == 0 then Entry(x.prefix, power)
    else if x.power == 0 && y.power != 0 then Entry(y.prefix, power)
    else if power != 0 then Entry(x.prefix, power)
    else Blank
  }

  /** Each slot of a product or quotient `c` of `a` and `b` carries no prefix
      once its power cancels, and otherwise the prefix of `a` when `a` has
      the symbol and that of `b` when only `b` has it. */
  predicate PrefixesKept(a: Unit, b: Unit, c: Unit) {
    forall s: Symbol ::
      && (At(c, s).power == 0 ==> At(c, s).prefix == NoPrefix)
      && (At(c, s).power != 0 ==> At(c, s).prefix == (if At(a, s).power != 0 then At(a, s).prefix else At(b, s).prefix))
  }

  predicate Compatible(a: Unit, b: Unit) {
    forall s: Symbol :: !Clash(At(a, s), At(b, s))
  }

  /** `a * b` for two units. */
  function Mul(a: Unit, b: Unit): (r: Result<Unit, Error>)
    ensures r.Ok? <==> (forall s: Symbol :: !Clash(At(a, s), At(b, s)))
    ensures r.Err? ==> r.error == PrefixConflict
    ensures r.Ok? ==> forall s: Symbol :: At(r.value, s).power == At(a, s).power + At(b, s).power
    ensures r.Ok? ==> PrefixesKept(a, b, r.value)
  {
    if Compatible(a, b) then
      Ok(Tabulate(s => Combine(At(a, s), At(b, s), At(a, s).power + At(b, s).power)))
    else
      Err(PrefixConflict)
  }

  /** `a / b` for two units. */
  function Div(a: Unit, b: Unit): (r: Result<Unit, Error>)
    ensures r.Ok? <==> (forall s: Symbol :: !Clash(At(a, s), At(b, s)))
    ensures r.Err? ==> r.error == PrefixConflict
    ensures r.Ok? ==> forall s: Symbol :: At(r.value, s).power == At(a, s).power - At(b, s).power
    ensures r.Ok? ==> PrefixesKept(a, b, r.value)
  {
    if Compatible(a, b) then
      Ok(Tabulate(s => Combine(At(a, s), At(b, s), At(a, s).power - At(b, s).power)))
    else
      Err(PrefixConflict)
  }

  /** `u * c` (and `c * u`) for a number `c`: the unit is returned as it is,
      whatever the number. */
  function MulNumber(u: Unit, c: real): (r: Unit)
    ensures r == u
  {
    u
  }

  /** The reciprocal unit: every power negated, prefixes kept. */
  function Inv(u: Unit): (r: Unit)
    ensures forall s: Symbol :: At(r, s).power == -At(u, s).power && At(r, s).prefix == At(u, s).prefix
  {
    Tabulate(s => Entry(At(u, s).prefix, -At(u, s).power))
  }

  /** `c / u` for a number `c`: the reciprocal unit, multiplied by `c`. */
  function NumberOver(c: real, u: Unit): (r: Unit)
    ensures r == Inv(u)
    ensures forall s: Symbol :: At(r, s).power == -At(u, s).power && At(r, s).prefix == At(u, s).prefix
  {
    MulNumber(Inv(u), c)
  }

  /** `u ** n` for an integer `n`: every power scaled, prefixes kept. */
  function Pow(u: Unit, n: int): (r: Unit)
    ensures forall s: Symbol :: At(r, s).power == At(u, s).power * n && At(r, s).prefix == At(u, s).prefix
  {
    Tabulate(s => Entry(At(u, s).prefix, At(u, s).power * n))
  }

  predicate IsIntegral(x: real) {
    x.Floor as real == x
  }


  /** A unit power scaled by a real exponent. */
  function Scaled(power: int, c: real): real {
    power as real * c
  }

  /** `u ** c` for a real `c`, defined when every scaled power is a whole number. */
  function PowReal(u: Unit, c: real): (r: Result<Unit, Error>)
    ensures r.Ok? <==> (forall s: Symbol :: IsIntegral(Scaled(At(u, s).power, c)))
    ensures r.Ok? ==> forall s: Symbol ::
      At(r.value, s).power as real == Scaled(At(u, s).power, c) && At(r.value, s).prefix == At(u, s).prefix
    ensures r.Err? ==> r.error == FractionalUnitPower
  {
    if forall s: Symbol :: IsIntegral(Scaled(At(u, s).power, c)) then
      Ok(Tabulate(s => ScaleEntry(At(u, s), c)))
    else
      Err(FractionalUnitPower)
  }

  function ScaleEntry(e: Entry, c: real): (r: Entry)
    ensures IsIntegral(Scaled(e.power, c)) ==> r.power as real == Scaled(e.power, c)
    ensures r.prefix == e.prefix
  {
    Entry(e.prefix, Scaled(e.power, c).Floor)
  }

  /** `u / c` for a number `c`: the unit itself, once `1 / c` is defined. */
  function DivNumber(u: Unit, c: real): (r: Result<Unit, Error>)
    ensures r.Ok? <==> c != 0.0
    ensures r.Ok? ==> r.value == u
    ensures r.Err? ==> r.error == ZeroDivision
  {
    if c == 0.0 then Err(ZeroDivision) else Ok(MulNumber(u, 1.0 / c))
  }

  // ---------------------------------------------------------------------------
  // Resolution into a constant factor and base dimensions

  /** Powers of the five base units: metre, gram, second, ampere, kelvin. */
  datatype Dims = Dims(metre: int, gram: int, second: int, ampere: int, kelvin: int) {
    function Plus(o: Dims): Dims {
      Dims(metre + o.metre, gram + o.gram, second + o.second, ampere + o.ampere, kelvin + o.kelvin)
    }
    function Times(n: int): Dims {
      Dims(metre * n, gram * n, second * n, ampere * n, kelvin * n)
    }
  }

  const NoDims: Dims := Dims(0, 0, 0, 0, 0)

  /** The base-unit powers of a derived symbol's expansion. */
  function ExpansionDims(s: Symbol): Dims
    requires !IsBase(s)
  {
    match s
    case Joule => Dims(2, 1, -2, 0, 0)
    case Volt => Dims(2, 1, -3, -1, 0)
    case Newton => Dims(1, 1, -2, 0, 0)
    case Watt => Dims(2, 1, -3, 0, 0)
    case Tesla => Dims(0, 1, -2, -1, 0)
    case Pascal => Dims(-1, 1, -2, 0, 0)
    case Hertz => Dims(0, 0, -1, 0, 0)
    case Celsius => Dims(0, 0, 0, 0, 1)
    case ElectronVolt => Dims(2, 1, -2, 0, 0)
  }

  /** A derived symbol written in base units: the gram always appears as `kg`. */
  function Expansion(s: Symbol): Unit
    requires !IsBase(s)
  {
    var d := ExpansionDims(s);
    Dimensionless.(metre := Entry(NoPrefix, d.metre),
                   gram := if d.gram != 0 then Entry(Kilo, d.gram) else Entry(NoPrefix, d.gram),
                   second := Entry(NoPrefix, d.second),
                   ampere := Entry(NoPrefix, d.ampere),
                   kelvin := Entry(NoPrefix, d.kelvin))
  }

  /** The dimension vector of a base symbol. */
  function BaseVector(s: Symbol): Dims
    requires IsBase(s)
  {
    match s
    case Metre => Dims(1, 0, 0, 0, 0)
    case Gram => Dims(0, 1, 0, 0, 0)
    case Second => Dims(0, 0, 1, 0, 0)
    case Ampere => Dims(0, 0, 0, 1, 0)
    case Kelvin => Dims(0, 0, 0, 0, 1)
  }

  /** What one slot contributes to the base dimensions: a derived symbol
      with power zero is skipped; otherwise every base power of its
      expansion, times the slot's power. */
  function SymbolDims(s: Symbol, e: Entry): Dims {
    if IsBase(s) then BaseVector(s).Times(e.power)
    else if e.power == 0 then NoDims
    else
      var x := Expansion(s);
      Dims(At(x, Metre).power * e.power, At(x, Gram).power * e.power, At(x, Second).power * e.power,
           At(x, Ampere).power * e.power, At(x, Kelvin).power * e.power)
  }

  function DimsOver(u: Unit, syms: seq<Symbol>): Dims {
    if syms == [] then NoDims else SymbolDims(syms[0], At(u, syms[0])).Plus(DimsOver(u, syms[1..]))
  }

  function BaseDims(u: Unit): Dims {
    DimsOver(u, KnownUnits)
  }

  /** The product of the prefix multipliers of an expansion's base units,
      each raised to its power times `p`. */
  function ExpansionFactor(x: Unit, p: int, bases: seq<Symbol>): real {
    if bases == [] then 1.0
    else RealPow(PrefixValue(At(x, bases[0]).prefix), At(x, bases[0]).power * p) * ExpansionFactor(x, p, bases[1..])
  }

  /** What one slot contributes to the constant factor. */
  function SymbolFactor(s: Symbol, e: Entry): real {
    if IsBase(s) then RealPow(PrefixValue(e.prefix), e.power)
    else if e.power == 0 then 1.0
    else
      var constant := match DerivedConstant(s) case Some(k) => RealPow(k, e.power) case None => 1.0;
      constant * RealPow(PrefixValue(e.prefix), e.power) * ExpansionFactor(Expansion(s), e.power, BaseUnits)
  }

  function FactorOver(u: Unit, syms: seq<Symbol>): real {
    if syms == [] then 1.0 else SymbolFactor(syms[0], At(u, syms[0])) * FactorOver(u, syms[1..])
  }

  /** One step of the slot-by-slot product, with the slot's contribution left folded. */
  lemma FactorOverStep(u: Unit, ss: seq<Symbol>)
    requires ss != []
    ensures FactorOver(u, ss) == SymbolFactor(ss[0], At(u, ss[0])) * FactorOver(u, ss[1..])
  {
    hide SymbolFactor, At;
  }

  /** One step of the slot-by-slot sum of dimensions. */
  lemma DimsOverStep(u: Unit, ss: seq<Symbol>)
    requires ss != []
    ensures DimsOver(u, ss) == SymbolDims(ss[0], At(u, ss[0])).Plus(DimsOver(u, ss[1..]))
  {
    hide SymbolDims, At;
  }

  /** The constant factor of a unit relative to its base units (`km` is 1000). */
  function Factor(u: Unit): real {
    FactorOver(u, KnownUnits)
  }

  /** Two units are the same when their factors and base dimensions agree. */
  predicate Equal(a: Unit, b: Unit) {
    Factor(a) == Factor(b) && BaseDims(a) == BaseDims(b)
  }

  predicate SameDims(a: Unit, b: Unit) {
    BaseDims(a) == BaseDims(b)
  }

  /** All base dimensions cancel. */
  predicate Unitless(u: Unit) {
    BaseDims(u) == NoDims
  }
}

=== FILE: wrappers.dfy ===
/** Failure-compatible result and option types used by every operation that
    raises in the original library. */
module Wrappers {

  datatype Option<+T> = None | Some(value: T)

  /** `Ok` carries the value an operation returns; `Err` the exception it raises. */
  datatype Result<+T, +E> = Ok(value: T) | Err(error: E) {

    predicate IsFailure() {
      Err?
    }

    function PropagateFailure<U>(): Result<U, E>
      requires Err?
    {
      Err(error)
    }

    function Extract(): T
      requires Ok?
    {
      value
    }
  }
}
